=== FILE: README.md ===
# Fiuncho search core in Dafny

Fiuncho searches a genotype dataset exhaustively for epistasis: it scores
every combination of `k` markers (SNPs) by the mutual information between
the combination's genotypes and the phenotype, and keeps the best ones.
This project models the integer logic of that search and proves what it
computes:

- **Words** (`words.dfy`): 64-bit words as `bv64`, bit-planes as
  `seq<bv64>`, the word-by-word AND of two planes and the population counts
  over them, including the batched forms the SIMD kernels use.
- **Tables** (`tables.dfy`): the `BitTable` of order `o` (`3^o` planes per
  class), the `ContingencyTable`, and the flat allocation layout of the
  constructors, aligned layout included.
- **ScalarKernel** (`scalar_kernel.dfy`): `combine` and
  `combine_and_popcnt` of the scalar backend.
- **SimdKernel** (`simd_kernel.dfy`): `fill` and `popcnt` of the AVX2
  (4-word batches) and AVX-512 (8-word batches) backends. They agree with
  each other. They also agree with the scalar backend up to one fixed
  permutation of the cells: the last two base-3 digits of the plane index
  are swapped.
- **Distribution** (`distribution.dfy`): `Distributor::layer`, the eager
  `get_pairs` of the engine generation, and the lazy `PairList` cursor of
  the other generation.
- **Combinations** (`combinations.dfy`): the reference enumeration of
  combinations below a root pair, and what an explicit stack of partial
  combinations still has to produce.
- **Exploration** (`exploration.dfy`): `thread_main`, `flat_exploration`
  and `depth_exploration` of both API generations. The kernels and the
  score are parameters (`Kernel`).
- **Merge** (`merge.dfy`): the per-thread merge of `ThreadedSearch::run`,
  the displacements and coordinator merge of `MPIEngine::run`, and how the
  process and thread layers share the pairs.
- **Dataset** (`dataset.dfy`): the word counts and case/control split of
  `Dataset::read`, the bit encoding of `Dataset::populate`, and the
  popcount identities the dataset test relies on.

Inputs that the program reads from files become parameters: individuals
with their phenotypes, and the genotypes of each marker. The score
`MutualInformation::compute` is an uninterpreted function of a contingency
table (`Kernel.score`). The merges compare results through an abstract
integer key that stands for the order of their scores.

Where the code departs from what it evidently intends, the model follows
the code:

- The code's lazy pair cursor yields `(0, 0)`. When there are more
  workers than markers, some workers also yield pairs that are not pairs,
  and some real pairs are walked by several workers.
- The engine's depth search skips the triples whose third marker is the
  last one.

Each of these is modelled as written, next to a corrected definition (see
Findings).

## Model

| member | source | states |
|---|---|---|
| Words.PopCount | src/cpu/base/BitTable.cpp:59-62 | the popcount of one 64-bit word is at most 64 |
| Words.PopBitsBound | src/cpu/base/BitTable.cpp:59-62 | counting the set bits among the lowest `bits` bits gives at most `bits` |
| Words.AndCommutes | src/cpu/256_avx2/BitTable.cpp:38-40 | `a AND b == b AND a` plane-wise, so the SIMD operand order `c2[j] & c1[i+d]` builds the same plane as `c1 & c2` |
| Words.AndSplit | src/cpu/256_avx2/BitTable.cpp:29-53 | the AND of two planes is the AND of their first `n` words followed by the AND of the rest |
| Words.PlanePopBound | src/cpu/base/BitTable.cpp:59-62 | a plane of `w` words has popcount at most `64*w` |
| Words.PlanePopAppend | src/cpu/base/BitTable.cpp:58-63 | the popcount of two concatenated planes is the sum of their popcounts |
| Words.AndPopCommutes | src/cpu/256_avx2/BitTable.cpp:113-124 | the summed popcount of an AND does not depend on the operand order |
| Words.AndPopIsPlanePop | src/cpu/base/BitTable.cpp:56-65 | the word-at-a-time sum of `popcount(a[k] & b[k])` equals the popcount of the ANDed plane |
| Words.AndDrop | src/cpu/base/BitTable.cpp:24-27 | dropping the first word of both operands drops the first word of their AND |
| Words.AndPopBound | src/cpu/base/BitTable.cpp:58-62 | a cell's count over `w` words is at most `64*w` |
| Words.BatchedAnd | src/cpu/256_avx2/BitTable.cpp:29-53 | the batch-by-batch AND has the operands' length |
| Words.BatchedAndIsAnd | src/cpu/256_avx2/BitTable.cpp:29-53 | ANDing `WIDTH` words per vector, batch after batch, builds exactly the word-by-word AND plane |
| Words.BatchedPopIsAndPop | src/cpu/512_avx512bw/BitTable.cpp:116-127 | adding the `WIDTH` word popcounts of each batch, batch after batch, gives the unbatched per-word sum |
| Tables.Pow3 | src/cpu/base/BitTable.cpp:8 | `3^o` is at least 1 |
| Tables.NewBitTable | src/cpu/base/BitTable.cpp:5-13 | a new table of order `o` is well formed, with `3^o` planes per class and the given word counts |
| Tables.FlattenIndex | src/cpu/base/BitTable.cpp:25-26 | in the flattened planes, word `k` of plane `p` sits at `p*words + k` |
| Tables.FlattenLength | src/cpu/base/BitTable.cpp:10 | planes of `words` words flatten to `planes*words` words |
| Tables.AllocationLength | src/cpu/base/BitTable.cpp:10 | the allocation of a table holds `size*(cases_words+ctrls_words)` words |
| Tables.CasesLayout | src/cpu/base/BitTable.cpp:11 | case word `k` of plane `p` sits at `p*cases_words + k` of the allocation |
| Tables.CtrlsLayout | src/cpu/base/BitTable.cpp:11 | control word `k` of plane `p` sits at `size*cases_words + p*ctrls_words + k`: the controls start right after the cases |
| Tables.AlignedRegionFits | src/cpu/256_avx2/BitTable.cpp:12-15 | rounding an 8-byte-aligned address up to a `8*extra`-byte boundary gives an aligned address whose table region still ends inside the padded allocation |
| ScalarKernel.CombinePlanes | src/cpu/base/BitTable.cpp:22-30 | output plane `3i+j` is `prev[i] AND next[j]`; planes from `3*size1` on are unchanged |
| ScalarKernel.PlanesByOperands | src/cpu/base/BitTable.cpp:22-30 | a plane sequence that holds `prev[q/3] AND next[q%3]` at each `q` holds `prev[i] AND next[j]` at `3i+j` |
| ScalarKernel.Combine | src/cpu/base/BitTable.cpp:15-41 | `combine` writes `t1[i] AND t2[j]` to plane `3i+j` for cases and for controls independently, keeps the output's shape, and leaves every other plane unchanged |
| ScalarKernel.CountCells | src/cpu/base/BitTable.cpp:50-65 | cell `3i+j` is the summed popcount of `prev[i] AND next[j]`; all other cells are 0; each cell is at most `64*words` |
| ScalarKernel.CellsByOperands | src/cpu/base/BitTable.cpp:56-65 | counts held at `q` by base-3 digits are the counts of `prev[i] AND next[j]` at `3i+j` |
| ScalarKernel.Cell | src/cpu/base/BitTable.cpp:51-62 | the value of one cell: the count of its two digits' product below `3*size1`, 0 above, never more than `64*words` |
| ScalarKernel.CombineAndPopcnt | src/cpu/base/BitTable.cpp:43-77 | `combine_and_popcnt` zeroes every cell, then puts the count of `t1[i] AND t2[j]` in cell `3i+j` for both classes; each cell is at most 64 times its class's word count |
| ScalarKernel.PopcntIsPopOfCombine | src/cpu/base/BitTable.cpp:15-77 | each cell of `combine_and_popcnt(t1,t2)` is the popcount of the same plane of `combine(t1,t2)`, for cases and controls |
| ScalarKernel.CombinePlaneAt | src/cpu/base/BitTable.cpp:25-27 | plane `3i+j` of the scalar output is `prev[i] AND next[j]`: one instance of CombinePlanes, named by its slot for the SIMD comparison |
| ScalarKernel.CountCellAt | src/cpu/base/BitTable.cpp:59-62 | cell `3i+j` of the scalar counts is the count of `prev[i] AND next[j]`: one instance of CountCells, named by its slot for the SIMD comparison |
| SimdKernel.Block | src/cpu/256_avx2/BitTable.cpp:28-54 | one block of three previous planes yields nine planes |
| SimdKernel.BlockAt | src/cpu/256_avx2/BitTable.cpp:38-52 | plane `3j+d` of a block is `c2[j] AND c1[d]` |
| SimdKernel.NextBlock | src/cpu/256_avx2/BitTable.cpp:27 | a non-empty table of a multiple of 3 planes has a whole block and the rest is again a multiple of 3 |
| SimdKernel.FillBlocks | src/cpu/256_avx2/BitTable.cpp:27-55 | the block loop writes three planes per previous plane |
| SimdKernel.FillBlocksAt | src/cpu/256_avx2/BitTable.cpp:27-55 | plane `(i+j)*3+d` of the block loop is `c2[j] AND c1[i+d]` for `i` a multiple of 3 |
| SimdKernel.FillPlanes | src/cpu/256_avx2/BitTable.cpp:27-55 | `fill` for one class: plane `(i+j)*3+d` is `c2[j] AND c1[i+d]`, planes from `3*size1` on are unchanged |
| SimdKernel.Fill | src/cpu/256_avx2/BitTable.cpp:19-86 | `fill` writes the SIMD layout for cases and controls independently, keeps the table's shape and leaves higher planes unchanged |
| SimdKernel.FillPlanesShape | src/cpu/256_avx2/BitTable.cpp:41-52 | every plane `fill` stores has the class's word count |
| SimdKernel.SlotDigits | src/cpu/256_avx2/BitTable.cpp:42-51 | every plane below `3*size1` is written by exactly one `(i, j, d)`: `i = 3*(q/9)`, `j = (q/3)%3`, `d = q%3` |
| SimdKernel.BatchCell | src/cpu/256_avx2/BitTable.cpp:104-124 | the batched popcount sum of one cell equals the word-at-a-time sum and is at most `64*words` |
| SimdKernel.CountBlock | src/cpu/256_avx2/BitTable.cpp:103-126 | one block yields nine counts, each at most `64*words` |
| SimdKernel.CountBlocks | src/cpu/256_avx2/BitTable.cpp:102-127 | the block loop yields three counts per previous plane, each at most `64*words` |
| SimdKernel.CountBlocksAt | src/cpu/256_avx2/BitTable.cpp:116-124 | count `(i+j)*3+d` of the block loop is the count of `c2[j] AND c1[i+d]` |
| SimdKernel.CountLayout | src/cpu/256_avx2/BitTable.cpp:102-127 | every written count sits at its SIMD slot |
| SimdKernel.PopcntCells | src/cpu/256_avx2/BitTable.cpp:96-127 | `popcnt` for one class: cell `(i+j)*3+d` is the count of `c2[j] AND c1[i+d]`, all other cells are 0, each cell at most `64*words` |
| SimdKernel.Popcnt | src/cpu/256_avx2/BitTable.cpp:88-155 | `popcnt` zeroes all cells, then fills the SIMD layout for cases and controls; the counts are bounded by 64 times the word counts |
| SimdKernel.PopcntIsPopOfFill | src/cpu/512_avx512bw/BitTable.cpp:19-162 | each cell of `popcnt` is the popcount of the plane `fill` writes at the same index, for both classes |
| SimdKernel.Avx512MatchesAvx2 | src/cpu/512_avx512bw/BitTable.cpp:19-162 | any input valid at width 8 is valid at width 4, and both widths give identical `fill` tables and `popcnt` counts |
| SimdKernel.SwapDigitsInvolution | src/cpu/256_avx2/BitTable.cpp:42-51 | swapping the last two base-3 digits of a plane index stays below `3*size1` and undoes itself, so it permutes the written planes |
| SimdKernel.FillIsSwappedCombine | src/cpu/256_avx2/BitTable.cpp:27-55 | plane `q` of `fill` is plane `SwapDigits(q)` of the scalar `combine`: the same products, permuted |
| SimdKernel.SwapOfSlot | src/cpu/256_avx2/BitTable.cpp:42-51 | the SIMD slot `(i+j)*3+d`, digit-swapped, is the scalar slot `3(i+d)+j` |
| SimdKernel.FillPlaneAt | src/cpu/256_avx2/BitTable.cpp:38-52 | plane `(i+j)*3+d` of `fill` is `c2[j] AND c1[i+d]`: one instance of FillPlanes, named by its slot for FillIsSwappedCombine |
| SimdKernel.PopcntIsSwappedCount | src/cpu/256_avx2/BitTable.cpp:102-127 | cell `q` of `popcnt` is cell `SwapDigits(q)` of `combine_and_popcnt` |
| SimdKernel.PopcntCellAt | src/cpu/256_avx2/BitTable.cpp:116-124 | cell `(i+j)*3+d` of `popcnt` is the count of `c2[j] AND c1[i+d]`: one instance of PopcntCells, named by its slot for PopcntIsSwappedCount |
| SimdKernel.LayoutsDiffer | src/cpu/256_avx2/BitTable.cpp:41-52 | for a concrete order-1 input with distinct operands, `fill` and `combine` produce different plane sequences |
| SimdKernel.IdenticalOperandsAgree | tests/bittable.cpp:182-199 | when both operands are the same three planes, `fill` and `combine` produce identical tables |
| SimdKernel.IdenticalPlaneAt | tests/bittable.cpp:182-199 | with identical operands, each plane of `fill` equals the same plane of `combine` |
| SimdKernel.FillSide | tests/bittable.cpp:188 | with identical operands, plane `3j+d` of `fill` is `c[j] AND c[d]` |
| SimdKernel.IdenticalOperandsCountAgree | tests/bittable.cpp:203-231 | when both operands are the same three planes, `popcnt` and `combine_and_popcnt` give identical counts |
| SimdKernel.Avx2Alignment | src/cpu/256_avx2/BitTable.cpp:12-15 | with 4 spare words and a 32-byte round-up, `cases` is 32-byte aligned and the table region fits inside the allocation |
| SimdKernel.Avx512Alignment | src/cpu/512_avx512bw/BitTable.cpp:12-15 | with 8 spare words and a 64-byte round-up, `cases` is 64-byte aligned and the table region fits inside the allocation |
| Distribution.Layer | include/fiuncho/engine/Distributor.h:37-41 | layering keeps the marker count |
| Distribution.LayerInRange | include/fiuncho/Distributor.h:94-98 | with `id < frac` and `i < f`, the layered id is below the layered `frac*f` |
| Distribution.LayerInjective | include/fiuncho/Distributor.h:94-98 | distinct `(id, i)` give distinct layered ids |
| Distribution.LayerOnto | include/fiuncho/engine/Distributor.h:37-41 | every id `k` below `frac*f` is the layered id of worker `k/f`, thread `k%f` |
| Distribution.Rows | include/fiuncho/engine/Distributor.h:47 | the first `a` rows hold `RowStart(n, a)` pairs |
| Distribution.RowStartMonotone | include/fiuncho/engine/Distributor.h:47-52 | row starts never decrease |
| Distribution.RowStartSaturates | include/fiuncho/engine/Distributor.h:47 | rows at or past `n` are empty |
| Distribution.TotalPairs | include/fiuncho/engine/Distributor.h:44 | the row-major sequence holds `n(n-1)/2` pairs |
| Distribution.RowStartClosed | include/fiuncho/engine/Distributor.h:44-52 | row `a` starts at position `a(2n-a-1)/2` |
| Distribution.RowsIndex | include/fiuncho/engine/Distributor.h:47-50 | every pair `a < b < n` sits at position `Rank(a, b)` of the row-major sequence |
| Distribution.RowsEntry | include/fiuncho/engine/Distributor.h:47-50 | every entry of the row-major sequence is a pair with its own position as rank |
| Distribution.CanonicalIsPairs | include/fiuncho/engine/Distributor.h:47-50 | the row-major sequence lists exactly the pairs `a < b < n`, each at its rank, in both directions |
| Distribution.RankMonotone | include/fiuncho/engine/Distributor.h:47-50 | lexicographically smaller pairs have smaller ranks |
| Distribution.CanonicalSorted | include/fiuncho/engine/Distributor.h:47-50 | the row-major sequence is strictly increasing lexicographically |
| Distribution.Strided | include/fiuncho/engine/Distributor.h:48 | taking every `frac`-th element from `id` gives element `s[id + m*frac]` at position `m` |
| Distribution.StridedCons | include/fiuncho/engine/Distributor.h:48 | a stride is its first element followed by the stride from `id + frac` |
| Distribution.StrideCountExact | include/fiuncho/engine/Distributor.h:48 | the stride has an `m`-th element exactly when `id + m*frac` is inside the sequence |
| Distribution.StrideCountBalanced | include/fiuncho/engine/Distributor.h:46-52 | strides of ids less than `frac` apart differ in length by at most one |
| Distribution.StrideCountAntitone | include/fiuncho/engine/Distributor.h:46-52 | larger ids never get longer strides |
| Distribution.WorkerMembership | include/fiuncho/engine/Distributor.h:44-52 | a pair is in worker `id`'s list iff it is a pair `a < b < n` whose rank is `id` modulo `frac` |
| Distribution.MemberRank | include/fiuncho/engine/Distributor.h:47-50 | every pair a worker gets is a real pair with rank `id` modulo `frac` |
| Distribution.WorkerAt | include/fiuncho/engine/Distributor.h:47-50 | the pair of rank `id + m*frac` is the `m`-th pair of worker `id` |
| Distribution.RankMember | include/fiuncho/engine/Distributor.h:47-50 | every pair whose rank is `id` modulo `frac` is given to worker `id` |
| Distribution.WorkersPartition | include/fiuncho/engine/Distributor.h:44-52 | no pair is given to two workers |
| Distribution.WorkersCover | include/fiuncho/engine/Distributor.h:44-52 | every pair is given to the worker its rank selects |
| Distribution.WorkerSorted | include/fiuncho/engine/Distributor.h:47-50 | each worker's pairs come in strictly increasing lexicographic order |
| Distribution.WorkersBalanced | include/fiuncho/engine/Distributor.h:46-52 | per-worker pair counts differ by at most one, and lower ids never get fewer |
| Distribution.GetPairs | include/fiuncho/engine/Distributor.h:43-53 | `get_pairs` appends exactly worker `id`'s pairs, in order, after the vector's existing elements, which are untouched |
| Distribution.WalkRow | include/fiuncho/engine/Distributor.h:48-51 | one row of the inner loop appends the worker's next pairs from that row and leaves `j - size` as the carry into the next row |
| Distribution.Seed | include/fiuncho/Distributor.h:38-39 | the cursor's first pair `(offset/size, offset%size)` has its second element below `size` |
| Distribution.Advance | include/fiuncho/Distributor.h:60-72 | the carry loop of `operator++` ends in row `f` or later with both elements below `size`, and keeps `second` when it stays in the row; otherwise the iterator becomes `end` |
| Distribution.CursorRun | include/fiuncho/Distributor.h:57-85 | the pairs a single pass yields start with the seed |
| Distribution.CursorEntry | include/fiuncho/Distributor.h:60-72 | every pair of the cursor's sequence `(0,0)` + row-major pairs is in range and sits at its cursor index |
| Distribution.AdvanceAt | include/fiuncho/Distributor.h:60-72 | `operator++` lands on the entry of the cursor sequence at the carried index, or on `end` past the last one |
| Distribution.CursorRunIsStrided | include/fiuncho/Distributor.h:57-85 | from any entry, the cursor yields every `step`-th entry of `(0,0)` + row-major pairs |
| Distribution.LazyPairsIsStrided | include/fiuncho/Distributor.h:100-103 | with `id < frac <= size`, worker `id` gets the entries at positions `id (mod frac)` of `(0,0)` + row-major pairs |
| Distribution.LazyIsShiftedEager | include/fiuncho/Distributor.h:39 | the lazy worker `id > 0` gets the eager list of worker `id - 1`; worker 0 gets `(0,0)` and then the eager list of worker `frac - 1` |
| Distribution.ShiftedStride | include/fiuncho/Distributor.h:39 | prepending one element shifts the stride by one |
| Distribution.LazySelfPair | include/fiuncho/Distributor.h:39 | the lazy list of `Distributor(3, 1, 0)` starts with the non-pair `(0, 0)` |
| Distribution.LazyOverSplit | include/fiuncho/Distributor.h:39 | with more workers than markers, `Distributor(3, 4, 3)` yields only `(1, 0)` |
| Distribution.LazyOverSplitRepeats | include/fiuncho/Distributor.h:60-72 | with 9 workers over 4 markers, workers 1 and 7 yield `[(0,1), (2,3)]` and `[(1,3), (2,3)]`: the pair `(2, 3)` is walked twice |
| Distribution.LazyPairs | include/fiuncho/Distributor.h:34-103 | the lazy cursor of worker `id` yields first the seed `(id / size, id % size)`, whatever it is; its whole contents are given by Distribution.LazyPairsIsStrided and Distribution.LazyIsShiftedEager, and its shape by Distribution.LazyPairsShape |
| Distribution.LazyPairsShape | include/fiuncho/Distributor.h:60-72 | for every worker count, including more workers than markers, every pair a worker yields after its seed is a real pair `a < b < size`, and the pairs strictly increase in row-major order |
| Distribution.CursorRunShape | include/fiuncho/Distributor.h:60-72 | a pass from a point on or above the diagonal, or with a step of at least `size`, yields real pairs after its start, in strictly increasing row-major order |
| Distribution.FixedAdvance | include/fiuncho/Distributor.h:60-72 | the corrected carry step stays in rows `f` and later, in range, and keeps `second` within its row |
| Distribution.FixedRun | include/fiuncho/Distributor.h:57-85 | a corrected pass starts with its seed |
| Distribution.FixedAdvanceAt | include/fiuncho/Distributor.h:60-72 | the corrected carry lands on the row-major pair at the carried rank, or on `end` |
| Distribution.FixedRunIsStrided | include/fiuncho/Distributor.h:57-85 | the corrected cursor yields every `step`-th row-major pair from its start |
| Distribution.FixedPairsIsWorkerPairs | include/fiuncho/engine/Distributor.h:43-53 | the corrected cursor yields exactly the eager `get_pairs` list of the same worker |
| Combinations.Ext | include/fiuncho/ThreadedSearch.h:198-247 | every completion of a partial combination has `k` markers |
| Combinations.ExtRoot | include/fiuncho/ThreadedSearch.h:213-216 | the completions of a root pair `(a, b)` are those through third markers `b+1` to `n-1` |
| Combinations.ExtFromTo | include/fiuncho/ThreadedSearch.h:236-239 | completions through next markers `lo` to `hi-1` have `k` markers |
| Combinations.ExtDownFrom | include/fiuncho/engine/ThreadedSearch.h:192-195 | completions through next markers `hi-1` down to `lo` have `k` markers |
| Combinations.Search | include/fiuncho/ThreadedSearch.h:197-248 | the reference list: each pair's completions, pair after pair, all of length `k` |
| Combinations.Pending | include/fiuncho/ThreadedSearch.h:223-240 | what a stack of records still produces has only `k`-marker combinations |
| Combinations.PushedDown | include/fiuncho/ThreadedSearch.h:236-239 | pushing `j` from `hi-1` down to `lo` leaves `x + [hi-1-i]` at stack position `i` |
| Combinations.PushedUp | include/fiuncho/engine/ThreadedSearch.h:192-195 | pushing `i` from `lo` up to `hi-1` leaves `x + [lo+i]` at stack position `i` |
| Combinations.PendingPop | include/fiuncho/ThreadedSearch.h:224 | popping the top record produces its completions first, then what the rest of the stack owes |
| Combinations.PendingPushedDown | include/fiuncho/ThreadedSearch.h:236-239 | pushing children in descending order makes them pop in ascending order: the stack then owes `x`'s completions through `lo..hi-1` in order, then its old debt |
| Combinations.PendingPushedDownAlone | include/fiuncho/ThreadedSearch.h:213-216 | on an empty stack, the root pushes owe exactly the root's completions in order |
| Combinations.PushedDownStep | include/fiuncho/ThreadedSearch.h:236-239 | one more descending push puts the smallest child's completions first |
| Combinations.PendingPushedUp | include/fiuncho/engine/ThreadedSearch.h:192-195 | pushing in ascending order makes the stack owe the completions in descending order of the pushed marker |
| Combinations.PushedUpStep | include/fiuncho/engine/ThreadedSearch.h:192-195 | one more ascending push puts the largest child's completions first |
| Combinations.SearchCons | include/fiuncho/ThreadedSearch.h:197-217 | the search from pair `i` is pair `i`'s completions followed by the search from pair `i+1` |
| Combinations.ExtMembers | include/fiuncho/ThreadedSearch.h:198-247 | `y` is a completion of `x` iff it extends `x` to `k` markers, strictly increasing after `x`, all below `n`: every such tuple and nothing else |
| Combinations.ExtFromToMembers | include/fiuncho/ThreadedSearch.h:236-239 | `y` is listed iff its next marker lies in `[lo, hi)` and it completes `x` through that marker |
| Combinations.CompletesStep | include/fiuncho/ThreadedSearch.h:236-239 | a completion's next marker is above `x`'s last and below `n`, and it completes `x` extended by that marker |
| Combinations.MarkersBelow | include/fiuncho/ThreadedSearch.h:195 | every marker a completion adds is below `n` |
| Combinations.CompletesBack | include/fiuncho/ThreadedSearch.h:236-239 | completing `x + [j]` with `j` above `x`'s last marker completes `x` |
| Combinations.DistinctAppend | tests/threadedsearch.cpp:43 | two duplicate-free lists with nothing in common concatenate to a duplicate-free list |
| Combinations.ExtDistinct | tests/threadedsearch.cpp:43-44 | a partial combination's completions have no repeats and all start with it |
| Combinations.ExtFromToDistinct | include/fiuncho/ThreadedSearch.h:236-239 | completions through `lo..hi-1` have no repeats, start with `x` and have next marker at least `lo` |
| Combinations.ExtDownFromPermutes | include/fiuncho/engine/ThreadedSearch.h:192-195 | the descending completion order is a permutation of the ascending one |
| Combinations.ExtFromToSplitLast | include/fiuncho/ThreadedSearch.h:236-239 | the completions through `lo..hi-1` are those through `lo..hi-2` followed by those of `x + [hi-1]` |
| Exploration.ScoresAppend | include/fiuncho/ThreadedSearch.h:242-247 | scoring two lists one after the other scores their concatenation |
| Exploration.PushDown | include/fiuncho/ThreadedSearch.h:213-216 | the push loop from `data_lim` down leaves the old stack below the descending pushes |
| Exploration.PushUp | include/fiuncho/engine/ThreadedSearch.h:192-195 | the engine's root push loop leaves the old stack below the ascending pushes |
| Exploration.Weight | include/fiuncho/ThreadedSearch.h:198 | every record weighs at least 1 |
| Exploration.StackWeightPop | include/fiuncho/ThreadedSearch.h:224 | popping a record removes exactly its weight |
| Exploration.StackWeightPush | include/fiuncho/ThreadedSearch.h:236-239 | pushing records of one length adds their count times that length's weight |
| Exploration.ChildrenLighter | include/fiuncho/ThreadedSearch.h:236-239 | at most `n` children of a record weigh less than the record, so the walk terminates |
| Exploration.SlotsAfterPush | include/fiuncho/ThreadedSearch.h:233-239 | after extending `x` into slot `L-2` (for a record of length `L`) and pushing its children, every record's parent table is still in its slot |
| Exploration.RiseAfterPush | include/fiuncho/ThreadedSearch.h:235-239 | records still never get shorter towards the top after the children are pushed |
| Exploration.RecordsBelow | include/fiuncho/ThreadedSearch.h:224 | the records under the top are still records |
| Exploration.ExtendedSlot | include/fiuncho/ThreadedSearch.h:225-234 | when a record of length `L` is popped, extending slot `L-3` by its last marker gives the table of all its markers |
| Exploration.FoldStep | include/fiuncho/ThreadedSearch.h:233-234 | a combination's table is its prefix's table extended by its last marker |
| Exploration.ReplaceByChildren | include/fiuncho/ThreadedSearch.h:232-240 | replacing a non-leaf record by its children keeps what the stack owes and lowers its weight |
| Exploration.Expand | include/fiuncho/engine/ThreadedSearch.h:208-217 | expanding the top record keeps the walk invariant and the key order, keeps what the stack owes and lowers the weight |
| Exploration.ChildrenWalk | include/fiuncho/engine/ThreadedSearch.h:209-216 | the stack with the children pushed and the extended table in slot `L-2` (for a record of length `L`) satisfies the walk invariant |
| Exploration.KeyBounds | include/fiuncho/ThreadedSearch.h:176 | a record of length `L` has a key in `[(L-3)n, (L-2)n)` |
| Exploration.KeyedPop | include/fiuncho/ThreadedSearch.h:224 | below the top, keys stay increasing and smaller than the top's key |
| Exploration.KeyedChildren | include/fiuncho/ThreadedSearch.h:236-239 | pushing a record's children keeps the keys strictly increasing towards the top |
| Exploration.KeyedRoot | include/fiuncho/ThreadedSearch.h:213-216 | the root pushes have strictly increasing keys |
| Exploration.KeyAtLeastIndex | include/fiuncho/ThreadedSearch.h:176 | the record at stack position `i` has a key of at least `i` |
| Exploration.Capacity | include/fiuncho/ThreadedSearch.h:176 | the stack never holds more than `snps*order - 2` records |
| Exploration.Owed | include/fiuncho/ThreadedSearch.h:198 | what the walk still owes has only `k`-marker combinations |
| Exploration.PopTop | include/fiuncho/ThreadedSearch.h:224-226 | after the pop, the rest still satisfies the walk invariant; the popped record's parent table is in slot `L-3`, and what is owed and the weight split accordingly |
| Exploration.StartPair | include/fiuncho/ThreadedSearch.h:203-221 | on an empty stack, reading the next pair, combining it into slot 0 and pushing its third markers keeps what is owed and lowers the measure |
| Exploration.RootOwed | include/fiuncho/ThreadedSearch.h:208-217 | the root pushes owe exactly the pair's completions, so nothing is lost when the pair is consumed |
| Exploration.RootShape | include/fiuncho/ThreadedSearch.h:208-216 | the root pushes with the pair's table in slot 0 satisfy the walk invariant and the key order |
| Exploration.RootLighter | include/fiuncho/ThreadedSearch.h:213-217 | consuming a pair lowers the termination measure |
| Exploration.Step | include/fiuncho/ThreadedSearch.h:201-241 | one pass of the inner loop keeps the invariant, emits at most one counted leaf, keeps the leaves emitted plus what is owed, lowers the measure, and keeps the stack within capacity |
| Exploration.PopStep | include/fiuncho/ThreadedSearch.h:223-240 | popping a record counts it if it is a leaf and expands it otherwise, keeping the invariant, the debt and the capacity |
| Exploration.PopLeaf | include/fiuncho/ThreadedSearch.h:227-231 | a leaf (a record of `order` markers) on top is popped and counted against its prefix's table: exactly that leaf is reported, with its counts; the invariant holds after, the leaf is the one combination that leaves the debt, and the measure drops |
| Exploration.PopExpand | include/fiuncho/ThreadedSearch.h:232-240 | any shorter record on top is replaced by its children: nothing is reported or counted, the invariant holds after, the debt is unchanged, and the measure drops |
| Exploration.LeafOwed | include/fiuncho/ThreadedSearch.h:227-231 | a popped leaf is the first combination owed |
| Exploration.ExpandOwed | include/fiuncho/ThreadedSearch.h:232-240 | an expansion emits nothing and keeps what is owed |
| Exploration.LeafCounted | include/fiuncho/ThreadedSearch.h:228-230 | a leaf's contingency table is the count of its prefix's table with its last marker |
| Exploration.CountedAppend | include/fiuncho/ThreadedSearch.h:228-231 | counted blocks stay counted when joined |
| Exploration.FillBlock | include/fiuncho/ThreadedSearch.h:199-241 | filling one block emits at most `BLOCK_SIZE` counted leaves, exactly the next ones owed; an empty block means the pairs and the stack are exhausted |
| Exploration.ScoreBlock | include/fiuncho/ThreadedSearch.h:242-247 | the block's results are its combinations with the scores of their tables |
| Exploration.DepthSearch | include/fiuncho/ThreadedSearch.h:165-251 | the block-batched `depth_exploration` adds exactly the reference combinations, each with its score, in reference order |
| Exploration.FlatIsSearch | include/fiuncho/ThreadedSearch.h:148-162 | at order 2 the reference list is one combination per pair, in list order |
| Exploration.FlatSearch | include/fiuncho/ThreadedSearch.h:133-163 | the block-batched `flat_exploration` adds one scored `(first, second)` per pair in list order; batching changes nothing |
| Exploration.EngineFlatSearch | include/fiuncho/engine/ThreadedSearch.h:133-153 | the engine's flat path adds one scored `(first, second)` per pair |
| Exploration.ThreadMain | include/fiuncho/ThreadedSearch.h:120-130 | `thread_main` adds exactly the scored reference combinations at every order of at least 2 |
| Exploration.EngineSearch | include/fiuncho/engine/ThreadedSearch.h:182-218 | what the engine's depth search produces has only `k`-marker combinations |
| Exploration.Drain | include/fiuncho/engine/ThreadedSearch.h:196-218 | draining the stack adds, scored, exactly what it owed, in order |
| Exploration.DrainPop | include/fiuncho/engine/ThreadedSearch.h:197-217 | one pop either scores a leaf at once or expands it, keeping the invariant and the debt and lowering the weight |
| Exploration.RootWalk | include/fiuncho/engine/ThreadedSearch.h:184-195 | the engine's root pushes with the pair's table in slot 0 satisfy the walk invariant |
| Exploration.EngineDepthSearch | include/fiuncho/engine/ThreadedSearch.h:155-222 | the engine's `depth_exploration` adds exactly its pairs' completions with third marker below the root limit, scored, pair after pair |
| Exploration.EnginePair | include/fiuncho/engine/ThreadedSearch.h:182-218 | one pair's ascending root pushes, drained, give its completions in descending third-marker order |
| Exploration.EngineCons | include/fiuncho/engine/ThreadedSearch.h:182-218 | the engine's search from pair `i` is pair `i`'s completions followed by the search from pair `i+1` |
| Exploration.EngineThreadMain | include/fiuncho/engine/ThreadedSearch.h:120-130 | at order 2 the engine adds the scored pairs; above, the completions whose third marker is below `data_lim` |
| Exploration.EngineMissesLastMarker | include/fiuncho/engine/ThreadedSearch.h:180-195 | with 3 markers, order 3 and pair `(0, 1)`, the engine produces nothing where `(0, 1, 2)` is due |
| Exploration.EngineDeepOrdersUnaffected | include/fiuncho/engine/ThreadedSearch.h:192 | at order 4 and above the root bound `data_lim` loses nothing |
| Exploration.EngineFixedIsPermutation | include/fiuncho/engine/ThreadedSearch.h:182-218 | with the root bound corrected to `snps`, the engine produces the reference combinations, permuted |
| Merge.ConcatAppend | include/fiuncho/ThreadedSearch.h:108-109 | concatenating in rank order distributes over splitting the ranks |
| Merge.ConcatLength | include/fiuncho/MPIEngine.h:127-131 | the concatenation has the sum of the lengths |
| Merge.ConcatUniform | include/fiuncho/ThreadedSearch.h:76-78 | `nthreads` arrays of `outputs` results concatenate to `nthreads*outputs` results |
| Merge.DescendingPairs | include/fiuncho/ThreadedSearch.h:115 | in a descending list every earlier key is at least every later key |
| Merge.Insert | include/fiuncho/ThreadedSearch.h:115 | inserting into a descending list keeps it descending and adds exactly one element |
| Merge.DescendingTail | include/fiuncho/ThreadedSearch.h:115 | the tail of a descending list is descending |
| Merge.Sort | include/fiuncho/ThreadedSearch.h:115 | the sort returns a descending permutation of its input |
| Merge.SortSorted | include/fiuncho/ThreadedSearch.h:115 | the sort leaves a descending list unchanged |
| Merge.TopOfSorted | include/fiuncho/MPIEngine.h:135-138 | in a descending list, every element of the prefix has a key at least that of anything left out |
| Merge.PrefixTop | include/fiuncho/MPIEngine.h:135-138 | a prefix of a descending list is descending, a sub-multiset, and dominates what it leaves out |
| Merge.Resize | include/fiuncho/ThreadedSearch.h:116 | `resize(m)` keeps the first `m` elements and pads with blanks |
| Merge.Truncate | include/fiuncho/MPIEngine.h:136-138 | the result is cut only when longer than `outputs`: its length is `min(len, outputs)` and it is a prefix |
| Merge.ThreadMerge | include/fiuncho/ThreadedSearch.h:108-117 | the thread merge returns exactly `outputs` results |
| Merge.ThreadMergeTop | include/fiuncho/ThreadedSearch.h:108-117 | with at least one thread, the merged result is descending, drawn from the thread arrays, and no left-out result has a larger key than a kept one |
| Merge.ThreadMergeEmpty | include/fiuncho/ThreadedSearch.h:115-116 | with no threads the merge is `outputs` blanks |
| Merge.Displacements | include/fiuncho/MPIEngine.h:121-125 | `displs[0] = 0` and `displs[i] = displs[i-1] + counts[i-1]`, so `displs[i]` is the sum of the counts before `i` |
| Merge.BufferLength | include/fiuncho/MPIEngine.h:127-128 | the buffer length `displs[last] + counts[last]` is the sum of all counts |
| Merge.GatherSlice | include/fiuncho/MPIEngine.h:129-131 | rank `r`'s buffer occupies `[displs[r], displs[r] + counts[r])` of the gathered buffer |
| Merge.CoordinatorMerge | include/fiuncho/MPIEngine.h:133-138 | the coordinator result has `min(total, outputs)` entries |
| Merge.CoordinatorMergeTop | include/fiuncho/MPIEngine.h:133-138 | the coordinator result is descending, drawn from the gathered results, and dominates everything left out |
| Merge.MpiResult | include/fiuncho/MPIEngine.h:116-154 | rank 0 returns the merged `min(total, outputs)` results; every other rank returns an empty vector |
| Merge.ThreadPairs | include/fiuncho/ThreadedSearch.h:71-72 | the pairs thread `t` of process `rank` walks: the lazy cursor of `distributor.layer(threads, t)`; what they are is stated by Merge.ThreadShare |
| Merge.ThreadShare | include/fiuncho/ThreadedSearch.h:71-72 | thread `t` of process `rank` walks, through the lazy cursor of `distributor.layer(threads, t)`, exactly the pairs whose rank plus one is `rank*threads + t` modulo `size*threads`; thread 0 of process 0 also walks `(0,0)` |
| Merge.EveryPairOnce | include/fiuncho/MPIEngine.h:106-109 | with the lazy cursors handed to the threads, every pair is walked by exactly one thread of exactly one process |
| Merge.EagerThreadShare | include/fiuncho/engine/Distributor.h:37-53 | after `layer(threads, t)`, the eager `get_pairs` gives exactly the pairs whose rank is `rank*threads + t` modulo `size*threads` |
| Merge.EagerEveryPairOnce | include/fiuncho/engine/Distributor.h:37-53 | with `layer` followed by the eager `get_pairs`, every pair goes to exactly one inner worker of exactly one outer worker, for any worker counts |
| Dataset.WordsFor | include/fiuncho/dataset/Dataset.h:49-51 | `ceil(count/64)`: the fewest words whose bits hold `count` individuals |
| Dataset.WordsForExamples | tests/dataset.cpp:38-50 | 600 individuals need 10 words and 1300 need 21 |
| Dataset.Controls | include/fiuncho/dataset/Dataset.h:90-94 | the number of controls is at most the number of individuals |
| Dataset.CountClasses | include/fiuncho/dataset/Dataset.h:88-95 | `ctrls` counts the individuals with phenotype 1 and `cases` is the rest |
| Dataset.ControlsAreTheMarked | include/fiuncho/dataset/Dataset.h:90-94 | the control count is the size of the set of control positions |
| Dataset.ClassGenotypes | include/fiuncho/dataset/Dataset.h:164-179 | one class's genotypes, in individual order: as many as that class has members |
| Dataset.BitsBound | include/fiuncho/dataset/Dataset.h:167-176 | shifting in `m` bits gives a value below `2^m` |
| Dataset.PopNatShift | include/fiuncho/dataset/Dataset.h:167-176 | shifting one bit in adds that bit to the popcount |
| Dataset.BitsCount | include/fiuncho/dataset/Dataset.h:164-179 | the shifted-in word has one set bit per genotype equal to `k` |
| Dataset.PopNatWidenTo | tests/dataset.cpp:57 | counting beyond a value's width adds no bits |
| Dataset.Chunk | include/fiuncho/dataset/Dataset.h:167 | the individuals a word receives are at most 64 |
| Dataset.SnpPlanes | include/fiuncho/dataset/Dataset.h:150-163 | each marker has three planes per class |
| Dataset.EmptyPlanes | include/fiuncho/dataset/Dataset.h:150-163 | before any individual is placed, every word of the three planes is zero |
| Dataset.PlaneWordBound | include/fiuncho/dataset/Dataset.h:164-179 | word `q` is below `2^m` for the `m` members it received, so the unused high bits of a partial last word stay 0 |
| Dataset.PlaneAppend | include/fiuncho/dataset/Dataset.h:167-176 | placing one more class member shifts its bit into word `cnt/64` and changes nothing else |
| Dataset.ChunkBefore | include/fiuncho/dataset/Dataset.h:167 | words already full are not touched |
| Dataset.ChunkAfter | include/fiuncho/dataset/Dataset.h:167 | words not reached yet stay empty |
| Dataset.WordAppend | include/fiuncho/dataset/Dataset.h:167-169 | the receiving word is shifted left and the new bit added |
| Dataset.BitsAppend | include/fiuncho/dataset/Dataset.h:167-169 | one more genotype doubles the word and adds its bit |
| Dataset.ShiftNoWrap | include/fiuncho/dataset/Dataset.h:167-176 | the 64-bit shift loses no bit while the word holds fewer than 64 |
| Dataset.ChunkAppend | include/fiuncho/dataset/Dataset.h:167 | the next class member joins the word `cnt/64` and it had room |
| Dataset.ShiftIn | include/fiuncho/dataset/Dataset.h:166-170 | the `k` loop shifts bit `genotype == k` into word `q` of plane `k`, for `k = 0, 1, 2` |
| Dataset.ClassStep | include/fiuncho/dataset/Dataset.h:164-179 | individual `j` joins its own class's genotype list and leaves the other class's unchanged |
| Dataset.SnpPlanesAppend | include/fiuncho/dataset/Dataset.h:166-171 | the three shifted planes are the encoding of the class with the new member |
| Dataset.Place | include/fiuncho/dataset/Dataset.h:165-178 | placing a member with counter `cnt` extends the class's encoding by that member |
| Dataset.EncodeSnp | include/fiuncho/dataset/Dataset.h:146-185 | one marker's populate step: the case planes encode the cases' genotypes and the control planes the controls', given enough words per class |
| Dataset.PrefixClassSizes | include/fiuncho/dataset/Dataset.h:164-179 | the class counters never exceed the class sizes |
| Dataset.ControlsPrefix | include/fiuncho/dataset/Dataset.h:165-178 | controls and cases among the first `j` individuals are at most the totals |
| Dataset.CountAppend | tests/dataset.cpp:53-61 | genotype counts add up over concatenation |
| Dataset.Upto | tests/dataset.cpp:56-58 | the class members covered by the first `w` words: a prefix, all of them or `64w` |
| Dataset.UptoStep | tests/dataset.cpp:56-58 | one more word covers the next 64 members |
| Dataset.PlaneCountPrefix | tests/dataset.cpp:53-61 | the popcount of the first `w` words of plane `k` counts genotype `k` among the members they cover |
| Dataset.PlaneCountStep | tests/dataset.cpp:56-58 | the popcount of `w` words is that of `w-1` words plus the last word's |
| Dataset.WordCount | tests/dataset.cpp:57 | the popcount of one word counts genotype `k` among its members |
| Dataset.PlaneCountIsCount | tests/dataset.cpp:53-61 | plane `k`'s popcount is the number of class members with genotype `k` |
| Dataset.CountsCover | tests/dataset.cpp:53-61 | with genotypes in {0,1,2}, the three genotype counts sum to the class size |
| Dataset.ThreePlanesCountClass | tests/dataset.cpp:53-71 | with genotypes in {0,1,2}, the three planes' popcounts sum to the class size |
| Dataset.Read | include/fiuncho/dataset/Dataset.h:41-62 | reading fails iff some marker's genotype count differs from the individual count; otherwise the counts, `inds_count = cases + ctrls`, `ceil(count/64)` words per class and every marker's planes are as encoded |
| Dataset.ReadCountsBack | tests/dataset.cpp:53-71 | for a read dataset with genotypes in {0,1,2}, each marker's three case planes count `cases_count` bits and its control planes `ctrls_count` |
| Dataset.ClassGenotypesIn | include/fiuncho/dataset/Dataset.h:164-179 | the class split keeps genotypes in {0,1,2} |
| Dataset.PlanesDisjoint | include/fiuncho/dataset/Dataset.h:150-163 | plane `j` of marker `i` occupies `[(3i+j)w, (3i+j+1)w)`: planes never overlap and all fit in the `3*w*snps` words of the class region |

## Left out

- Threads: spawning and joining in `ThreadedSearch::run` are left out. The merge is modelled over the per-thread arrays once every thread has finished.
- MPI: `MPI_Gather`/`MPI_Gatherv` and the rank and size queries are left out. A gather is concatenation in rank order. include/fiuncho/engine/MPIEngine.h is not part of this model.
- Scoring: `MutualInformation::compute` uses floating point. It is an uninterpreted function of the contingency table, and results are ordered by an abstract integer key.
- Result containers: `MaxArray`, `StaticStack`, `Result::serialize` and `deserialize` are not shown. Each per-thread `MaxArray` is taken as its `outputs` best results already gathered. The byte buffers of the MPI merge are treated as whole results, and no round trip through serialization is claimed. The explicit stack is a sequence, and its reserved capacity is proved as a bound.
- File parsing: `read_individuals`, `read_snps`, the file errors and the `Individual`/`SNP` parsers take file input. Individuals and genotypes are parameters; the length check of `read_snps` is modelled.
- SIMD intrinsics and pointer casts: a vector is a slice of `WIDTH` words. Alignment is modelled only as the integer round-up of the address.
- Exploration.Capacity: the stack bound `snps*order - 2` is proved for the block-batched walk. The engine walk (`Drain`) is proved correct but its stack size is not bounded.
- ScalarKernel.CombineAndPopcnt: cells are `uint32_t` in the source but unbounded here. Each cell is proved at most `64*words`, which fits 32 bits for fewer than 2^26 words per class.
- SimdKernel.Fill: the SIMD kernels are modelled only for word counts that are a multiple of `WIDTH` (`FillOperands`), and so are SimdKernel.Popcnt, FillPlanes, PopcntCells and Avx512MatchesAvx2. The aligned read `Dataset<uint64_t>::read<ALIGN>` pads the word counts this way (12 and 24 words at `ALIGN` 32, 16 and 24 at `ALIGN` 64, per tests/dataset.cpp:37-47). The unaligned include/fiuncho/dataset/Dataset.h:50-51 does not: 600 cases give 10 words. With such counts the `k += WIDTH` loops of src/cpu/256_avx2/BitTable.cpp:29 and :104 run a last batch across a plane boundary, which is not modelled.
- SimdKernel.Popcnt: its cells are `ContingencyTable<uint32_t>` cells too, and are unbounded here. The same `64*words` bound is proved for each cell, so the same 2^26 limit applies.
- Exploration.ThreadMain: requires an order of at least 2. The command line accepts any `--order`, but for order 0 or 1 the depth walk has no order-2 table and reads `gtables[0]` out of range (include/fiuncho/ThreadedSearch.h:209). The source does not define that case, so it is excluded.
- Exploration.EngineThreadMain: `data_lim = snps - 1` is unsigned, so it wraps for a dataset with no markers. The model takes `snps - 1` as 0 there (`DataLimit`); with no markers there are no pairs, so nothing depends on it.
- Exploration.EngineThreadMain: also requires an order of at least 2. For order 0 or 1 the engine reads `btables[0]` out of range (include/fiuncho/engine/ThreadedSearch.h:184), so that case is undefined in the source and excluded.
- Distribution.GetPairs: `offset = j - size` is computed in the unsigned type `T`. The model uses unbounded integers; the wrap cannot occur because `j >= size` when the inner loop exits, and `WalkRow` proves that bound.
- Dataset.Read: words are kept as naturals below 2^64 with the shift's wrap-around written out, not as `bv64`. The dataset's popcount is therefore the arithmetic `PopNat`, which is not proved equal to the kernels' `bv64` popcount.
- Merge.Sort: ties between equal keys are left in whatever order the sort produces. `std::sort` promises no order for them either, so only the keys' order and the multiset are stated.
- Merge.ThreadMergeTop: a dominance property is stated only over the gathered arrays; which results each thread's `MaxArray` keeps is not modelled.
- Merge.ThreadShare: stated for `size*threads <= snps`. With more workers than markers the carry no longer steps by the worker count. Some workers then yield non-pairs, and real pairs are walked by several workers, so the merged list can hold duplicate results (Findings rows 2 and 3). No share is claimed there. Merge.EveryPairOnce carries the same bound; the eager lemmas hold for any worker count.
- The fixed-input expectations of tests/bittable.cpp (`res_cases`, and the counts {256, 128, …, 512}) are not reproduced word by word. The test's operands are identical on both sides, and `SimdKernel.IdenticalOperandsAgree` and `SimdKernel.IdenticalOperandsCountAgree` state what that test can distinguish.
- Benchmarks, app/main.cpp, src/utils/ and the `BENCHMARK` blocks deal with timing, the command line and host information, not with the search.

## Findings

| source | as written | input that shows it | evidently intended | confidence | as-written member | corrected member |
|---|---|---|---|---|---|---|
| include/fiuncho/Distributor.h:39 | the cursor starts at `(offset / size, offset % size)`, yielding a row-0 pair before the carry check, so worker 0 yields `(0, 0)` | `Distributor(3, 1, 0)` yields `(0,0), (0,1), (0,2), (1,2)` | every worker yields only pairs `a < b`: positions `id (mod frac)` of the row-major pairs | not executed | Distribution.LazySelfPair | Distribution.FixedPairsIsWorkerPairs |
| include/fiuncho/Distributor.h:39 | with `frac > size`, the seed `(id / size, id % size)` of some ids is not a pair `a < b` | `Distributor(3, 4, 3)` yields `(1, 0)` | each worker yields only pairs `a < b`: positions `id (mod frac)` of the row-major pairs | not executed | Distribution.LazyOverSplit | Distribution.FixedPairsIsWorkerPairs |
| include/fiuncho/Distributor.h:68 | with `frac > size`, the carry `first + 1 + second % size` subtracts `size` only once, so a worker does not land `frac` positions further on and workers overlap | `Distributor(4, 9, 1)` and `Distributor(4, 9, 7)` both yield `(2, 3)` | every pair walked by exactly one worker | not executed | Distribution.LazyOverSplitRepeats | Distribution.FixedPairsIsWorkerPairs |
| include/fiuncho/engine/ThreadedSearch.h:192 | the root push loop runs `i` from `second + 1` while `i < data_lim`, with `data_lim = snps - 1` | 3 markers, order 3, pair `(0, 1)`: nothing is produced where `(0, 1, 2)` is due | third markers up to `data_lim` inclusive, as in the deeper pushes at line 213 and in include/fiuncho/ThreadedSearch.h:213 | not executed | Exploration.EngineMissesLastMarker | Exploration.EngineFixedIsPermutation |

=== FILE: arith.dfy ===
/** Integer facts the index arithmetic of the kernels, the dataset layout and
    the pair distribution rest on (quotient and remainder uniqueness, and
    the step from one multiple of a width to the next). */
module Arith {

  lemma DivMod(x: int, w: nat)
    requires w > 0
    ensures x == (x / w) * w + x % w && 0 <= x % w < w
  {
  }

  lemma MulAtLeast(a: int, w: nat)
    requires a >= 1
    ensures a * w >= w
  {
  }

  lemma MulAtMost(a: int, w: nat)
    requires a <= -1
    ensures a * w <= -(w as int)
  {
    MulAtLeast(-a, w);
    assert (-a) * w == -(a * w);
  }

  /** The quotient and remainder of `x` by `w` are the only pair `q, r` with
      `x == q * w + r` and `0 <= r < w`. */
  lemma DivModUnique(x: int, w: nat, q: int, r: int)
    requires w > 0 && 0 <= r < w && x == q * w + r
    ensures x / w == q && x % w == r
  {
    DivMod(x, w);
    var q', r' := x / w, x % w;
    var d := q - q';
    assert d * w == q * w - q' * w;
    assert d * w == r' - r;
    if d >= 1 {
      MulAtLeast(d, w);
    }
    if d <= -1 {
      MulAtMost(d, w);
    }
  }

  /** Removing one batch of `w` words from a positive multiple of `w` leaves
      a multiple of `w`. */
  lemma MultipleStep(x: nat, w: nat)
    requires w > 0 && x % w == 0 && x > 0
    ensures x >= w && (x - w) % w == 0
  {
    DivMod(x, w);
    var q := x / w;
    assert q >= 1;
    MulAtLeast(q, w);
    assert x - w == (q - 1) * w + 0;
    DivModUnique(x - w, w, q - 1, 0);
  }

  /** The remainder of a successor: one more, wrapping to 0 at `w`. */
  lemma ModSucc(x: nat, w: nat)
    requires w > 0
    ensures (x + 1) % w == if x % w == w - 1 then 0 else x % w + 1
  {
    DivMod(x, w);
    if x % w == w - 1 {
      DivModUnique(x + 1, w, x / w + 1, 0);
    } else {
      DivModUnique(x + 1, w, x / w, x % w + 1);
    }
  }

  /** A multiple of 8 is a multiple of 4: the AVX-512 batch condition implies
      the AVX2 one. */
  lemma MultipleOfEightIsMultipleOfFour(x: nat)
    requires x % 8 == 0
    ensures x % 4 == 0
  {
    DivMod(x, 8);
    DivModUnique(x, 4, 2 * (x / 8), 0);
  }
}

=== FILE: combinations.dfy ===
/** The combinations the search walks, as a reference enumeration.

    A combination is a sequence of marker indices. Below a root pair
    `(a, b)` the search visits every way of appending strictly increasing
    markers above `b` and below `n` until the combination has `k` markers.
    `Ext` lists those completions in lexicographic order; `Pending` lists
    what an explicit stack of partial combinations still has to produce,
    popping from the top (the end of the sequence). */
module Combinations {

  import opened Distribution

  type Combo = seq<nat>

  function Last(x: Combo): nat
    requires |x| > 0
  {
    x[|x| - 1]
  }

  function Root(p: Pair): Combo {
    [p.0, p.1]
  }

  /** The completions of `x` to `k` markers: `x` itself when complete,
      otherwise the completions of `x + [j]` for `j` from `Last(x) + 1`
      up to `n - 1`. */
  function Ext(n: nat, k: nat, x: Combo): (r: seq<Combo>)
    requires 2 <= |x| <= k
    ensures forall i | 0 <= i < |r| :: |r[i]| == k
    decreases k - |x|, 1, 0
  {
    if |x| == k then [x] else ExtFromTo(n, k, x, Last(x) + 1, n)
  }

  /** Below a root pair `(a, b)` the third marker runs from `b + 1`. */
  lemma ExtRoot(n: nat, k: nat, p: Pair)
    requires k >= 3
    ensures Ext(n, k, Root(p)) == ExtFromTo(n, k, Root(p), p.1 + 1, n)
  {
    assert Last(Root(p)) == p.1;
  }

  /** Completions of `x + [j]` for `j` from `lo` up to `hi - 1`. */
  function ExtFromTo(n: nat, k: nat, x: Combo, lo: nat, hi: nat): (r: seq<Combo>)
    requires 2 <= |x| < k
    ensures forall i | 0 <= i < |r| :: |r[i]| == k
    decreases k - |x|, 0, hi - lo
  {
    if lo >= hi then [] else Ext(n, k, x + [lo]) + ExtFromTo(n, k, x, lo + 1, hi)
  }

  /** The same completions with the appended marker running downwards,
      from `hi - 1` to `lo`. */
  function ExtDownFrom(n: nat, k: nat, x: Combo, lo: nat, hi: nat): (r: seq<Combo>)
    requires 2 <= |x| < k
    ensures forall i | 0 <= i < |r| :: |r[i]| == k
    decreases hi - lo
  {
    if lo >= hi then [] else Ext(n, k, x + [hi - 1]) + ExtDownFrom(n, k, x, lo, hi - 1)
  }

  /** The completions of every root pair, pair after pair. */
  function Search(n: nat, k: nat, pairs: seq<Pair>): (r: seq<Combo>)
    requires k >= 2
    ensures forall i | 0 <= i < |r| :: |r[i]| == k
  {
    if |pairs| == 0 then [] else Ext(n, k, Root(pairs[0])) + Search(n, k, pairs[1..])
  }

  ghost predicate Records(st: seq<Combo>, k: nat) {
    forall i | 0 <= i < |st| :: 3 <= |st[i]| <= k
  }

  /** What a stack of partial combinations still produces: the completions
      of the top record first. */
  function Pending(n: nat, k: nat, st: seq<Combo>): (r: seq<Combo>)
    requires Records(st, k)
    ensures forall i | 0 <= i < |r| :: |r[i]| == k
  {
    if |st| == 0 then [] else Ext(n, k, st[|st| - 1]) + Pending(n, k, st[..|st| - 1])
  }

  /** The records `x + [j]` pushed for `j` from `hi - 1` down to `lo`, so
      that `x + [lo]` ends on top. */
  function PushedDown(x: Combo, lo: nat, hi: nat): (r: seq<Combo>)
    ensures |r| == if lo < hi then hi - lo else 0
    ensures forall i | 0 <= i < |r| :: r[i] == x + [hi - 1 - i]
    decreases hi - lo
  {
    if lo >= hi then [] else PushedDown(x, lo + 1, hi) + [x + [lo]]
  }

  /** The records `x + [j]` pushed for `j` from `lo` up to `hi - 1`, so
      that `x + [hi - 1]` ends on top. */
  function PushedUp(x: Combo, lo: nat, hi: nat): (r: seq<Combo>)
    ensures |r| == if lo < hi then hi - lo else 0
    ensures forall i | 0 <= i < |r| :: r[i] == x + [lo + i]
    decreases hi - lo
  {
    if lo >= hi then [] else PushedUp(x, lo, hi - 1) + [x + [hi - 1]]
  }

  lemma Associative<X>(a: seq<X>, b: seq<X>, c: seq<X>)
    ensures (a + b) + c == a + (b + c)
  {
  }

  lemma SameStack(n: nat, k: nat, a: seq<Combo>, b: seq<Combo>)
    requires Records(b, k) && a == b
    ensures Records(a, k) && Pending(n, k, a) == Pending(n, k, b)
  {
  }

  lemma PendingPop(n: nat, k: nat, st: seq<Combo>, y: Combo)
    requires Records(st, k) && 3 <= |y| <= k
    ensures Records(st + [y], k)
    ensures Pending(n, k, st + [y]) == Ext(n, k, y) + Pending(n, k, st)
  {
    assert (st + [y])[..|st|] == st;
  }

  lemma RecordsPushed(k: nat, st: seq<Combo>, x: Combo, pushed: seq<Combo>)
    requires Records(st, k) && 2 <= |x| < k
    requires forall i | 0 <= i < |pushed| :: |pushed[i]| == |x| + 1
    ensures Records(st + pushed, k)
  {
  }

  /** Pushing the children of `x` downwards puts their completions, in
      ascending order, in front of what was pending. */
  lemma {:induction false} PendingPushedDown(n: nat, k: nat, st: seq<Combo>, x: Combo, lo: nat, hi: nat)
    requires Records(st, k) && 2 <= |x| < k
    ensures Records(st + PushedDown(x, lo, hi), k)
    ensures Pending(n, k, st + PushedDown(x, lo, hi)) == ExtFromTo(n, k, x, lo, hi) + Pending(n, k, st)
    decreases hi - lo
  {
    RecordsPushed(k, st, x, PushedDown(x, lo, hi));
    if lo < hi {
      PendingPushedDown(n, k, st, x, lo + 1, hi);
      PushedDownStep(n, k, st, x, lo, hi);
    } else {
      assert st + PushedDown(x, lo, hi) == st;
    }
  }

  /** On an empty stack the pushed children owe exactly their completions. */
  lemma PendingPushedDownAlone(n: nat, k: nat, x: Combo, lo: nat, hi: nat)
    requires 2 <= |x| < k
    ensures Records(PushedDown(x, lo, hi), k)
    ensures Pending(n, k, PushedDown(x, lo, hi)) == ExtFromTo(n, k, x, lo, hi)
  {
    var d := PushedDown(x, lo, hi);
    PendingPushedDown(n, k, [], x, lo, hi);
    assert [] + d == d;
    var e := ExtFromTo(n, k, x, lo, hi);
    assert e + [] == e;
  }

  lemma PushedDownStep(n: nat, k: nat, st: seq<Combo>, x: Combo, lo: nat, hi: nat)
    requires Records(st, k) && 2 <= |x| < k && lo < hi
    requires Records(st + PushedDown(x, lo + 1, hi), k) && Records(st + PushedDown(x, lo, hi), k)
    requires Pending(n, k, st + PushedDown(x, lo + 1, hi)) == ExtFromTo(n, k, x, lo + 1, hi) + Pending(n, k, st)
    ensures Pending(n, k, st + PushedDown(x, lo, hi)) == ExtFromTo(n, k, x, lo, hi) + Pending(n, k, st)
  {
    var d, y := PushedDown(x, lo + 1, hi), x + [lo];
    PendingPop(n, k, st + d, y);
    assert PushedDown(x, lo, hi) == d + [y];
    Associative(st, d, [y]);
    SameStack(n, k, st + PushedDown(x, lo, hi), (st + d) + [y]);
    Associative(Ext(n, k, y), ExtFromTo(n, k, x, lo + 1, hi), Pending(n, k, st));
  }

  /** Pushing them upwards puts their completions in front in descending
      order of the appended marker. */
  lemma {:induction false} PendingPushedUp(n: nat, k: nat, st: seq<Combo>, x: Combo, lo: nat, hi: nat)
    requires Records(st, k) && 2 <= |x| < k
    ensures Records(st + PushedUp(x, lo, hi), k)
    ensures Pending(n, k, st + PushedUp(x, lo, hi)) == ExtDownFrom(n, k, x, lo, hi) + Pending(n, k, st)
    decreases hi - lo
  {
    RecordsPushed(k, st, x, PushedUp(x, lo, hi));
    if lo < hi {
      PendingPushedUp(n, k, st, x, lo, hi - 1);
      PushedUpStep(n, k, st, x, lo, hi);
    } else {
      assert st + PushedUp(x, lo, hi) == st;
    }
  }

  lemma PushedUpStep(n: nat, k: nat, st: seq<Combo>, x: Combo, lo: nat, hi: nat)
    requires Records(st, k) && 2 <= |x| < k && lo < hi
    requires Records(st + PushedUp(x, lo, hi - 1), k) && Records(st + PushedUp(x, lo, hi), k)
    requires Pending(n, k, st + PushedUp(x, lo, hi - 1)) == ExtDownFrom(n, k, x, lo, hi - 1) + Pending(n, k, st)
    ensures Pending(n, k, st + PushedUp(x, lo, hi)) == ExtDownFrom(n, k, x, lo, hi) + Pending(n, k, st)
  {
    var u, y := PushedUp(x, lo, hi - 1), x + [hi - 1];
    PendingPop(n, k, st + u, y);
    assert PushedUp(x, lo, hi) == u + [y];
    Associative(st, u, [y]);
    SameStack(n, k, st + PushedUp(x, lo, hi), (st + u) + [y]);
    Associative(Ext(n, k, y), ExtDownFrom(n, k, x, lo, hi - 1), Pending(n, k, st));
  }

  lemma SearchCons(n: nat, k: nat, pairs: seq<Pair>, i: nat)
    requires k >= 2 && i < |pairs|
    ensures Search(n, k, pairs[i..]) == Ext(n, k, Root(pairs[i])) + Search(n, k, pairs[i + 1..])
  {
    assert pairs[i..][1..] == pairs[i + 1..];
  }

  // ---------------------------------------------------------------------
  // What the enumeration contains

  /** `y` completes `x`: it has `k` markers, starts with `x`, and the
      markers from the last of `x` on strictly increase and stay below
      `n`. */
  ghost predicate Completes(n: nat, k: nat, x: Combo, y: Combo) {
    && |x| >= 1 && |y| == k && |x| <= k
    && y[..|x|] == x
    && (forall i | |x| - 1 <= i < k - 1 :: y[i] < y[i + 1])
    && y[k - 1] < n
  }

  /** Every completion of `x` is listed, and nothing else. */
  lemma {:induction false} ExtMembers(n: nat, k: nat, x: Combo, y: Combo)
    requires 2 <= |x| <= k && Last(x) < n
    ensures y in Ext(n, k, x) <==> Completes(n, k, x, y)
    decreases k - |x|, 1, 0
  {
    if |x| == k {
      if Completes(n, k, x, y) {
        assert y == y[..|x|];
      }
    } else {
      ExtFromToMembers(n, k, x, Last(x) + 1, n, y);
      if Completes(n, k, x, y) {
        CompletesStep(n, k, x, y);
      }
      if y in ExtFromTo(n, k, x, Last(x) + 1, n) {
        var j := y[|x|];
        CompletesBack(n, k, x, j, y);
      }
    }
  }

  lemma {:induction false} ExtFromToMembers(n: nat, k: nat, x: Combo, lo: nat, hi: nat, y: Combo)
    requires 2 <= |x| < k && hi <= n
    ensures y in ExtFromTo(n, k, x, lo, hi) <==>
            |y| == k && lo <= y[|x|] < hi && Completes(n, k, x + [y[|x|]], y)
    decreases k - |x|, 0, hi - lo
  {
    if lo < hi {
      ExtMembers(n, k, x + [lo], y);
      ExtFromToMembers(n, k, x, lo + 1, hi, y);
      if y in Ext(n, k, x + [lo]) {
        assert y[..|x| + 1][|x|] == lo;
      }
    }
  }

  /** A completion of `x` is a completion of `x` extended by its next
      marker. */
  lemma CompletesStep(n: nat, k: nat, x: Combo, y: Combo)
    requires |x| < k && Completes(n, k, x, y)
    ensures Last(x) + 1 <= y[|x|] < n && Completes(n, k, x + [y[|x|]], y)
  {
    assert y[|x| - 1] == x[|x| - 1];
    assert y[..|x| + 1] == y[..|x|] + [y[|x|]];
    MarkersBelow(n, k, x, y, |x|);
  }

  lemma {:induction false} MarkersBelow(n: nat, k: nat, x: Combo, y: Combo, i: nat)
    requires Completes(n, k, x, y) && |x| - 1 <= i < k
    ensures y[i] < n
    decreases k - i
  {
    if i < k - 1 {
      MarkersBelow(n, k, x, y, i + 1);
    }
  }

  lemma CompletesBack(n: nat, k: nat, x: Combo, j: nat, y: Combo)
    requires 1 <= |x| < k && Last(x) < j && |y| == k && y[|x|] == j
    requires Completes(n, k, x + [j], y)
    ensures Completes(n, k, x, y)
  {
    assert y[..|x|] == y[..|x| + 1][..|x|];
  }

  /** No completion is listed twice. */
  ghost predicate Distinct(s: seq<Combo>) {
    forall i, j | 0 <= i < j < |s| :: s[i] != s[j]
  }

  lemma DistinctAppend(a: seq<Combo>, b: seq<Combo>)
    requires Distinct(a) && Distinct(b)
    requires forall y | y in a :: y !in b
    ensures Distinct(a + b)
  {
    forall i, j | 0 <= i < j < |a + b| ensures (a + b)[i] != (a + b)[j] {
      if i < |a| && j >= |a| {
        assert (a + b)[i] in a && (a + b)[j] in b;
      }
    }
  }

  lemma {:induction false} ExtDistinct(n: nat, k: nat, x: Combo)
    requires 2 <= |x| <= k
    ensures Distinct(Ext(n, k, x))
    ensures forall y | y in Ext(n, k, x) :: y[..|x|] == x
    decreases k - |x|, 1, 0
  {
    if |x| < k {
      ExtFromToDistinct(n, k, x, Last(x) + 1, n);
    }
  }

  lemma {:induction false} ExtFromToDistinct(n: nat, k: nat, x: Combo, lo: nat, hi: nat)
    requires 2 <= |x| < k
    ensures Distinct(ExtFromTo(n, k, x, lo, hi))
    ensures forall y | y in ExtFromTo(n, k, x, lo, hi) :: y[..|x|] == x && lo <= y[|x|]
    decreases k - |x|, 0, hi - lo
  {
    if lo < hi {
      var a, b := Ext(n, k, x + [lo]), ExtFromTo(n, k, x, lo + 1, hi);
      ExtDistinct(n, k, x + [lo]);
      ExtFromToDistinct(n, k, x, lo + 1, hi);
      forall y | y in a ensures y !in b && y[..|x|] == x && lo <= y[|x|] {
        assert y[..|x| + 1][|x|] == lo;
        assert y[..|x|] == y[..|x| + 1][..|x|];
      }
      DistinctAppend(a, b);
    }
  }

  /** Running the appended marker downwards lists the same completions. */
  lemma {:induction false} ExtDownFromPermutes(n: nat, k: nat, x: Combo, lo: nat, hi: nat)
    requires 2 <= |x| < k
    ensures multiset(ExtDownFrom(n, k, x, lo, hi)) == multiset(ExtFromTo(n, k, x, lo, hi))
    decreases hi - lo
  {
    if lo < hi {
      ExtDownFromPermutes(n, k, x, lo, hi - 1);
      ExtFromToSplitLast(n, k, x, lo, hi);
      SwapFront(Ext(n, k, x + [hi - 1]), ExtDownFrom(n, k, x, lo, hi - 1), ExtFromTo(n, k, x, lo, hi - 1));
    }
  }

  lemma SwapFront<X>(e: seq<X>, a: seq<X>, b: seq<X>)
    requires multiset(a) == multiset(b)
    ensures multiset(e + a) == multiset(b + e)
  {
    calc {
      multiset(e + a);
      multiset(e) + multiset(a);
      multiset(b) + multiset(e);
      multiset(b + e);
    }
  }

  lemma {:induction false} ExtFromToSplitLast(n: nat, k: nat, x: Combo, lo: nat, hi: nat)
    requires 2 <= |x| < k && lo < hi
    ensures ExtFromTo(n, k, x, lo, hi) == ExtFromTo(n, k, x, lo, hi - 1) + Ext(n, k, x + [hi - 1])
    decreases hi - lo
  {
    if lo < hi - 1 {
      ExtFromToSplitLast(n, k, x, lo + 1, hi);
    }
  }
}

=== FILE: dataset.dfy ===
/** The genotype bit encoding of `Dataset::read` and `Dataset::populate`.

    Individuals are split into controls (phenotype 1) and cases (anything
    else). For every marker and every class, three planes of words are
    filled, one per genotype value: each individual of the class shifts one
    bit, `genotype == k`, into word `cnt / 64` of plane `k`, where `cnt`
    counts the class members seen so far. Words are kept as naturals below
    2^64, so the shift's wrap-around is written out. */
module Dataset {

  import opened Words
  import opened Distribution
  import opened Arith

  datatype Individual = Individual(ph: int)

  /** A controls-first view of one marker: the class members' genotypes and
      the three planes of each class, words as naturals. */
  datatype Encoded = Encoded(cases: seq<seq<nat>>, ctrls: seq<seq<nat>>)

  datatype Data = Data(casesWords: nat, casesCount: nat, ctrlsWords: nat, ctrlsCount: nat,
                       indsCount: nat, cases: seq<seq<seq<nat>>>, ctrls: seq<seq<seq<nat>>>)

  // ---------------------------------------------------------------------
  // Sizes

  /** `(count + NBITS - 1) / NBITS`: the fewest words holding `count`
      bits. */
  function WordsFor(count: nat): (r: nat)
    ensures WordBits * r >= count
    ensures r > 0 ==> WordBits * (r - 1) < count
  {
    (count + WordBits - 1) / WordBits
  }

  lemma WordsForExamples()
    ensures WordsFor(600) == 10 && WordsFor(1300) == 21
    ensures WordsFor(0) == 0 && WordsFor(64) == 1 && WordsFor(65) == 2
  {
  }

  predicate IsControl(ind: Individual) {
    ind.ph == 1
  }

  /** Number of controls, counted front to back. */
  function Controls(inds: seq<Individual>): (r: nat)
    ensures r <= |inds|
  {
    if |inds| == 0 then 0
    else Controls(inds[..|inds| - 1]) + (if IsControl(inds[|inds| - 1]) then 1 else 0)
  }

  /** The counting loop of `read_individuals`: `ctrls += ind.ph == 1`, then
      `cases = individuals.size() - ctrls`. */
  method CountClasses(inds: seq<Individual>) returns (cases: nat, ctrls: nat)
    ensures ctrls == Controls(inds) && cases + ctrls == |inds|
    ensures ctrls == |set i | 0 <= i < |inds| && IsControl(inds[i])|
  {
    ctrls := 0;
    for j := 0 to |inds|
      invariant ctrls == Controls(inds[..j])
    {
      assert inds[..j + 1][..j] == inds[..j];
      ctrls := ctrls + (if IsControl(inds[j]) then 1 else 0);
    }
    assert inds[..|inds|] == inds;
    cases := |inds| - ctrls;
    ControlsAreTheMarked(inds);
  }

  /** The count agrees with the set of indices whose phenotype is 1. */
  lemma {:induction false} ControlsAreTheMarked(inds: seq<Individual>)
    ensures Controls(inds) == |set i | 0 <= i < |inds| && IsControl(inds[i])|
  {
    if |inds| > 0 {
      var n := |inds| - 1;
      ControlsAreTheMarked(inds[..n]);
      MarkedStep(inds);
    }
  }

  /** The indices whose phenotype is 1. */
  ghost function Marked(inds: seq<Individual>): set<int> {
    set i | 0 <= i < |inds| && IsControl(inds[i])
  }

  /** One more individual adds its own index to the marked set, or
      nothing. */
  lemma MarkedStep(inds: seq<Individual>)
    requires |inds| > 0
    ensures |Marked(inds)| == |Marked(inds[..|inds| - 1])| + (if IsControl(inds[|inds| - 1]) then 1 else 0)
  {
    var n := |inds| - 1;
    var init := inds[..n];
    var before, all := Marked(init), Marked(inds);
    assert n !in before;
    forall i | 0 <= i < n
      ensures (i in all) == (i in before)
    {
      assert init[i] == inds[i];
    }
    if IsControl(inds[n]) {
      assert all == before + {n};
    } else {
      assert all == before;
    }
  }

  /** The genotypes of one class's members, in file order. */
  function ClassGenotypes(inds: seq<Individual>, gs: seq<nat>, control: bool): (r: seq<nat>)
    requires |gs| == |inds|
    ensures |r| == if control then Controls(inds) else |inds| - Controls(inds)
  {
    if |inds| == 0 then []
    else
      var n := |inds| - 1;
      ClassGenotypes(inds[..n], gs[..n], control) + (if IsControl(inds[n]) == control then [gs[n]] else [])
  }

  // ---------------------------------------------------------------------
  // Words and planes

  /** `(w << 1) + bit` on a `uint64_t`. */
  function Shift(w: nat, bit: bool): nat {
    (2 * w + (if bit then 1 else 0)) % Pow2(WordBits)
  }

  /** The word a run of genotypes shifts into plane `k`: the first one ends
      up in the highest bit used, the last one in bit 0. */
  function Bits(s: seq<nat>, k: nat): nat {
    if |s| == 0 then 0 else 2 * Bits(s[..|s| - 1], k) + (if s[|s| - 1] == k then 1 else 0)
  }

  /** How many genotypes equal `k`. */
  function Count(s: seq<nat>, k: nat): nat {
    if |s| == 0 then 0 else Count(s[..|s| - 1], k) + (if s[|s| - 1] == k then 1 else 0)
  }

  lemma {:induction false} BitsBound(s: seq<nat>, k: nat)
    ensures Bits(s, k) < Pow2(|s|)
  {
    if |s| > 0 {
      BitsBound(s[..|s| - 1], k);
    }
  }

  lemma PopNatShift(x: nat, b: nat, m: nat)
    requires b < 2
    ensures PopNat(2 * x + b, m + 1) == b + PopNat(x, m)
  {
    assert (2 * x + b) % 2 == b && (2 * x + b) / 2 == x;
  }

  /** Counting the bits a run shifted in counts the run's matches. */
  lemma {:induction false} BitsCount(s: seq<nat>, k: nat)
    ensures PopNat(Bits(s, k), |s|) == Count(s, k)
  {
    if |s| > 0 {
      var init := s[..|s| - 1];
      BitsCount(init, k);
      PopNatShift(Bits(init, k), if s[|s| - 1] == k then 1 else 0, |init|);
    }
  }

  lemma {:induction false} Pow2Monotone(m: nat, M: nat)
    requires m <= M
    ensures Pow2(m) <= Pow2(M)
    decreases M - m
  {
    if m < M {
      Pow2Monotone(m, M - 1);
    }
  }

  lemma {:induction false} PopNatWidenTo(n: nat, m: nat, M: nat)
    requires n < Pow2(m) && m <= M
    ensures PopNat(n, M) == PopNat(n, m)
    decreases M - m
  {
    if m < M {
      PopNatWidenTo(n, m, M - 1);
      Pow2Monotone(m, M - 1);
      PopNatWiden(n, M - 1);
    }
  }

  /** The members `64q .. 64q + 63` of the class: the ones word `q`
      receives. */
  function Chunk(s: seq<nat>, q: nat): (r: seq<nat>)
    ensures |r| <= WordBits
  {
    var lo := if WordBits * q < |s| then WordBits * q else |s|;
    var hi := if WordBits * q + WordBits < |s| then WordBits * q + WordBits else |s|;
    s[lo..hi]
  }

  /** Plane `k` of a class after all its members have been shifted in. */
  function PlaneOf(s: seq<nat>, k: nat, words: nat): (r: seq<nat>)
    ensures |r| == words
    ensures forall q | 0 <= q < words :: r[q] == Bits(Chunk(s, q), k)
  {
    seq(words, q requires 0 <= q < words => Bits(Chunk(s, q), k))
  }

  function SnpPlanes(s: seq<nat>, words: nat): (r: seq<seq<nat>>)
    ensures |r| == 3
  {
    [PlaneOf(s, 0, words), PlaneOf(s, 1, words), PlaneOf(s, 2, words)]
  }

  /** Before any member is shifted in, every word is zero. */
  lemma EmptyPlanes(words: nat)
    ensures SnpPlanes([], words) == seq(3, _ => seq(words, _ => 0))
  {
    assert forall k | 0 <= k < 3 :: PlaneOf([], k, words) == seq(words, _ => 0);
  }

  /** Every word stays below `2^c` for the `c` members it holds, so the
      bits above them are zero and no shift loses a bit. */
  lemma PlaneWordBound(s: seq<nat>, k: nat, words: nat, q: nat)
    requires q < words
    ensures PlaneOf(s, k, words)[q] < Pow2(|Chunk(s, q)|)
  {
    BitsBound(Chunk(s, q), k);
  }

  /** Shifting one more member in changes only word `|s| / 64`, and only by
      the shift. */
  lemma PlaneAppend(s: seq<nat>, g: nat, k: nat, words: nat)
    requires |s| < WordBits * words
    ensures |s| / WordBits < words
    ensures PlaneOf(s + [g], k, words)
         == PlaneOf(s, k, words)[|s| / WordBits := Shift(PlaneOf(s, k, words)[|s| / WordBits], g == k)]
  {
    var qc := |s| / WordBits;
    DivMod(|s|, WordBits);
    var a, b := PlaneOf(s + [g], k, words), PlaneOf(s, k, words)[qc := Shift(PlaneOf(s, k, words)[qc], g == k)];
    forall q | 0 <= q < words ensures a[q] == b[q] {
      if q < qc {
        MulMonotone(q + 1, qc, WordBits);
        ChunkBefore(s, g, q);
      } else if q > qc {
        MulMonotone(qc + 1, q, WordBits);
        ChunkAfter(s, g, q);
      } else {
        WordAppend(s, g, k, q);
      }
    }
  }

  lemma ChunkBefore(s: seq<nat>, g: nat, q: nat)
    requires WordBits * q + WordBits <= |s|
    ensures Chunk(s + [g], q) == Chunk(s, q)
  {
  }

  lemma ChunkAfter(s: seq<nat>, g: nat, q: nat)
    requires |s| < WordBits * q
    ensures Chunk(s + [g], q) == [] == Chunk(s, q)
  {
  }

  /** The word that receives the new member is shifted once, and the bit
      pushed out at the top is zero. */
  lemma WordAppend(s: seq<nat>, g: nat, k: nat, q: nat)
    requires WordBits * q <= |s| < WordBits * q + WordBits
    ensures Bits(Chunk(s + [g], q), k) == Shift(Bits(Chunk(s, q), k), g == k)
  {
    var c := Chunk(s, q);
    ChunkAppend(s, g, q);
    BitsAppend(c, g, k);
    BitsBound(c, k);
    Pow2Monotone(|c|, WordBits - 1);
    ShiftNoWrap(Bits(c, k), g == k);
  }

  lemma BitsAppend(c: seq<nat>, g: nat, k: nat)
    ensures Bits(c + [g], k) == 2 * Bits(c, k) + (if g == k then 1 else 0)
  {
    assert (c + [g])[..|c|] == c;
  }

  /** A word below `2^63` loses nothing to the shift. */
  lemma ShiftNoWrap(w: nat, bit: bool)
    requires w < Pow2(WordBits - 1)
    ensures Shift(w, bit) == 2 * w + (if bit then 1 else 0)
  {
    var b := if bit then 1 else 0;
    DoubleBelow(w, b, WordBits);
    assert Shift(w, bit) == (2 * w + b) % Pow2(WordBits);
  }

  lemma DoubleBelow(w: nat, b: nat, m: nat)
    requires m >= 1 && b < 2 && w < Pow2(m - 1)
    ensures (2 * w + b) % Pow2(m) == 2 * w + b
  {
    DivModUnique(2 * w + b, Pow2(m), 0, 2 * w + b);
  }

  lemma ChunkAppend(s: seq<nat>, g: nat, q: nat)
    requires WordBits * q <= |s| < WordBits * q + WordBits
    ensures Chunk(s + [g], q) == Chunk(s, q) + [g] && |Chunk(s, q)| < WordBits
  {
    assert (s + [g])[WordBits * q..|s| + 1] == s[WordBits * q..] + [g];
  }

  /** Shifts bit `genotype == k` into word `q` of each of the three planes
      (the `for (k = 0; k < 3; k++)` body). */
  method ShiftIn(planes: seq<seq<nat>>, q: nat, g: nat) returns (r: seq<seq<nat>>)
    requires |planes| == 3 && forall k | 0 <= k < 3 :: q < |planes[k]|
    ensures |r| == 3
    ensures forall k | 0 <= k < 3 :: r[k] == planes[k][q := Shift(planes[k][q], g == k)]
  {
    r := planes;
    for k := 0 to 3
      invariant |r| == 3
      invariant forall j | 0 <= j < k :: r[j] == planes[j][q := Shift(planes[j][q], g == j)]
      invariant forall j | k <= j < 3 :: r[j] == planes[j]
    {
      var plane: seq<nat> := r[k][q := Shift(r[k][q], g == k)];
      r := r[k := plane];
    }
  }

  /** One more individual grows its own class by its genotype and leaves
      the other class as it was. */
  lemma ClassStep(inds: seq<Individual>, gs: seq<nat>, j: nat)
    requires |gs| == |inds| && j < |inds|
    ensures ClassGenotypes(inds[..j + 1], gs[..j + 1], IsControl(inds[j]))
         == ClassGenotypes(inds[..j], gs[..j], IsControl(inds[j])) + [gs[j]]
    ensures ClassGenotypes(inds[..j + 1], gs[..j + 1], !IsControl(inds[j]))
         == ClassGenotypes(inds[..j], gs[..j], !IsControl(inds[j]))
  {
    assert inds[..j + 1][..j] == inds[..j] && gs[..j + 1][..j] == gs[..j];
    var other := ClassGenotypes(inds[..j], gs[..j], !IsControl(inds[j]));
    assert other + [] == other;
  }

  lemma SnpPlanesAppend(s: seq<nat>, g: nat, words: nat, planes: seq<seq<nat>>, r: seq<seq<nat>>)
    requires |s| < WordBits * words && planes == SnpPlanes(s, words)
    requires |r| == 3
    requires forall k | 0 <= k < 3 ::
               r[k] == planes[k][|s| / WordBits := Shift(planes[k][|s| / WordBits], g == k)]
    ensures r == SnpPlanes(s + [g], words)
  {
    PlaneAppend(s, g, 0, words);
    PlaneAppend(s, g, 1, words);
    PlaneAppend(s, g, 2, words);
  }

  /** Shifts the next member of a class, the `cnt`-th, into the class's
      planes. */
  method Place(planes: seq<seq<nat>>, s: seq<nat>, g: nat, words: nat, cnt: nat)
    returns (next: seq<seq<nat>>)
    requires cnt == |s| < WordBits * words && planes == SnpPlanes(s, words)
    ensures next == SnpPlanes(s + [g], words)
  {
    PlaneAppend(s, g, 0, words);
    next := ShiftIn(planes, cnt / WordBits, g);
    SnpPlanesAppend(s, g, words, planes, next);
  }

  /** `populate` for one marker: zeroes the planes of both classes, then
      walks the individuals in order, shifting each one's bits into its own
      class. */
  method EncodeSnp(inds: seq<Individual>, gs: seq<nat>, casesWords: nat, ctrlsWords: nat)
    returns (e: Encoded)
    requires |gs| == |inds|
    requires WordBits * casesWords >= |inds| - Controls(inds) && WordBits * ctrlsWords >= Controls(inds)
    ensures e.cases == SnpPlanes(ClassGenotypes(inds, gs, false), casesWords)
    ensures e.ctrls == SnpPlanes(ClassGenotypes(inds, gs, true), ctrlsWords)
  {
    var cases := seq(3, _ => seq(casesWords, _ => 0));
    var ctrls := seq(3, _ => seq(ctrlsWords, _ => 0));
    EmptyPlanes(casesWords);
    EmptyPlanes(ctrlsWords);
    var casesCnt, ctrlsCnt := 0, 0;
    for j := 0 to |inds|
      invariant cases == SnpPlanes(ClassGenotypes(inds[..j], gs[..j], false), casesWords)
      invariant ctrls == SnpPlanes(ClassGenotypes(inds[..j], gs[..j], true), ctrlsWords)
      invariant casesCnt == |ClassGenotypes(inds[..j], gs[..j], false)|
      invariant ctrlsCnt == |ClassGenotypes(inds[..j], gs[..j], true)|
    {
      ClassStep(inds, gs, j);
      PrefixClassSizes(inds, gs, j + 1);
      if IsControl(inds[j]) {
        ctrls := Place(ctrls, ClassGenotypes(inds[..j], gs[..j], true), gs[j], ctrlsWords, ctrlsCnt);
        ctrlsCnt := ctrlsCnt + 1;
      } else {
        cases := Place(cases, ClassGenotypes(inds[..j], gs[..j], false), gs[j], casesWords, casesCnt);
        casesCnt := casesCnt + 1;
      }
    }
    assert inds[..|inds|] == inds && gs[..|gs|] == gs;
    e := Encoded(cases, ctrls);
  }

  /** A prefix's classes are no larger than the whole file's. */
  lemma PrefixClassSizes(inds: seq<Individual>, gs: seq<nat>, j: nat)
    requires |gs| == |inds| && j <= |inds|
    ensures Controls(inds[..j]) <= Controls(inds)
    ensures j - Controls(inds[..j]) <= |inds| - Controls(inds)
  {
    ControlsPrefix(inds, j);
  }

  lemma {:induction false} ControlsPrefix(inds: seq<Individual>, j: nat)
    requires j <= |inds|
    ensures Controls(inds[..j]) <= Controls(inds)
    ensures j - Controls(inds[..j]) <= |inds| - Controls(inds)
    decreases |inds| - j
  {
    if j < |inds| {
      ControlsPrefix(inds, j + 1);
      assert inds[..j + 1][..j] == inds[..j];
    } else {
      assert inds[..j] == inds;
    }
  }

  // ---------------------------------------------------------------------
  // Counting the planes back

  /** `std::bitset<64>(w).count()` summed over a plane. */
  function PlaneCount(p: seq<nat>): nat {
    if |p| == 0 then 0 else PlaneCount(p[..|p| - 1]) + PopNat(p[|p| - 1], WordBits)
  }

  lemma {:induction false} CountAppend(a: seq<nat>, b: seq<nat>, k: nat)
    ensures Count(a + b, k) == Count(a, k) + Count(b, k)
    decreases |b|
  {
    if |b| > 0 {
      CountAppend(a, b[..|b| - 1], k);
      assert (a + b)[..|a + b| - 1] == a + b[..|b| - 1];
    } else {
      assert a + b == a;
    }
  }

  /** The first `64 w` members, or all of them when there are fewer. */
  function Upto(s: seq<nat>, w: nat): (r: seq<nat>)
    ensures |r| <= |s| && r == s[..|r|] && (|r| == |s| || |r| == WordBits * w)
  {
    if WordBits * w < |s| then s[..WordBits * w] else s
  }

  lemma UptoStep(s: seq<nat>, w: nat)
    requires w > 0
    ensures Upto(s, w) == Upto(s, w - 1) + Chunk(s, w - 1)
  {
    var lo := if WordBits * (w - 1) < |s| then WordBits * (w - 1) else |s|;
    var hi := if WordBits * (w - 1) + WordBits < |s| then WordBits * (w - 1) + WordBits else |s|;
    assert WordBits * (w - 1) + WordBits == WordBits * w;
    assert Upto(s, w - 1) == s[..lo] && Upto(s, w) == s[..hi] && Chunk(s, w - 1) == s[lo..hi];
    assert s[..hi] == s[..lo] + s[lo..hi];
  }

  /** The words `0 .. w - 1` of plane `k` count the matches among the first
      `64 w` members. */
  lemma {:induction false} PlaneCountPrefix(s: seq<nat>, k: nat, w: nat)
    ensures PlaneCount(PlaneOf(s, k, w)) == Count(Upto(s, w), k)
  {
    if w == 0 {
      assert Upto(s, 0) == s[..0];
    } else {
      PlaneCountPrefix(s, k, w - 1);
      PlaneCountStep(s, k, w);
      var c := Chunk(s, w - 1);
      WordCount(c, k);
      UptoStep(s, w);
      CountAppend(Upto(s, w - 1), c, k);
    }
  }

  lemma PlaneCountStep(s: seq<nat>, k: nat, w: nat)
    requires w > 0
    ensures PlaneCount(PlaneOf(s, k, w))
         == PlaneCount(PlaneOf(s, k, w - 1)) + PopNat(Bits(Chunk(s, w - 1), k), WordBits)
  {
    assert PlaneOf(s, k, w)[..w - 1] == PlaneOf(s, k, w - 1);
  }

  /** A word's 64 bits count the matches of the members it holds. */
  lemma WordCount(c: seq<nat>, k: nat)
    requires |c| <= WordBits
    ensures PopNat(Bits(c, k), WordBits) == Count(c, k)
  {
    BitsCount(c, k);
    BitsBound(c, k);
    PopNatWidenTo(Bits(c, k), |c|, WordBits);
  }

  /** Plane `k` counts exactly the class members with genotype `k`. */
  lemma PlaneCountIsCount(s: seq<nat>, k: nat, words: nat)
    requires |s| <= WordBits * words
    ensures PlaneCount(PlaneOf(s, k, words)) == Count(s, k)
  {
    PlaneCountPrefix(s, k, words);
  }

  lemma {:induction false} CountsCover(s: seq<nat>)
    requires forall i | 0 <= i < |s| :: s[i] < 3
    ensures Count(s, 0) + Count(s, 1) + Count(s, 2) == |s|
  {
    if |s| > 0 {
      CountsCover(s[..|s| - 1]);
    }
  }

  /** With genotypes in {0, 1, 2} each member sets its bit in exactly one
      plane, so the three planes' counts add up to the class size. */
  lemma ThreePlanesCountClass(s: seq<nat>, words: nat)
    requires |s| <= WordBits * words
    requires forall i | 0 <= i < |s| :: s[i] < 3
    ensures PlaneCount(SnpPlanes(s, words)[0]) + PlaneCount(SnpPlanes(s, words)[1])
          + PlaneCount(SnpPlanes(s, words)[2]) == |s|
  {
    PlaneCountIsCount(s, 0, words);
    PlaneCountIsCount(s, 1, words);
    PlaneCountIsCount(s, 2, words);
    CountsCover(s);
  }

  // ---------------------------------------------------------------------
  // The whole dataset

  /** `Dataset::read` once the files are parsed: a marker whose genotype
      count differs from the number of individuals is an error; otherwise
      both classes are encoded marker by marker. */
  method Read(inds: seq<Individual>, snps: seq<seq<nat>>) returns (r: Option<Data>)
    ensures r.Some? <==> forall i | 0 <= i < |snps| :: |snps[i]| == |inds|
    ensures r.Some? ==> (r.value.ctrlsCount == Controls(inds)
                      && r.value.casesCount + r.value.ctrlsCount == |inds|
                      && r.value.indsCount == |inds|
                      && r.value.casesWords == WordsFor(r.value.casesCount)
                      && r.value.ctrlsWords == WordsFor(r.value.ctrlsCount)
                      && |r.value.cases| == |snps| == |r.value.ctrls|)
    ensures r.Some? ==> forall i | 0 <= i < |snps| ::
              (|snps[i]| == |inds| &&
               r.value.cases[i] == SnpPlanes(ClassGenotypes(inds, snps[i], false), r.value.casesWords) &&
               r.value.ctrls[i] == SnpPlanes(ClassGenotypes(inds, snps[i], true), r.value.ctrlsWords))
  {
    for i := 0 to |snps|
      invariant forall j | 0 <= j < i :: |snps[j]| == |inds|
    {
      if |snps[i]| != |inds| {
        return None;
      }
    }
    var casesCount, ctrlsCount := CountClasses(inds);
    var casesWords, ctrlsWords := WordsFor(casesCount), WordsFor(ctrlsCount);
    var cases: seq<seq<seq<nat>>> := [];
    var ctrls: seq<seq<seq<nat>>> := [];
    for i := 0 to |snps|
      invariant |cases| == i == |ctrls|
      invariant forall j | 0 <= j < i ::
                  cases[j] == SnpPlanes(ClassGenotypes(inds, snps[j], false), casesWords) &&
                  ctrls[j] == SnpPlanes(ClassGenotypes(inds, snps[j], true), ctrlsWords)
    {
      var e := EncodeSnp(inds, snps[i], casesWords, ctrlsWords);
      cases, ctrls := cases + [e.cases], ctrls + [e.ctrls];
    }
    r := Some(Data(casesWords, casesCount, ctrlsWords, ctrlsCount, casesCount + ctrlsCount, cases, ctrls));
  }

  /** Every marker's planes count back to the class sizes
      (`cases_count` over the case planes, `ctrls_count` over the control
      planes) when genotypes are in {0, 1, 2}. */
  lemma ReadCountsBack(inds: seq<Individual>, snps: seq<seq<nat>>, d: Data, i: nat)
    requires i < |snps| && |snps[i]| == |inds|
    requires forall j | 0 <= j < |inds| :: snps[i][j] < 3
    requires d.ctrlsCount == Controls(inds) && d.casesCount + d.ctrlsCount == |inds|
    requires d.casesWords == WordsFor(d.casesCount) && d.ctrlsWords == WordsFor(d.ctrlsCount)
    requires |d.cases| == |snps| == |d.ctrls|
    requires d.cases[i] == SnpPlanes(ClassGenotypes(inds, snps[i], false), d.casesWords)
    requires d.ctrls[i] == SnpPlanes(ClassGenotypes(inds, snps[i], true), d.ctrlsWords)
    ensures PlaneCount(d.cases[i][0]) + PlaneCount(d.cases[i][1]) + PlaneCount(d.cases[i][2]) == d.casesCount
    ensures PlaneCount(d.ctrls[i][0]) + PlaneCount(d.ctrls[i][1]) + PlaneCount(d.ctrls[i][2]) == d.ctrlsCount
  {
    ClassGenotypesIn(inds, snps[i], false);
    ClassGenotypesIn(inds, snps[i], true);
    ThreePlanesCountClass(ClassGenotypes(inds, snps[i], false), d.casesWords);
    ThreePlanesCountClass(ClassGenotypes(inds, snps[i], true), d.ctrlsWords);
  }

  lemma {:induction false} ClassGenotypesIn(inds: seq<Individual>, gs: seq<nat>, control: bool)
    requires |gs| == |inds| && forall j | 0 <= j < |gs| :: gs[j] < 3
    ensures forall j | 0 <= j < |ClassGenotypes(inds, gs, control)| :: ClassGenotypes(inds, gs, control)[j] < 3
  {
    if |inds| > 0 {
      ClassGenotypesIn(inds[..|inds| - 1], gs[..|gs| - 1], control);
    }
  }

  // ---------------------------------------------------------------------
  // Layout of the allocation

  /** First word of plane `j` of marker `i` inside its class's region:
      `cases_ptr` advances by `3 * words` per marker and plane `j` starts
      `words * j` further. */
  function PlaneStart(i: nat, j: nat, words: nat): nat {
    (3 * i + j) * words
  }

  /** The planes of different markers or genotypes never share a word, and
      all of them fit in the `3 * words * snps` words of the region. */
  lemma PlanesDisjoint(snps: nat, words: nat, i1: nat, j1: nat, i2: nat, j2: nat)
    requires i1 < snps && i2 < snps && j1 < 3 && j2 < 3 && (i1, j1) != (i2, j2)
    ensures PlaneStart(i1, j1, words) + words <= PlaneStart(i2, j2, words)
         || PlaneStart(i2, j2, words) + words <= PlaneStart(i1, j1, words)
    ensures PlaneStart(i1, j1, words) + words <= 3 * words * snps
  {
    var a, b := 3 * i1 + j1, 3 * i2 + j2;
    assert a != b;
    if a < b {
      PlaneEndsBefore(a, b, words);
    } else {
      PlaneEndsBefore(b, a, words);
    }
    PlaneEndsBefore(a, 3 * snps, words);
    assert 3 * words * snps == (3 * snps) * words;
  }

  lemma PlaneEndsBefore(a: nat, b: nat, words: nat)
    requires a < b
    ensures a * words + words <= b * words
  {
    MulMonotone(a + 1, b, words);
    assert (a + 1) * words == a * words + words;
  }
}

=== FILE: distribution.dfy ===
/** How the marker pairs `(a, b)`, `a < b < size`, are shared among workers.

    A worker is a `Distributor(size, frac, id)`: it is one of `frac` workers
    and takes the pairs whose position in the row-major sequence
    `(0,1), (0,2), ..., (0,size-1), (1,2), ...` is `id`, `id + frac`,
    `id + 2 * frac`, ... The eager `get_pairs` of the engine generation
    appends exactly those pairs. The lazy `PairList` cursor of the other
    generation walks the same sequence with an extra `(0,0)` in front and
    a modulo carry; both of its departures are modelled as written and
    next to a corrected cursor. */
module Distribution {

  import opened Arith

  type Pair = (nat, nat)

  datatype Option<T> = None | Some(value: T)

  datatype Distributor = Distributor(size: nat, frac: nat, id: nat)

  /** `Distributor::layer(f, i)`: worker `i` of `f` inside this worker. */
  function Layer(d: Distributor, f: nat, i: nat): (r: Distributor)
    ensures r.size == d.size
  {
    Distributor(d.size, d.frac * f, d.id * f + i)
  }

  /** Layering is a bijection from the pairs `(id, i)`, `id < frac`,
      `i < f`, onto the worker ids below `frac * f`: every outer worker's
      inner workers get distinct ids, and every id is reached. */
  lemma LayerInRange(d: Distributor, f: nat, i: nat)
    requires d.id < d.frac && i < f
    ensures Layer(d, f, i).id < Layer(d, f, i).frac
  {
    assert d.id * f + i < d.id * f + f == (d.id + 1) * f;
    MulMonotone(d.id + 1, d.frac, f);
  }

  lemma LayerInjective(d1: Distributor, d2: Distributor, f: nat, i1: nat, i2: nat)
    requires i1 < f && i2 < f
    requires Layer(d1, f, i1).id == Layer(d2, f, i2).id
    ensures d1.id == d2.id && i1 == i2
  {
    DivModUnique(d1.id * f + i1, f, d1.id, i1);
    DivModUnique(d1.id * f + i1, f, d2.id, i2);
  }

  lemma LayerOnto(size: nat, frac: nat, f: nat, k: nat)
    requires k < frac * f
    ensures f > 0
    ensures k / f < frac && Layer(Distributor(size, frac, k / f), f, k % f).id == k
  {
    DivMod(k, f);
    if k / f >= frac {
      MulMonotone(frac, k / f, f);
    }
  }

  lemma MulMonotone(a: nat, b: nat, f: nat)
    requires a <= b
    ensures a * f <= b * f
  {
  }

  // ---------------------------------------------------------------------
  // The row-major sequence of pairs

  /** Pairs in row `a`: `(a, a+1), ..., (a, n-1)`. */
  function RowLength(n: nat, a: nat): nat {
    if a < n then n - 1 - a else 0
  }

  /** Position of the first pair of row `a`. */
  function RowStart(n: nat, a: nat): nat {
    if a == 0 then 0 else RowStart(n, a - 1) + RowLength(n, a - 1)
  }

  function Row(n: nat, a: nat): (r: seq<Pair>)
    ensures |r| == RowLength(n, a)
    ensures forall k | 0 <= k < |r| :: r[k] == (a, a + 1 + k)
  {
    seq(RowLength(n, a), k => (a, a + 1 + k))
  }

  /** Rows `0 .. a-1` laid end to end. */
  function Rows(n: nat, a: nat): (r: seq<Pair>)
    ensures |r| == RowStart(n, a)
  {
    if a == 0 then [] else Rows(n, a - 1) + Row(n, a - 1)
  }

  /** Every pair `a < b < n` in row-major order. */
  function Canonical(n: nat): seq<Pair> {
    Rows(n, n)
  }

  /** Position of `(a, b)` in the row-major sequence. */
  function Rank(n: nat, p: Pair): int {
    RowStart(n, p.0) + p.1 - p.0 - 1
  }

  predicate IsPair(n: nat, p: Pair) {
    p.0 < p.1 < n
  }

  lemma {:induction false} RowStartMonotone(n: nat, a: nat, b: nat)
    requires a <= b
    ensures RowStart(n, a) <= RowStart(n, b)
    decreases b
  {
    if a < b {
      RowStartMonotone(n, a, b - 1);
    }
  }

  /** The rows past the last SNP are empty, so every pair lies in `Rows(n, n)`. */
  lemma {:induction false} RowStartSaturates(n: nat, a: nat)
    requires n <= a
    ensures RowStart(n, a) == RowStart(n, n)
    decreases a
  {
    if n < a {
      RowStartSaturates(n, a - 1);
    }
  }

  /** The number of pairs is `n * (n - 1) / 2` (`total_pairs`). */
  lemma TotalPairs(n: nat)
    ensures 2 * |Canonical(n)| == n * (n - 1)
  {
    RowStartClosed(n, n);
  }

  lemma {:induction false} RowStartClosed(n: nat, a: nat)
    requires a <= n
    ensures 2 * RowStart(n, a) == a * (2 * n - a - 1)
    decreases a
  {
    if a > 0 {
      RowStartClosed(n, a - 1);
      var m := 2 * n - a;
      assert RowStart(n, a) == RowStart(n, a - 1) + (n - a);
      assert (a - 1) * m == a * m - m;
      assert a * (m - 1) == a * m - a;
    }
  }

  /** Pair `(a, b)` sits at position `Rank(n, (a, b))`. */
  lemma {:induction false} RowsIndex(n: nat, i: nat, p: Pair)
    requires IsPair(n, p) && p.0 < i
    ensures 0 <= Rank(n, p) < |Rows(n, i)| && Rows(n, i)[Rank(n, p)] == p
    decreases i
  {
    if p.0 < i - 1 {
      RowsIndex(n, i - 1, p);
    } else {
      var k := p.1 - p.0 - 1;
      assert Rows(n, i)[RowStart(n, i - 1) + k] == Row(n, i - 1)[k];
    }
  }

  /** Every element of the sequence is a pair and sits at its rank. */
  lemma {:induction false} RowsEntry(n: nat, i: nat, r: nat)
    requires r < |Rows(n, i)|
    ensures IsPair(n, Rows(n, i)[r]) && Rows(n, i)[r].0 < i
    ensures Rank(n, Rows(n, i)[r]) == r
    decreases i
  {
    if r < RowStart(n, i - 1) {
      RowsEntry(n, i - 1, r);
    } else {
      assert Rows(n, i)[r] == Row(n, i - 1)[r - RowStart(n, i - 1)];
    }
  }

  /** The row-major sequence is exactly the set of pairs, each once:
      position `r` holds a pair of rank `r`, and every pair occurs at its
      rank. */
  lemma CanonicalIsPairs(n: nat)
    ensures forall r | 0 <= r < |Canonical(n)| ::
      IsPair(n, Canonical(n)[r]) && Rank(n, Canonical(n)[r]) == r
    ensures forall p: Pair | IsPair(n, p) ::
      0 <= Rank(n, p) < |Canonical(n)| && Canonical(n)[Rank(n, p)] == p
  {
    forall r | 0 <= r < |Canonical(n)|
      ensures IsPair(n, Canonical(n)[r]) && Rank(n, Canonical(n)[r]) == r
    {
      RowsEntry(n, n, r);
    }
    forall p: Pair | IsPair(n, p)
      ensures 0 <= Rank(n, p) < |Canonical(n)| && Canonical(n)[Rank(n, p)] == p
    {
      RowsIndex(n, n, p);
    }
  }

  predicate LexLess(p: Pair, q: Pair) {
    p.0 < q.0 || (p.0 == q.0 && p.1 < q.1)
  }

  /** Ranks follow the lexicographic order of pairs. */
  lemma RankMonotone(n: nat, p: Pair, q: Pair)
    requires IsPair(n, p) && IsPair(n, q) && LexLess(p, q)
    ensures Rank(n, p) < Rank(n, q)
  {
    if p.0 < q.0 {
      RowStartMonotone(n, p.0 + 1, q.0);
    }
  }

  lemma CanonicalSorted(n: nat, r1: nat, r2: nat)
    requires r1 < r2 < |Canonical(n)|
    ensures LexLess(Canonical(n)[r1], Canonical(n)[r2])
  {
    CanonicalIsPairs(n);
    var p, q := Canonical(n)[r1], Canonical(n)[r2];
    if !LexLess(p, q) {
      if p != q {
        RankMonotone(n, q, p);
      }
    }
  }

  // ---------------------------------------------------------------------
  // Strided selection

  /** Elements `id`, `id + frac`, `id + 2 * frac`, ... of `s`. */
  function Strided<T>(s: seq<T>, id: nat, frac: nat): (r: seq<T>)
    requires frac > 0
    ensures |r| == StrideCount(|s|, id, frac)
    ensures forall m | 0 <= m < |r| :: Pos(id, m, frac) < |s| && r[m] == s[Pos(id, m, frac)]
    decreases |s| - id
  {
    if id >= |s| then []
    else
      var rest := Strided(s, id + frac, frac);
      StridedCons(s, id, frac, rest);
      [s[id]] + rest
  }

  lemma StridedCons<T>(s: seq<T>, id: nat, frac: nat, rest: seq<T>)
    requires id < |s|
    requires forall m | 0 <= m < |rest| :: Pos(id + frac, m, frac) < |s| && rest[m] == s[Pos(id + frac, m, frac)]
    ensures forall m | 0 <= m < |rest| + 1 ::
      Pos(id, m, frac) < |s| && ([s[id]] + rest)[m] == s[Pos(id, m, frac)]
  {
    var r := [s[id]] + rest;
    forall m | 0 <= m < |r| ensures Pos(id, m, frac) < |s| && r[m] == s[Pos(id, m, frac)] {
      if m > 0 {
        PosStep(id, m, frac);
        assert r[m] == rest[m - 1];
      }
    }
  }

  /** Position of the `m`-th selected element. */
  function Pos(id: nat, m: nat, frac: nat): nat {
    id + m * frac
  }

  lemma PosStep(id: nat, m: nat, frac: nat)
    requires m > 0
    ensures Pos(id, m, frac) == Pos(id + frac, m - 1, frac)
  {
    assert m * frac == frac + (m - 1) * frac;
  }

  /** How many of `id`, `id + frac`, ... lie below `len`. */
  function StrideCount(len: nat, id: nat, frac: nat): nat
    requires frac > 0
    decreases len - id
  {
    if id >= len then 0 else 1 + StrideCount(len, id + frac, frac)
  }

  lemma PosMonotone(id: nat, m1: nat, m2: nat, frac: nat)
    requires m1 < m2 && frac > 0
    ensures Pos(id, m1, frac) < Pos(id, m2, frac)
  {
    assert m2 * frac == m1 * frac + (m2 - m1) * frac;
  }

  /** `id + m * frac` is selected exactly when it is in range. */
  lemma {:induction false} StrideCountExact(len: nat, id: nat, frac: nat, m: nat)
    requires frac > 0
    ensures m < StrideCount(len, id, frac) <==> Pos(id, m, frac) < len
    decreases len - id
  {
    if m > 0 {
      PosStep(id, m, frac);
      if id < len {
        StrideCountExact(len, id + frac, frac, m - 1);
      }
    }
  }

  /** Workers `id < id'` below `frac` differ by at most one item. */
  lemma {:induction false} StrideCountBalanced(len: nat, id1: nat, id2: nat, frac: nat)
    requires frac > 0 && id1 <= id2 <= id1 + frac
    ensures StrideCount(len, id2, frac) <= StrideCount(len, id1, frac) <= StrideCount(len, id2, frac) + 1
    decreases len - id1
  {
    if id1 < len {
      if id2 < len {
        StrideCountBalanced(len, id1 + frac, id2 + frac, frac);
        StrideCountAntitone(len, id2, id1 + frac, frac);
      }
    }
  }

  lemma {:induction false} StrideCountAntitone(len: nat, id1: nat, id2: nat, frac: nat)
    requires frac > 0 && id1 <= id2
    ensures StrideCount(len, id2, frac) <= StrideCount(len, id1, frac)
    decreases len - id1
  {
    if id2 < len {
      StrideCountAntitone(len, id1 + frac, id2 + frac, frac);
    }
  }

  // ---------------------------------------------------------------------
  // The share of one worker

  /** Reference share of worker `id` of `frac`. */
  function WorkerPairs(n: nat, frac: nat, id: nat): seq<Pair>
    requires frac > 0
  {
    Strided(Canonical(n), id, frac)
  }

  /** Worker `id < frac` holds `(a, b)` iff `a < b < n` and the pair's
      row-major position is congruent to `id` modulo `frac`. */
  lemma WorkerMembership(n: nat, frac: nat, id: nat, p: Pair)
    requires 0 < frac && id < frac
    ensures p in WorkerPairs(n, frac, id) <==> IsPair(n, p) && Rank(n, p) % frac == id
  {
    if p in WorkerPairs(n, frac, id) {
      MemberRank(n, frac, id, p);
    }
    if IsPair(n, p) && Rank(n, p) % frac == id {
      RankMember(n, frac, id, p);
    }
  }

  lemma MemberRank(n: nat, frac: nat, id: nat, p: Pair)
    requires 0 < frac && id < frac && p in WorkerPairs(n, frac, id)
    ensures IsPair(n, p) && Rank(n, p) % frac == id
  {
    var w := WorkerPairs(n, frac, id);
    var m :| 0 <= m < |w| && w[m] == p;
    var r := Pos(id, m, frac);
    RowsEntry(n, n, r);
    DivModUnique(r, frac, m, id);
  }

  /** The pair of rank `id + m * frac` is element `m` of the share. */
  lemma WorkerAt(n: nat, frac: nat, id: nat, m: nat, p: Pair)
    requires 0 < frac && IsPair(n, p) && Rank(n, p) == Pos(id, m, frac)
    ensures m < |WorkerPairs(n, frac, id)| && WorkerPairs(n, frac, id)[m] == p
  {
    RowsIndex(n, n, p);
    StrideCountExact(|Canonical(n)|, id, frac, m);
  }

  lemma RankMember(n: nat, frac: nat, id: nat, p: Pair)
    requires 0 < frac && id < frac && IsPair(n, p) && Rank(n, p) % frac == id
    ensures p in WorkerPairs(n, frac, id)
  {
    RowsIndex(n, n, p);
    var r: nat := Rank(n, p);
    DivMod(r, frac);
    var m := r / frac;
    assert Pos(id, m, frac) == r;
    WorkerAt(n, frac, id, m, p);
  }

  /** The workers' shares are pairwise disjoint and together hold every
      pair. */
  lemma WorkersPartition(n: nat, frac: nat, id1: nat, id2: nat, p: Pair)
    requires 0 < frac && id1 < frac && id2 < frac
    requires p in WorkerPairs(n, frac, id1) && p in WorkerPairs(n, frac, id2)
    ensures id1 == id2
  {
    WorkerMembership(n, frac, id1, p);
    WorkerMembership(n, frac, id2, p);
  }

  lemma WorkersCover(n: nat, frac: nat, p: Pair)
    requires 0 < frac && IsPair(n, p)
    ensures Rank(n, p) >= 0 && Rank(n, p) % frac < frac
    ensures p in WorkerPairs(n, frac, Rank(n, p) % frac)
  {
    CanonicalIsPairs(n);
    WorkerMembership(n, frac, Rank(n, p) % frac, p);
  }

  /** A share is in ascending row-major order. */
  lemma WorkerSorted(n: nat, frac: nat, id: nat, m1: nat, m2: nat)
    requires 0 < frac && m1 < m2 < |WorkerPairs(n, frac, id)|
    ensures LexLess(WorkerPairs(n, frac, id)[m1], WorkerPairs(n, frac, id)[m2])
  {
    var w := WorkerPairs(n, frac, id);
    PosMonotone(id, m1, m2, frac);
    CanonicalSorted(n, Pos(id, m1, frac), Pos(id, m2, frac));
  }

  /** Shares of workers `id1 <= id2 < frac` differ in length by at most one. */
  lemma WorkersBalanced(n: nat, frac: nat, id1: nat, id2: nat)
    requires 0 < frac && id1 <= id2 < frac
    ensures |WorkerPairs(n, frac, id2)| <= |WorkerPairs(n, frac, id1)| <= |WorkerPairs(n, frac, id2)| + 1
  {
    StrideCountBalanced(|Canonical(n)|, id1, id2, frac);
  }

  // ---------------------------------------------------------------------
  // The eager enumeration (engine generation)

  /** `Distributor::get_pairs(pairs)`: walks the rows, starting each row
      at `i + 1 + offset` and carrying `j - size` into the next row. */
  method GetPairs(d: Distributor, pairs: seq<Pair>) returns (r: seq<Pair>)
    requires d.frac > 0
    ensures r == pairs + WorkerPairs(d.size, d.frac, d.id)
  {
    var n, frac, id := d.size, d.frac, d.id;
    ghost var w := WorkerPairs(n, frac, id);
    var m: nat := 0;
    r := pairs;
    var offset: nat := id;
    var i := 0;
    while i < n
      invariant i <= n
      invariant m <= |w| && r == pairs + w[..m]
      invariant Pos(id, m, frac) == RowStart(n, i) + offset
    {
      var j;
      r, m, j := WalkRow(n, frac, id, pairs, i, i + 1 + offset, r, m);
      offset := j - n;
      i := i + 1;
    }
    RowStartSaturates(n, i);
    StrideCountExact(|Canonical(n)|, id, frac, m);
    assert w[..m] == w;
  }

  /** The inner loop of `get_pairs`: the pairs `(i, j)` of one row, `j`
      stepping by `frac`, each the worker's next pair. */
  method WalkRow(n: nat, frac: nat, id: nat, pairs: seq<Pair>, i: nat, j0: nat, r0: seq<Pair>, m0: nat)
    returns (r: seq<Pair>, m: nat, j: nat)
    requires frac > 0 && i < n && j0 >= i + 1
    requires m0 <= |WorkerPairs(n, frac, id)| && r0 == pairs + WorkerPairs(n, frac, id)[..m0]
    requires Pos(id, m0, frac) == RowStart(n, i) + (j0 - i - 1)
    ensures j >= n && j >= j0
    ensures m <= |WorkerPairs(n, frac, id)| && r == pairs + WorkerPairs(n, frac, id)[..m]
    ensures Pos(id, m, frac) == RowStart(n, i + 1) + (j - n)
  {
    ghost var w := WorkerPairs(n, frac, id);
    r, m, j := r0, m0, j0;
    while j < n
      invariant j >= j0
      invariant m <= |w| && r == pairs + w[..m]
      invariant Pos(id, m, frac) == RowStart(n, i) + (j - i - 1)
    {
      WorkerAt(n, frac, id, m, (i, j));
      assert w[..m + 1] == w[..m] + [(i, j)];
      PosStep(id, m + 1, frac);
      r, m, j := r + [(i, j)], m + 1, j + frac;
    }
  }

  // ---------------------------------------------------------------------
  // The lazy cursor (PairList)

  /** The sequence the cursor walks: `(0, 0)` followed by every pair. */
  function CursorSequence(n: nat): seq<Pair> {
    [(0, 0)] + Canonical(n)
  }

  /** Position of `(f, t)` in `CursorSequence(n)` when `t` is in row `f`'s
      range (row 0 starts at `(0, 0)`). */
  function CursorIndex(n: nat, f: nat, t: nat): int {
    RowStart(n, f) + t - f
  }

  /** `PairList(size, size, offset, step)`: the seed `(offset / size,
      offset % size)`, yielded before any check. */
  function Seed(n: nat, offset: nat): (p: Pair)
    requires n > 0
    ensures p.1 < n
  {
    (offset / n, offset % n)
  }

  /** The loop of `iterator::operator++` after `second += step`: while the
      row is exhausted, move to the next row and restart at
      `first + 1 + second % size`; past the last row the iterator becomes
      `end`. */
  function Advance(n: nat, f: nat, t: nat): (r: Option<Pair>)
    requires n > 0
    ensures r.Some? ==> f <= r.value.0 < n && r.value.1 < n
    ensures r.Some? && r.value.0 == f ==> r.value.1 == t
    decreases n - f
  {
    if f < n then
      if t < n then Some((f, t)) else Advance(n, f + 1, f + 2 + t % n)
    else None
  }

  /** Every pair the cursor yields from `p` on, `p` included. */
  function CursorRun(n: nat, step: nat, p: Pair): (r: seq<Pair>)
    requires n > 0 && step > 0 && p.1 < n
    ensures |r| >= 1 && r[0] == p
    decreases n - p.0, n - p.1
  {
    match Advance(n, p.0, p.1 + step)
    case None => [p]
    case Some(q) => [p] + CursorRun(n, step, q)
  }

  /** `for (auto p : d.get_pairs())` on the lazy generation. */
  function LazyPairs(d: Distributor): (r: seq<Pair>)
    requires d.size > 0 && d.frac > 0
    ensures |r| >= 1 && r[0] == (d.id / d.size, d.id % d.size)
  {
    CursorRun(d.size, d.frac, Seed(d.size, d.id))
  }

  /** Where position `u` of the cursor sequence sits in row terms. */
  lemma CursorEntry(n: nat, u: nat)
    requires n > 0 && u < |CursorSequence(n)|
    ensures var p := CursorSequence(n)[u];
            p.0 < n && p.1 < n && (p.0 == 0 || p.0 < p.1) && CursorIndex(n, p.0, p.1) == u
  {
    if u > 0 {
      RowsEntry(n, n, u - 1);
      assert CursorSequence(n)[u] == Canonical(n)[u - 1];
    }
  }

  /** One carry step of the cursor moves `step` positions along the cursor
      sequence, as long as `second` stays below `2 * size` (so that
      `second % size` is `second - size`). */
  lemma {:induction false} AdvanceAt(n: nat, f: nat, t: nat)
    requires n > 0 && f < n && t < 2 * n && (f == 0 || f < t)
    ensures CursorIndex(n, f, t) >= 0
    ensures var u := CursorIndex(n, f, t);
            Advance(n, f, t) == if u < |CursorSequence(n)| then Some(CursorSequence(n)[u]) else None
    decreases n - f
  {
    if t < n {
      AdvanceHit(n, f, t);
    } else if f + 1 < n {
      AdvanceCarry(n, f, t);
      AdvanceAt(n, f + 1, f + 2 + (t - n));
    } else {
      AdvancePastLast(n, f, t);
    }
  }

  /** Without a carry, `operator++` stays on the entry it reached. */
  lemma AdvanceHit(n: nat, f: nat, t: nat)
    requires n > 0 && f < n && t < n && (f == 0 || f < t)
    ensures 0 <= CursorIndex(n, f, t) < |CursorSequence(n)|
    ensures Advance(n, f, t) == Some(CursorSequence(n)[CursorIndex(n, f, t)])
  {
    var s := CursorSequence(n);
    var u := CursorIndex(n, f, t);
    if f == 0 && t == 0 {
      assert s[0] == (0, 0);
    } else {
      RowsIndex(n, n, (f, t));
      assert s[u] == Canonical(n)[u - 1];
    }
  }

  /** A carry from row `f` to row `f + 1` keeps the cursor index. */
  lemma AdvanceCarry(n: nat, f: nat, t: nat)
    requires n > 0 && f + 1 < n && n <= t < 2 * n
    ensures Advance(n, f, t) == Advance(n, f + 1, f + 2 + (t - n))
    ensures CursorIndex(n, f + 1, f + 2 + (t - n)) == CursorIndex(n, f, t)
  {
    DivModUnique(t, n, 1, t - n);
    assert RowStart(n, f + 1) == RowStart(n, f) + (n - 1 - f);
  }

  /** A carry out of the last row ends the run past the last entry. */
  lemma AdvancePastLast(n: nat, f: nat, t: nat)
    requires n > 0 && f + 1 == n && n <= t
    ensures Advance(n, f, t) == None
    ensures CursorIndex(n, f, t) >= |CursorSequence(n)|
  {
    assert Advance(n, f, t) == Advance(n, f + 1, f + 2 + t % n);
    RowStartSaturates(n, f + 1);
    assert RowStart(n, f + 1) == RowStart(n, f) + 0;
  }

  /** From position `u` with `step <= size`, the cursor yields positions
      `u`, `u + step`, `u + 2 * step`, ... of the cursor sequence. */
  lemma {:induction false} CursorRunIsStrided(n: nat, step: nat, u: nat)
    requires n > 0 && 0 < step <= n && u < |CursorSequence(n)|
    ensures CursorSequence(n)[u].1 < n
    ensures CursorRun(n, step, CursorSequence(n)[u]) == Strided(CursorSequence(n), u, step)
    decreases |CursorSequence(n)| - u
  {
    var s := CursorSequence(n);
    var p := s[u];
    CursorStep(n, step, u);
    StridedStep(s, u, step);
    if u + step < |s| {
      CursorRunIsStrided(n, step, u + step);
      assert CursorRun(n, step, p) == [p] + CursorRun(n, step, s[u + step]);
    } else {
      assert CursorRun(n, step, p) == [p];
    }
  }

  /** One `operator++` from position `u` lands `step` positions further on,
      or on `end` past the last entry. */
  lemma CursorStep(n: nat, step: nat, u: nat)
    requires n > 0 && 0 < step <= n && u < |CursorSequence(n)|
    ensures CursorSequence(n)[u].1 < n
    ensures var p := CursorSequence(n)[u];
            Advance(n, p.0, p.1 + step)
              == if u + step < |CursorSequence(n)| then Some(CursorSequence(n)[u + step]) else None
  {
    var p := CursorSequence(n)[u];
    CursorEntry(n, u);
    AdvanceAt(n, p.0, p.1 + step);
  }

  /** The first element of a non-empty stride, then the stride from the
      next position. */
  lemma StridedStep<T>(s: seq<T>, id: nat, frac: nat)
    requires frac > 0 && id < |s|
    ensures Strided(s, id, frac) == [s[id]] + Strided(s, id + frac, frac)
    ensures id + frac >= |s| ==> Strided(s, id, frac) == [s[id]]
  {
  }

  /** With `id < frac <= size`, worker `id` of the lazy generation takes
      positions `id`, `id + frac`, ... of `(0, 0)` followed by every pair:
      the eager assignment shifted by one, with `(0, 0)` put in front of
      worker 0's share. */
  lemma LazyPairsIsStrided(d: Distributor)
    requires 0 < d.frac <= d.size && d.id < d.frac
    ensures LazyPairs(d) == Strided(CursorSequence(d.size), d.id, d.frac)
  {
    var n := d.size;
    DivModUnique(d.id, n, 0, d.id);
    assert |CursorSequence(n)| == 1 + RowStart(n, n);
    RowStartMonotone(n, 1, n);
    assert CursorSequence(n)[d.id] == (0, d.id) by {
      if d.id > 0 {
        RowsIndex(n, n, (0, d.id));
      }
    }
    CursorRunIsStrided(n, d.frac, d.id);
  }

  /** The lazy shares relative to the eager ones: worker `id > 0` gets
      eager worker `id - 1`'s share, and worker 0 gets `(0, 0)` followed
      by eager worker `frac - 1`'s share. */
  lemma LazyIsShiftedEager(d: Distributor)
    requires 0 < d.frac <= d.size && d.id < d.frac
    ensures d.id > 0 ==> LazyPairs(d) == WorkerPairs(d.size, d.frac, d.id - 1)
    ensures d.id == 0 ==> LazyPairs(d) == [(0, 0)] + WorkerPairs(d.size, d.frac, d.frac - 1)
  {
    var n, frac, id := d.size, d.frac, d.id;
    LazyPairsIsStrided(d);
    var s, c := CursorSequence(n), Canonical(n);
    if id > 0 {
      ShiftedStride(c, id - 1, frac);
    } else {
      ShiftedStride(c, frac - 1, frac);
      assert Strided(s, 0, frac) == [s[0]] + Strided(s, frac, frac);
    }
  }

  lemma {:induction false} ShiftedStride(c: seq<Pair>, id: nat, frac: nat)
    requires frac > 0
    ensures Strided([(0, 0)] + c, id + 1, frac) == Strided(c, id, frac)
    decreases |c| - id
  {
    var s := [(0, 0)] + c;
    if id < |c| {
      ShiftedStride(c, id + frac, frac);
      assert s[id + 1] == c[id];
    }
  }

  /** Finding: worker 0 of the lazy generation yields `(0, 0)`, a marker
      paired with itself, before any real pair. */
  lemma LazySelfPair()
    ensures LazyPairs(Distributor(3, 1, 0)) == [(0, 0), (0, 1), (0, 2), (1, 2)]
  {
    var n := 3;
    assert Advance(n, 0, 1) == Some((0, 1));
    assert Advance(n, 0, 2) == Some((0, 2));
    assert Advance(n, 1, 2) == Some((1, 2));
    assert Advance(n, 0, 3) == Advance(n, 1, 2);
    assert Advance(n, 2, 4 + 0) == None by {
      assert Advance(n, 2, 4) == Advance(n, 3, 5);
    }
    assert Advance(n, 1, 3) == Advance(n, 2, 4);
    assert CursorRun(n, 1, (1, 2)) == [(1, 2)];
  }

  /** Finding: with more workers than markers the seed is no pair at all;
      worker 3 of 4 over 3 markers yields `(1, 0)`. */
  lemma LazyOverSplit()
    ensures LazyPairs(Distributor(3, 4, 3)) == [(1, 0)]
  {
    var n := 3;
    assert Seed(n, 3) == (1, 0);
    assert Advance(n, 1, 4) == Advance(n, 2, 3 + 1);
    assert Advance(n, 2, 4) == Advance(n, 3, 4 + 1);
  }

  /** Finding: with more workers than markers the carry `first + 1 +
      second % size` no longer advances by `frac`, so workers inside the
      range walk real pairs another worker walks too; with 9 workers over 4
      markers, workers 1 and 7 both yield `(2, 3)`. */
  lemma LazyOverSplitRepeats()
    ensures LazyPairs(Distributor(4, 9, 1)) == [(0, 1), (2, 3)]
    ensures LazyPairs(Distributor(4, 9, 7)) == [(1, 3), (2, 3)]
    ensures (2, 3) in LazyPairs(Distributor(4, 9, 1)) && (2, 3) in LazyPairs(Distributor(4, 9, 7))
  {
    var n := 4;
    assert Seed(n, 1) == (0, 1);
    assert Seed(n, 7) == (1, 3);
    assert Advance(n, 2, 3) == Some((2, 3));
    assert Advance(n, 1, 4) == Advance(n, 2, 3);
    assert Advance(n, 0, 10) == Advance(n, 1, 4);
    assert Advance(n, 1, 12) == Advance(n, 2, 3);
    assert Advance(n, 3, 4) == Advance(n, 4, 4);
    assert Advance(n, 2, 12) == Advance(n, 3, 4);
    assert CursorRun(n, 9, (2, 3)) == [(2, 3)];
  }

  /** After its first element, `r` holds only real pairs, and its elements
      strictly increase in row-major order. */
  ghost predicate OrderedAfterSeed(n: nat, r: seq<Pair>) {
    && (forall i | 1 <= i < |r| :: IsPair(n, r[i]))
    && (forall i | 0 <= i < |r| - 1 :: LexLess(r[i], r[i + 1]))
  }

  /** The damage of the lazy cursor is confined to its seed and to the
      overlap between workers: whatever the number of workers, every pair a
      worker yields after its seed is a real pair `a < b < size`, and the
      pairs it yields strictly increase in row-major order. */
  lemma LazyPairsShape(d: Distributor)
    requires d.size > 0 && d.frac > 0 && d.id < d.frac
    ensures OrderedAfterSeed(d.size, LazyPairs(d))
  {
    var n := d.size;
    var p := Seed(n, d.id);
    if d.id < n {
      DivModUnique(d.id, n, 0, d.id);
      assert p.0 <= p.1;
    } else {
      assert d.frac >= n;
    }
    CursorRunShape(n, d.frac, p);
  }

  /** A pass from `p` yields real pairs after `p`, in increasing order, when
      `p` is not below the diagonal or every step carries to a new row. */
  lemma {:induction false} CursorRunShape(n: nat, step: nat, p: Pair)
    requires n > 0 && step > 0 && p.1 < n && (p.0 <= p.1 || step >= n)
    ensures OrderedAfterSeed(n, CursorRun(n, step, p))
    decreases n - p.0, n - p.1
  {
    var a := Advance(n, p.0, p.1 + step);
    if a.None? {
      assert CursorRun(n, step, p) == [p];
    } else {
      var q := a.value;
      AdvanceStep(n, step, p);
      CursorRunShape(n, step, q);
      assert CursorRun(n, step, p) == [p] + CursorRun(n, step, q);
      OrderedCons(n, p, CursorRun(n, step, q));
    }
  }

  lemma OrderedCons(n: nat, p: Pair, rest: seq<Pair>)
    requires |rest| > 0 && OrderedAfterSeed(n, rest)
    requires IsPair(n, rest[0]) && LexLess(p, rest[0])
    ensures OrderedAfterSeed(n, [p] + rest)
  {
    var r := [p] + rest;
    forall i | 1 <= i < |r|
      ensures IsPair(n, r[i])
    {
      assert r[i] == rest[i - 1];
    }
    forall i | 0 <= i < |r| - 1
      ensures LexLess(r[i], r[i + 1])
    {
      if i > 0 {
        assert r[i] == rest[i - 1] && r[i + 1] == rest[i];
      }
    }
  }

  /** One `operator++` under the same condition lands on a real pair after
      the current one. */
  lemma AdvanceStep(n: nat, step: nat, p: Pair)
    requires n > 0 && step > 0 && p.1 < n && (p.0 <= p.1 || step >= n)
    requires Advance(n, p.0, p.1 + step).Some?
    ensures IsPair(n, Advance(n, p.0, p.1 + step).value)
    ensures LexLess(p, Advance(n, p.0, p.1 + step).value)
  {
    var t := p.1 + step;
    if t < n {
      assert Advance(n, p.0, t) == Some((p.0, t));
    } else {
      assert Advance(n, p.0, t) == Advance(n, p.0 + 1, p.0 + 2 + t % n);
      AdvanceIsPair(n, p.0 + 1, p.0 + 2 + t % n);
    }
  }

  /** A carried cursor restarts above the diagonal, so wherever it stops it
      stops on a real pair. */
  lemma {:induction false} AdvanceIsPair(n: nat, f: nat, t: nat)
    requires n > 0 && f < t
    ensures Advance(n, f, t).Some? ==> Advance(n, f, t).value.0 < Advance(n, f, t).value.1
    decreases n - f
  {
    if f < n && t >= n {
      AdvanceIsPair(n, f + 1, f + 2 + t % n);
    }
  }

  // ---------------------------------------------------------------------
  // Corrected cursor

  /** The carry as intended: the overshoot `second - size` moves to the
      next row, however large it is. */
  function FixedAdvance(n: nat, f: nat, t: nat): (r: Option<Pair>)
    ensures r.Some? ==> f <= r.value.0 < n && r.value.1 < n
    ensures r.Some? && r.value.0 == f ==> r.value.1 == t
    decreases n - f
  {
    if f < n then
      if t < n then Some((f, t)) else FixedAdvance(n, f + 1, f + 2 + (t - n))
    else None
  }

  function FixedRun(n: nat, step: nat, p: Pair): (r: seq<Pair>)
    requires step > 0 && p.1 < n
    ensures |r| >= 1 && r[0] == p
    decreases n - p.0, n - p.1
  {
    match FixedAdvance(n, p.0, p.1 + step)
    case None => [p]
    case Some(q) => [p] + FixedRun(n, step, q)
  }

  /** The corrected cursor seeds with the carry applied to `(0, 1 + id)`,
      so it starts at the first real pair of its share. */
  function FixedPairs(d: Distributor): seq<Pair>
    requires d.frac > 0
  {
    match FixedAdvance(d.size, 0, 1 + d.id)
    case None => []
    case Some(p) => FixedRun(d.size, d.frac, p)
  }

  lemma {:induction false} FixedAdvanceAt(n: nat, f: nat, t: nat)
    requires f < n && f < t
    ensures Rank(n, (f, t)) >= 0
    ensures var r := Rank(n, (f, t));
            FixedAdvance(n, f, t) == if r < |Canonical(n)| then Some(Canonical(n)[r]) else None
    decreases n - f
  {
    if t < n {
      RowsIndex(n, n, (f, t));
    } else if f + 1 < n {
      FixedAdvanceAt(n, f + 1, f + 2 + (t - n));
    } else {
      RowStartSaturates(n, f + 1);
    }
  }

  lemma {:induction false} FixedRunIsStrided(n: nat, step: nat, r: nat)
    requires step > 0 && r < |Canonical(n)|
    ensures Canonical(n)[r].1 < n
    ensures FixedRun(n, step, Canonical(n)[r]) == Strided(Canonical(n), r, step)
    decreases |Canonical(n)| - r
  {
    var p := Canonical(n)[r];
    RowsEntry(n, n, r);
    FixedAdvanceAt(n, p.0, p.1 + step);
    if r + step < |Canonical(n)| {
      FixedRunIsStrided(n, step, r + step);
    }
  }

  /** The corrected cursor yields exactly the eager share, for any number
      of workers. */
  lemma FixedPairsIsWorkerPairs(d: Distributor)
    requires d.frac > 0
    ensures FixedPairs(d) == WorkerPairs(d.size, d.frac, d.id)
  {
    var n := d.size;
    if n > 0 {
      FixedAdvanceAt(n, 0, 1 + d.id);
      if d.id < |Canonical(n)| {
        FixedRunIsStrided(n, d.frac, d.id);
      }
    }
  }
}

=== FILE: exploration.dfy ===
/** The per-thread search: `thread_main`, `flat_exploration` and
    `depth_exploration` of both API generations.

    The kernels are parameters of the walk (`Kernel`): the order-1 table of
    a marker, the step that extends a table by one marker (`combine` or
    `fill`), the step that reduces a table and one more marker to a
    contingency table (`combine_and_popcnt` or `popcnt`), and the score of
    a contingency table (`MutualInformation::compute`). The walk only moves
    them around, so the properties below hold for every kernel. */
module Exploration {

  import opened Distribution
  import opened Combinations

  datatype Kernel<!T, !C, V> = Kernel(marker: nat -> T, blank: nat -> T,
                                    extend: (T, nat) -> T, count: (T, nat) -> C,
                                    score: C -> V)

  /** `Result<uint32_t, float>`: a combination and its score. */
  datatype Result<V> = Result(combination: Combo, val: V)

  /** The table of the markers of `x`, built one marker at a time. */
  function Fold<T, C, V>(K: Kernel<T, C, V>, x: Combo): T
    requires |x| >= 1
  {
    if |x| == 1 then K.marker(x[0]) else K.extend(Fold(K, x[..|x| - 1]), Last(x))
  }

  /** The result a complete combination must be reported with: the score of
      the contingency table of its first markers' table and its last
      marker. */
  function Scored<T, C, V>(K: Kernel<T, C, V>, x: Combo): Result<V>
    requires |x| >= 2
  {
    Result(x, K.score(K.count(Fold(K, x[..|x| - 1]), Last(x))))
  }

  function Scores<T, C, V>(K: Kernel<T, C, V>, xs: seq<Combo>): (r: seq<Result<V>>)
    requires forall i | 0 <= i < |xs| :: |xs[i]| >= 2
    ensures |r| == |xs|
    ensures forall i | 0 <= i < |xs| :: r[i] == Scored(K, xs[i])
  {
    seq(|xs|, i requires 0 <= i < |xs| => Scored(K, xs[i]))
  }

  lemma ScoresAppend<T, C, V>(K: Kernel<T, C, V>, a: seq<Combo>, b: seq<Combo>)
    requires forall i | 0 <= i < |a| :: |a[i]| >= 2
    requires forall i | 0 <= i < |b| :: |b[i]| >= 2
    ensures Scores(K, a + b) == Scores(K, a) + Scores(K, b)
  {
    var x, y := Scores(K, a + b), Scores(K, a) + Scores(K, b);
    forall i | 0 <= i < |x| ensures x[i] == y[i] {
      if i < |a| {
        assert (a + b)[i] == a[i];
      } else {
        assert (a + b)[i] == b[i - |a|];
      }
    }
  }

  // ---------------------------------------------------------------------
  // Stack pushes

  /** `for (j = data_lim; j > s; j--) stack.push(x + [j])`, with
      `data_lim = n - 1` and `lo = s + 1`. */
  method PushDown(stack: seq<Combo>, x: Combo, lo: nat, n: nat) returns (r: seq<Combo>)
    ensures r == stack + PushedDown(x, lo, n)
  {
    r := stack;
    var j: int := n - 1;
    while j >= lo
      invariant lo - 1 <= j < n || j == n - 1
      invariant r == stack + PushedDown(x, j + 1, n)
    {
      r := r + [x + [j]];
      j := j - 1;
    }
  }

  /** `for (i = lo; i < hi; i++) stack.push(x + [i])`. */
  method PushUp(stack: seq<Combo>, x: Combo, lo: nat, hi: nat) returns (r: seq<Combo>)
    ensures r == stack + PushedUp(x, lo, hi)
  {
    r := stack;
    var i := lo;
    while i < hi
      invariant lo <= i && (i <= hi || i == lo)
      invariant r == stack + PushedUp(x, lo, i)
    {
      r := r + [x + [i]];
      i := i + 1;
    }
  }

  // ---------------------------------------------------------------------
  // Scratch tables and the stack shape

  /** `gtables[L - 3]` (`btables[L - 3]`) holds the table of the first
      `L - 1` markers of every record of length `L` on the stack. */
  ghost predicate SlotsHold<T, C, V>(K: Kernel<T, C, V>, slots: seq<T>, st: seq<Combo>) {
    forall i | 0 <= i < |st| ::
      3 <= |st[i]| && |st[i]| - 3 < |slots| && slots[|st[i]| - 3] == Fold(K, st[i][..|st[i]| - 1])
  }

  /** Records never get shorter towards the top of the stack. */
  ghost predicate LengthsRise(st: seq<Combo>) {
    forall i, j | 0 <= i < j < |st| :: |st[i]| <= |st[j]|
  }

  /** Termination weight of a record of length `L`: one more than all the
      records it can spawn. */
  function Weight(n: nat, k: nat, L: nat): (r: nat)
    ensures r >= 1
    decreases k - L
  {
    if L >= k then 1 else (n + 1) * Weight(n, k, L + 1)
  }

  function StackWeight(n: nat, k: nat, st: seq<Combo>): nat {
    if |st| == 0 then 0 else Weight(n, k, |st[|st| - 1]|) + StackWeight(n, k, st[..|st| - 1])
  }

  lemma MulSucc(a: nat, w: nat)
    ensures (a + 1) * w == a * w + w
  {
  }

  lemma StackWeightPop(n: nat, k: nat, st: seq<Combo>, y: Combo)
    ensures StackWeight(n, k, st + [y]) == StackWeight(n, k, st) + Weight(n, k, |y|)
  {
    assert (st + [y])[..|st|] == st;
  }

  /** Pushing records of one length adds that length's weight per record. */
  lemma {:induction false} StackWeightPush(n: nat, k: nat, st: seq<Combo>, ys: seq<Combo>, L: nat)
    requires forall i | 0 <= i < |ys| :: |ys[i]| == L
    ensures StackWeight(n, k, st + ys) == StackWeight(n, k, st) + |ys| * Weight(n, k, L)
    decreases |ys|
  {
    if |ys| == 0 {
      assert st + ys == st;
    } else {
      var zs := ys[..|ys| - 1];
      StackWeightPush(n, k, st, zs, L);
      assert st + ys == (st + zs) + [ys[|ys| - 1]];
      StackWeightPop(n, k, st + zs, ys[|ys| - 1]);
      MulSucc(|zs|, Weight(n, k, L));
    }
  }

  /** At most `n` children weigh less than their parent. */
  lemma ChildrenLighter(n: nat, k: nat, L: nat, c: nat)
    requires L < k && c <= n
    ensures c * Weight(n, k, L + 1) < Weight(n, k, L)
  {
    var w := Weight(n, k, L + 1);
    assert c * w <= n * w;
  }

  /** Records below the top keep their slots when the top is replaced by
      its children, and the children find their prefix `x` in slot
      `|x| - 2`. */
  lemma SlotsAfterPush<T, C, V>(K: Kernel<T, C, V>, slots: seq<T>, rest: seq<Combo>, x: Combo, kids: seq<Combo>)
    requires 3 <= |x| && |x| - 2 < |slots|
    requires SlotsHold(K, slots, rest + [x]) && LengthsRise(rest + [x])
    requires forall i | 0 <= i < |kids| :: |kids[i]| == |x| + 1 && kids[i][..|x|] == x
    ensures SlotsHold(K, slots[|x| - 2 := Fold(K, x)], rest + kids)
  {
    var slots', stack := slots[|x| - 2 := Fold(K, x)], rest + kids;
    forall i | 0 <= i < |stack|
      ensures 3 <= |stack[i]| && |stack[i]| - 3 < |slots'| && slots'[|stack[i]| - 3] == Fold(K, stack[i][..|stack[i]| - 1])
    {
      if i < |rest| {
        assert stack[i] == (rest + [x])[i];
        assert |(rest + [x])[i]| <= |(rest + [x])[|rest|]|;
      } else {
        assert stack[i] == kids[i - |rest|];
      }
    }
  }

  lemma RiseAfterPush(rest: seq<Combo>, x: Combo, kids: seq<Combo>)
    requires LengthsRise(rest + [x])
    requires forall i | 0 <= i < |kids| :: |kids[i]| == |x| + 1
    ensures LengthsRise(rest + kids)
  {
    var stack := rest + kids;
    forall i, j | 0 <= i < j < |stack| ensures |stack[i]| <= |stack[j]| {
      if j < |rest| {
        assert stack[i] == (rest + [x])[i] && stack[j] == (rest + [x])[j];
      } else if i < |rest| {
        assert stack[i] == (rest + [x])[i];
        assert |(rest + [x])[i]| <= |(rest + [x])[|rest|]|;
        assert stack[j] == kids[j - |rest|];
      } else {
        assert stack[i] == kids[i - |rest|] && stack[j] == kids[j - |rest|];
      }
    }
  }

  lemma RecordsBelow(rest: seq<Combo>, x: Combo, k: nat)
    requires Records(rest + [x], k)
    ensures Records(rest, k) && 3 <= |x| <= k
  {
    assert (rest + [x])[|rest|] == x;
    forall i | 0 <= i < |rest| ensures 3 <= |rest[i]| <= k {
      assert rest[i] == (rest + [x])[i];
    }
  }

  lemma ExtendedSlot<T, C, V>(K: Kernel<T, C, V>, slots: seq<T>, rest: seq<Combo>, x: Combo)
    requires SlotsHold(K, slots, rest + [x])
    ensures 3 <= |x| && |x| - 3 < |slots|
    ensures K.extend(slots[|x| - 3], Last(x)) == Fold(K, x)
  {
    assert (rest + [x])[|rest|] == x;
    assert slots[|x| - 3] == Fold(K, x[..|x| - 1]);
    FoldStep(K, x);
  }

  lemma FoldStep<T, C, V>(K: Kernel<T, C, V>, x: Combo)
    requires |x| >= 2
    ensures Fold(K, x) == K.extend(Fold(K, x[..|x| - 1]), Last(x))
  {
  }

  /** Replacing the top record by its children leaves what is pending
      unchanged and lowers the weight of the stack. */
  lemma ReplaceByChildren(n: nat, k: nat, rest: seq<Combo>, x: Combo)
    requires 3 <= |x| < k && Records(rest + [x], k)
    ensures Records(rest + PushedDown(x, Last(x) + 1, n), k)
    ensures Pending(n, k, rest + PushedDown(x, Last(x) + 1, n)) == Pending(n, k, rest + [x])
    ensures StackWeight(n, k, rest + PushedDown(x, Last(x) + 1, n)) < StackWeight(n, k, rest + [x])
  {
    RecordsBelow(rest, x, k);
    var kids := PushedDown(x, Last(x) + 1, n);
    PendingPushedDown(n, k, rest, x, Last(x) + 1, n);
    PendingPop(n, k, rest, x);
    assert forall i | 0 <= i < |kids| :: |kids[i]| == |x| + 1;
    StackWeightPush(n, k, rest, kids, |x| + 1);
    StackWeightPop(n, k, rest, x);
    ChildrenLighter(n, k, |x|, |kids|);
  }

  /** Pops the top record `x`, which is not complete: extends the scratch
      table of its prefix by its last marker into the next slot and pushes
      its children, `x + [j]` for `j` from `n - 1` down to `Last(x) + 1`. */
  method Expand<T, C, V>(n: nat, k: nat, K: Kernel<T, C, V>, rest: seq<Combo>, x: Combo, slots: seq<T>)
    returns (stack: seq<Combo>, slots': seq<T>)
    requires |x| < k && Walk(k, K, rest + [x], slots)
    ensures Walk(k, K, stack, slots')
    ensures Keyed(n, rest + [x]) ==> Keyed(n, stack)
    ensures Pending(n, k, stack) == Pending(n, k, rest + [x])
    ensures StackWeight(n, k, stack) < StackWeight(n, k, rest + [x])
  {
    ExtendedSlot(K, slots, rest, x);
    var L := |x|;
    slots' := slots[L - 2 := K.extend(slots[L - 3], Last(x))];
    stack := PushDown(rest, x, Last(x) + 1, n);
    assert slots' == slots[L - 2 := Fold(K, x)];
    ChildrenWalk(n, k, K, rest, x, slots);
    ReplaceByChildren(n, k, rest, x);
    if Keyed(n, rest + [x]) {
      KeyedChildren(n, rest, x);
    }
  }

  lemma ChildrenWalk<T, C, V>(n: nat, k: nat, K: Kernel<T, C, V>, rest: seq<Combo>, x: Combo, slots: seq<T>)
    requires |x| < k && Walk(k, K, rest + [x], slots)
    ensures 3 <= |x| && Walk(k, K, rest + PushedDown(x, Last(x) + 1, n), slots[|x| - 2 := Fold(K, x)])
  {
    ExtendedSlot(K, slots, rest, x);
    var kids := PushedDown(x, Last(x) + 1, n);
    assert forall i | 0 <= i < |kids| :: |kids[i]| == |x| + 1 && kids[i][..|x|] == x;
    SlotsAfterPush(K, slots, rest, x, kids);
    RiseAfterPush(rest, x, kids);
    ReplaceByChildren(n, k, rest, x);
  }

  // ---------------------------------------------------------------------
  // Stack capacity

  /** Position of a record in the order in which records sit on the stack,
      bottom to top: by length, then by descending last marker. */
  function Key(n: nat, y: Combo): nat
    requires 3 <= |y| && Last(y) < n
  {
    (|y| - 3) * n + (n - 1 - Last(y))
  }

  /** Records have distinct keys that rise towards the top. */
  ghost predicate Keyed(n: nat, st: seq<Combo>) {
    (forall i | 0 <= i < |st| :: 3 <= |st[i]| && Last(st[i]) < n) &&
    (forall i, j | 0 <= i < j < |st| :: Key(n, st[i]) < Key(n, st[j]))
  }

  lemma KeyBounds(n: nat, y: Combo)
    requires 3 <= |y| && Last(y) < n
    ensures (|y| - 3) * n <= Key(n, y) < (|y| - 2) * n
  {
    MulSucc(|y| - 3, n);
  }

  lemma KeyedPop(n: nat, rest: seq<Combo>, x: Combo)
    requires Keyed(n, rest + [x])
    ensures Keyed(n, rest) && 3 <= |x| && Last(x) < n
    ensures forall i | 0 <= i < |rest| :: Key(n, rest[i]) < Key(n, x)
  {
    var st := rest + [x];
    assert st[|rest|] == x;
    forall i | 0 <= i < |rest| ensures rest[i] == st[i] {
    }
  }

  /** The children of the top record take the keys just above every record
      left below them. */
  lemma KeyedChildren(n: nat, rest: seq<Combo>, x: Combo)
    requires Keyed(n, rest + [x]) && LengthsRise(rest + [x])
    ensures 3 <= |x| && Keyed(n, rest + PushedDown(x, Last(x) + 1, n))
  {
    KeyedPop(n, rest, x);
    var kids := PushedDown(x, Last(x) + 1, n);
    var st := rest + kids;
    assert forall a | 0 <= a < |kids| :: |kids[a]| == |x| + 1 && Last(kids[a]) == n - 1 - a;
    assert forall a | 0 <= a < |kids| :: Key(n, kids[a]) == (|x| - 2) * n + a;
    forall i, j | 0 <= i < j < |st| ensures Key(n, st[i]) < Key(n, st[j]) {
      if j < |rest| {
        assert st[i] == rest[i] && st[j] == rest[j];
      } else if i < |rest| {
        assert st[i] == rest[i] && st[j] == kids[j - |rest|];
        assert |rest[i]| <= |x| by {
          assert rest[i] == (rest + [x])[i] && x == (rest + [x])[|rest|];
        }
        KeyBounds(n, rest[i]);
        MulMonotone(|rest[i]| - 2, |x| - 2, n);
      } else {
        assert st[i] == kids[i - |rest|] && st[j] == kids[j - |rest|];
      }
    }
  }

  lemma KeyedRoot(n: nat, p: Pair)
    ensures Keyed(n, PushDown0(p, n))
  {
    var kids := PushDown0(p, n);
    assert forall a | 0 <= a < |kids| :: |kids[a]| == 3 && Last(kids[a]) == n - 1 - a;
    assert forall a | 0 <= a < |kids| :: Key(n, kids[a]) == a;
  }

  /** Rising keys below `(k - 2) * n` leave room for at most that many
      records. */
  lemma {:induction false} KeyAtLeastIndex(n: nat, st: seq<Combo>, i: nat)
    requires Keyed(n, st) && i < |st|
    ensures Key(n, st[i]) >= i
  {
    if i > 0 {
      KeyAtLeastIndex(n, st, i - 1);
    }
  }

  /** `StaticStack(item_size, d.snps * order - 2)` is never overfilled. */
  lemma Capacity(n: nat, k: nat, st: seq<Combo>)
    requires Keyed(n, st) && Records(st, k)
    ensures |st| == 0 || |st| <= n * k - 2
  {
    if |st| > 0 {
      var top := st[|st| - 1];
      KeyAtLeastIndex(n, st, |st| - 1);
      KeyBounds(n, top);
      MulMonotone(|top| - 2, k - 2, n);
      MulSucc(k - 3, n);
      assert (k - 2) * n + 2 * n == k * n;
    }
  }

  // ---------------------------------------------------------------------
  // Depth exploration (block-batched generation)

  /** The scratch tables and the stack agree: the invariant under which
      every record is popped while its prefix's table is still in place. */
  ghost predicate Walk<T, C, V>(k: nat, K: Kernel<T, C, V>, stack: seq<Combo>, slots: seq<T>) {
    |slots| == k - 2 && Records(stack, k) && LengthsRise(stack) && SlotsHold(K, slots, stack)
  }

  /** The block-batched walk also keeps its records in key order, which
      bounds the stack. */
  ghost predicate Batched<T, C, V>(n: nat, k: nat, K: Kernel<T, C, V>, stack: seq<Combo>, slots: seq<T>) {
    Walk(k, K, stack, slots) && Keyed(n, stack)
  }

  /** What the walk still owes: the completions of the records on the stack,
      then those of the pairs not read yet. */
  function Owed(n: nat, k: nat, stack: seq<Combo>, pairs: seq<Pair>, it: nat): (r: seq<Combo>)
    requires k >= 3 && Records(stack, k) && it <= |pairs|
    ensures forall i | 0 <= i < |r| :: |r[i]| == k
  {
    Pending(n, k, stack) + Search(n, k, pairs[it..])
  }

  function Measure(n: nat, k: nat, stack: seq<Combo>, pairs: seq<Pair>, it: nat): nat
    requires it <= |pairs|
  {
    StackWeight(n, k, stack) + (|pairs| - it) * Weight(n, k, 2)
  }

  /** Popping the top record `x` exposes the table of its prefix. */
  lemma PopTop<T, C, V>(n: nat, k: nat, K: Kernel<T, C, V>, rest: seq<Combo>, x: Combo, slots: seq<T>)
    requires Walk(k, K, rest + [x], slots)
    ensures Walk(k, K, rest, slots) && 3 <= |x| <= k
    ensures slots[|x| - 3] == Fold(K, x[..|x| - 1])
    ensures Pending(n, k, rest + [x]) == Ext(n, k, x) + Pending(n, k, rest)
    ensures StackWeight(n, k, rest + [x]) == StackWeight(n, k, rest) + Weight(n, k, |x|)
  {
    RecordsBelow(rest, x, k);
    assert (rest + [x])[|rest|] == x;
    forall i | 0 <= i < |rest| ensures rest[i] == (rest + [x])[i] {
    }
    PendingPop(n, k, rest, x);
    StackWeightPop(n, k, rest, x);
  }

  /** Reads the next pair `(a, b)`: `combine(d[a], d[b], gtables[0])` and
      the records `(a, b, j)` for `j` from `n - 1` down to `b + 1`. */
  method StartPair<T, C, V>(n: nat, k: nat, K: Kernel<T, C, V>, pairs: seq<Pair>, it: nat, slots: seq<T>)
    returns (stack: seq<Combo>, slots': seq<T>)
    requires k >= 3 && it < |pairs| && |slots| == k - 2
    ensures Batched(n, k, K, stack, slots')
    ensures Owed(n, k, stack, pairs, it + 1) == Owed(n, k, [], pairs, it)
    ensures Measure(n, k, stack, pairs, it + 1) < Measure(n, k, [], pairs, it)
  {
    var p := pairs[it];
    slots' := slots[0 := K.extend(K.marker(p.0), p.1)];
    stack := PushDown([], Root(p), p.1 + 1, n);
    assert stack == PushDown0(p, n);
    RootShape(n, k, K, p, slots');
    RootOwed(n, k, pairs, it);
    RootLighter(n, k, p, pairs, it);
  }

  lemma RootOwed(n: nat, k: nat, pairs: seq<Pair>, it: nat)
    requires k >= 3 && it < |pairs|
    ensures Records(PushDown0(pairs[it], n), k)
    ensures Owed(n, k, PushDown0(pairs[it], n), pairs, it + 1) == Owed(n, k, [], pairs, it)
  {
    var p := pairs[it];
    var x := Root(p);
    var kids := PushDown0(p, n);
    PendingPushedDownAlone(n, k, x, p.1 + 1, n);
    var e, tail := ExtFromTo(n, k, x, p.1 + 1, n), Search(n, k, pairs[it + 1..]);
    assert Pending(n, k, kids) == e;
    ExtRoot(n, k, p);
    SearchCons(n, k, pairs, it);
    assert Search(n, k, pairs[it..]) == e + tail;
    assert Pending(n, k, []) == [];
    EmptyFront(e + tail);
  }

  lemma EmptyFront<X>(a: seq<X>)
    ensures [] + a == a
  {
  }

  lemma RootShape<T, C, V>(n: nat, k: nat, K: Kernel<T, C, V>, p: Pair, slots: seq<T>)
    requires k >= 3 && |slots| == k - 2 && slots[0] == K.extend(K.marker(p.0), p.1)
    ensures Batched(n, k, K, PushDown0(p, n), slots)
  {
    var st := PushDown0(p, n);
    assert Fold(K, Root(p)) == slots[0] by {
      assert Root(p)[..1] == [p.0];
    }
    forall i | 0 <= i < |st| ensures |st[i]| == 3 && st[i][..2] == Root(p) {
    }
    KeyedRoot(n, p);
  }

  lemma RootLighter(n: nat, k: nat, p: Pair, pairs: seq<Pair>, it: nat)
    requires k >= 3 && it < |pairs|
    ensures Measure(n, k, PushDown0(p, n), pairs, it + 1) < Measure(n, k, [], pairs, it)
  {
    var kids := PushDown0(p, n);
    assert forall i | 0 <= i < |kids| :: |kids[i]| == 3;
    StackWeightPush(n, k, [], kids, 3);
    assert [] + kids == kids;
    ChildrenLighter(n, k, 2, |kids|);
    MulSucc(|pairs| - it - 1, Weight(n, k, 2));
  }

  function PushDown0(p: Pair, n: nat): seq<Combo> {
    PushedDown(Root(p), p.1 + 1, n)
  }

  /** A leaf's contingency table: the table of its first `k - 1` markers
      reduced with its last one. */
  ghost predicate Counted<T, C, V>(k: nat, K: Kernel<T, C, V>, ids: seq<Combo>, cts: seq<C>) {
    k >= 2 && |cts| == |ids| &&
    forall j | 0 <= j < |ids| :: |ids[j]| == k && cts[j] == K.count(Fold(K, ids[j][..k - 1]), Last(ids[j]))
  }

  /** One pass of the inner loop's body: reads the next pair when the stack
      is empty, otherwise pops the top record and either counts it (a
      leaf) or expands it. A leaf comes back in `leaf`/`ct`. */
  method Step<T, C, V>(n: nat, k: nat, K: Kernel<T, C, V>, pairs: seq<Pair>,
                       it0: nat, stack0: seq<Combo>, slots0: seq<T>)
    returns (it: nat, stack: seq<Combo>, slots: seq<T>, leaf: seq<Combo>, ct: seq<C>)
    requires k >= 3 && it0 <= |pairs| && Batched(n, k, K, stack0, slots0)
    requires !(|stack0| == 0 && it0 == |pairs|)
    ensures it0 <= it <= |pairs| && Batched(n, k, K, stack, slots)
    ensures |leaf| <= 1 && Counted(k, K, leaf, ct)
    ensures leaf + Owed(n, k, stack, pairs, it) == Owed(n, k, stack0, pairs, it0)
    ensures Measure(n, k, stack, pairs, it) < Measure(n, k, stack0, pairs, it0)
    ensures |stack| == 0 || |stack| <= n * k - 2
  {
    if |stack0| == 0 {
      stack, slots := StartPair(n, k, K, pairs, it0, slots0);
      it, leaf, ct := it0 + 1, [], [];
      Capacity(n, k, stack);
    } else {
      it := it0;
      stack, slots, leaf, ct := PopStep(n, k, K, pairs, it0, stack0, slots0);
    }
  }

  /** The pop half of a turn: a leaf on top is counted, any other record is
      replaced by its children. */
  method PopStep<T, C, V>(n: nat, k: nat, K: Kernel<T, C, V>, pairs: seq<Pair>,
                          it: nat, stack0: seq<Combo>, slots0: seq<T>)
    returns (stack: seq<Combo>, slots: seq<T>, leaf: seq<Combo>, ct: seq<C>)
    requires k >= 3 && it <= |pairs| && Batched(n, k, K, stack0, slots0) && |stack0| > 0
    ensures Batched(n, k, K, stack, slots)
    ensures |leaf| <= 1 && Counted(k, K, leaf, ct)
    ensures leaf + Owed(n, k, stack, pairs, it) == Owed(n, k, stack0, pairs, it)
    ensures Measure(n, k, stack, pairs, it) < Measure(n, k, stack0, pairs, it)
    ensures |stack| == 0 || |stack| <= n * k - 2
  {
    if |stack0[|stack0| - 1]| == k {
      stack, slots, leaf, ct := PopLeaf(n, k, K, pairs, it, stack0, slots0);
    } else {
      stack, slots, leaf, ct := PopExpand(n, k, K, pairs, it, stack0, slots0);
    }
  }

  /** A leaf on top: it is counted against its prefix's table. */
  method PopLeaf<T, C, V>(n: nat, k: nat, K: Kernel<T, C, V>, pairs: seq<Pair>,
                          it: nat, stack0: seq<Combo>, slots0: seq<T>)
    returns (stack: seq<Combo>, slots: seq<T>, leaf: seq<Combo>, ct: seq<C>)
    requires k >= 3 && it <= |pairs| && Batched(n, k, K, stack0, slots0) && |stack0| > 0
    requires |stack0[|stack0| - 1]| == k
    ensures Batched(n, k, K, stack, slots)
    ensures leaf == [stack0[|stack0| - 1]] && Counted(k, K, leaf, ct)
    ensures leaf + Owed(n, k, stack, pairs, it) == Owed(n, k, stack0, pairs, it)
    ensures Measure(n, k, stack, pairs, it) < Measure(n, k, stack0, pairs, it)
    ensures |stack| == 0 || |stack| <= n * k - 2
  {
    var x, rest := stack0[|stack0| - 1], stack0[..|stack0| - 1];
    assert stack0 == rest + [x];
    PopTop(n, k, K, rest, x, slots0);
    KeyedPop(n, rest, x);
    leaf, ct := [x], [K.count(slots0[k - 3], Last(x))];
    stack, slots := rest, slots0;
    LeafOwed(n, k, pairs, it, stack0, rest, x);
    LeafCounted(k, K, x, ct[0]);
    Capacity(n, k, stack);
  }

  /** Any other record on top is replaced by its children. */
  method PopExpand<T, C, V>(n: nat, k: nat, K: Kernel<T, C, V>, pairs: seq<Pair>,
                          it: nat, stack0: seq<Combo>, slots0: seq<T>)
    returns (stack: seq<Combo>, slots: seq<T>, leaf: seq<Combo>, ct: seq<C>)
    requires k >= 3 && it <= |pairs| && Batched(n, k, K, stack0, slots0) && |stack0| > 0
    requires |stack0[|stack0| - 1]| != k
    ensures Batched(n, k, K, stack, slots)
    ensures leaf == [] && ct == []
    ensures leaf + Owed(n, k, stack, pairs, it) == Owed(n, k, stack0, pairs, it)
    ensures Measure(n, k, stack, pairs, it) < Measure(n, k, stack0, pairs, it)
    ensures |stack| == 0 || |stack| <= n * k - 2
  {
    var x, rest := stack0[|stack0| - 1], stack0[..|stack0| - 1];
    assert stack0 == rest + [x];
    PopTop(n, k, K, rest, x, slots0);
    KeyedPop(n, rest, x);
    stack, slots := Expand(n, k, K, rest, x, slots0);
    leaf, ct := [], [];
    ExpandOwed(n, k, pairs, it, stack, stack0);
    Capacity(n, k, stack);
  }

  lemma LeafOwed(n: nat, k: nat, pairs: seq<Pair>, it: nat, stack0: seq<Combo>, rest: seq<Combo>, x: Combo)
    requires k >= 3 && it <= |pairs| && |x| == k && Records(rest, k)
    requires Records(stack0, k) && Pending(n, k, stack0) == Ext(n, k, x) + Pending(n, k, rest)
    ensures [x] + Owed(n, k, rest, pairs, it) == Owed(n, k, stack0, pairs, it)
  {
    assert Ext(n, k, x) == [x];
    Associative([x], Pending(n, k, rest), Search(n, k, pairs[it..]));
  }

  lemma ExpandOwed(n: nat, k: nat, pairs: seq<Pair>, it: nat, stack: seq<Combo>, stack0: seq<Combo>)
    requires k >= 3 && it <= |pairs| && Records(stack, k) && Records(stack0, k)
    requires Pending(n, k, stack) == Pending(n, k, stack0)
    ensures [] + Owed(n, k, stack, pairs, it) == Owed(n, k, stack0, pairs, it)
  {
    EmptyFront(Owed(n, k, stack, pairs, it));
  }

  lemma LeafCounted<T, C, V>(k: nat, K: Kernel<T, C, V>, x: Combo, ct: C)
    requires |x| == k >= 2 && ct == K.count(Fold(K, x[..k - 1]), Last(x))
    ensures Counted(k, K, [x], [ct])
  {
  }

  lemma CountedAppend<T, C, V>(k: nat, K: Kernel<T, C, V>, a: seq<Combo>, ac: seq<C>, b: seq<Combo>, bc: seq<C>)
    requires k >= 2 && Counted(k, K, a, ac) && Counted(k, K, b, bc)
    ensures Counted(k, K, a + b, ac + bc)
  {
    var x, xc := a + b, ac + bc;
    forall j | 0 <= j < |x| ensures |x[j]| == k && xc[j] == K.count(Fold(K, x[j][..k - 1]), Last(x[j])) {
      if j < |a| {
        assert x[j] == a[j] && xc[j] == ac[j];
      } else {
        assert x[j] == b[j - |a|] && xc[j] == bc[j - |a|];
      }
    }
  }

  /** The inner `while (i < BLOCK_SIZE)` loop: walks until `blockSize`
      leaves are counted or the stack and the pairs run out. */
  method FillBlock<T, C, V>(n: nat, k: nat, K: Kernel<T, C, V>, pairs: seq<Pair>, blockSize: nat,
                            it0: nat, stack0: seq<Combo>, slots0: seq<T>)
    returns (it: nat, stack: seq<Combo>, slots: seq<T>, ids: seq<Combo>, cts: seq<C>)
    requires k >= 3 && blockSize > 0 && it0 <= |pairs| && Batched(n, k, K, stack0, slots0)
    ensures it0 <= it <= |pairs| && Batched(n, k, K, stack, slots)
    ensures |ids| <= blockSize && Counted(k, K, ids, cts)
    ensures ids + Owed(n, k, stack, pairs, it) == Owed(n, k, stack0, pairs, it0)
    ensures Measure(n, k, stack, pairs, it) <= Measure(n, k, stack0, pairs, it0)
    ensures |ids| > 0 ==> Measure(n, k, stack, pairs, it) < Measure(n, k, stack0, pairs, it0)
    ensures |ids| == 0 ==> stack == [] && it == |pairs|
  {
    it, stack, slots := it0, stack0, slots0;
    ids, cts := [], [];
    while |ids| < blockSize
      invariant it0 <= it <= |pairs| && Batched(n, k, K, stack, slots)
      invariant |ids| <= blockSize && Counted(k, K, ids, cts)
      invariant ids + Owed(n, k, stack, pairs, it) == Owed(n, k, stack0, pairs, it0)
      invariant Measure(n, k, stack, pairs, it) + |ids| <= Measure(n, k, stack0, pairs, it0)
      decreases Measure(n, k, stack, pairs, it)
    {
      if |stack| == 0 && it == |pairs| {
        break;
      }
      var leaf, ct;
      ghost var owed := Owed(n, k, stack, pairs, it);
      it, stack, slots, leaf, ct := Step(n, k, K, pairs, it, stack, slots);
      CountedAppend(k, K, ids, cts, leaf, ct);
      Associative(ids, leaf, Owed(n, k, stack, pairs, it));
      ids, cts := ids + leaf, cts + ct;
    }
  }

  /** The `for (j = 0; j < i; j++)` loop: scores the block's tables in
      order. */
  method ScoreBlock<T, C, V>(k: nat, K: Kernel<T, C, V>, ids: seq<Combo>, cts: seq<C>)
    returns (r: seq<Result<V>>)
    requires k >= 2 && Counted(k, K, ids, cts)
    ensures r == Scores(K, ids)
  {
    r := [];
    var j := 0;
    while j < |ids|
      invariant j <= |ids| && |r| == j
      invariant forall i | 0 <= i < j :: r[i] == Scored(K, ids[i])
    {
      r := r + [Result(ids[j], K.score(cts[j]))];
      j := j + 1;
    }
  }

  /** `depth_exploration`: every completion of every pair, in the order of
      the reference enumeration, each with the score of its own
      contingency table. */
  method DepthSearch<T, C, V>(n: nat, k: nat, K: Kernel<T, C, V>, pairs: seq<Pair>, blockSize: nat)
    returns (out: seq<Result<V>>)
    requires k >= 3 && blockSize > 0
    ensures out == Scores(K, Search(n, k, pairs))
  {
    var stack: seq<Combo> := [];
    var slots: seq<T> := seq(k - 2, o requires 0 <= o < k - 2 => K.blank(o + 2));
    var it: nat := 0;
    out := [];
    ghost var done: seq<Combo> := [];
    assert pairs[0..] == pairs;
    while !(|stack| == 0 && it == |pairs|)
      invariant it <= |pairs| && Batched(n, k, K, stack, slots)
      invariant forall j | 0 <= j < |done| :: |done[j]| == k
      invariant done + Owed(n, k, stack, pairs, it) == Search(n, k, pairs)
      invariant out == Scores(K, done)
      decreases Measure(n, k, stack, pairs, it) + (if |stack| == 0 && it == |pairs| then 0 else 1)
    {
      var ids, cts;
      it, stack, slots, ids, cts := FillBlock(n, k, K, pairs, blockSize, it, stack, slots);
      Associative(done, ids, Owed(n, k, stack, pairs, it));
      var scored := ScoreBlock(k, K, ids, cts);
      ScoresAppend(K, done, ids);
      out := out + scored;
      done := done + ids;
    }
    assert pairs[|pairs|..] == [];
  }

  // ---------------------------------------------------------------------
  // Flat exploration and dispatch

  /** The order-2 candidates: the pairs themselves, in list order. */
  function Roots(pairs: seq<Pair>): (r: seq<Combo>)
    ensures |r| == |pairs|
    ensures forall i | 0 <= i < |pairs| :: r[i] == Root(pairs[i])
  {
    seq(|pairs|, i requires 0 <= i < |pairs| => Root(pairs[i]))
  }

  /** At order 2 every pair is its own only completion. */
  lemma {:induction false} FlatIsSearch(n: nat, pairs: seq<Pair>)
    ensures Search(n, 2, pairs) == Roots(pairs)
  {
    if |pairs| > 0 {
      FlatIsSearch(n, pairs[1..]);
      assert Ext(n, 2, Root(pairs[0])) == [Root(pairs[0])];
      assert Roots(pairs) == [Root(pairs[0])] + Roots(pairs[1..]);
    }
  }

  /** `flat_exploration` (block-batched): up to `blockSize` pairs are
      counted with `combine_and_popcnt(d[a], d[b], ctables[i])`, then
      scored in order. */
  method FlatSearch<T, C, V>(n: nat, K: Kernel<T, C, V>, pairs: seq<Pair>, blockSize: nat)
    returns (out: seq<Result<V>>)
    requires blockSize > 0
    ensures out == Scores(K, Search(n, 2, pairs))
  {
    out := [];
    var it := 0;
    while it < |pairs|
      invariant it <= |pairs| && |out| == it
      invariant forall j | 0 <= j < it :: out[j] == Scored(K, Root(pairs[j]))
    {
      var ids: seq<Combo> := [];
      var cts: seq<C> := [];
      var i := 0;
      ghost var it0 := it;
      while i < blockSize && it < |pairs|
        invariant it == it0 + i <= |pairs| && |ids| == i && Counted(2, K, ids, cts)
        invariant forall j | 0 <= j < i :: ids[j] == Root(pairs[it0 + j])
      {
        var p := pairs[it];
        assert Fold(K, Root(p)[..1]) == K.marker(p.0) by {
          assert Root(p)[..1] == [p.0];
        }
        ids, cts := ids + [Root(p)], cts + [K.count(K.marker(p.0), p.1)];
        i, it := i + 1, it + 1;
      }
      var scored := ScoreBlock(2, K, ids, cts);
      out := out + scored;
    }
    FlatIsSearch(n, pairs);
  }

  /** `flat_exploration` of the engine generation: one `popcnt` and one
      result per pair. */
  method EngineFlatSearch<T, C, V>(n: nat, K: Kernel<T, C, V>, pairs: seq<Pair>)
    returns (out: seq<Result<V>>)
    ensures out == Scores(K, Search(n, 2, pairs))
  {
    out := [];
    for it := 0 to |pairs|
      invariant |out| == it
      invariant forall j | 0 <= j < it :: out[j] == Scored(K, Root(pairs[j]))
    {
      var p := pairs[it];
      assert Root(p)[..1] == [p.0];
      out := out + [Result(Root(p), K.score(K.count(K.marker(p.0), p.1)))];
    }
    FlatIsSearch(n, pairs);
  }

  /** `thread_main`: flat exploration for pairs, depth exploration
      beyond. */
  method ThreadMain<T, C, V>(n: nat, k: nat, K: Kernel<T, C, V>, pairs: seq<Pair>, blockSize: nat)
    returns (out: seq<Result<V>>)
    requires k >= 2 && blockSize > 0
    ensures out == Scores(K, Search(n, k, pairs))
  {
    if k == 2 {
      out := FlatSearch(n, K, pairs, blockSize);
    } else {
      out := DepthSearch(n, k, K, pairs, blockSize);
    }
  }

  // ---------------------------------------------------------------------
  // Depth exploration (engine generation)

  /** What the engine's walk produces for a root pair whose third markers
      are pushed upwards below `rootLimit`: their completions, the largest
      third marker first. */
  function EngineSearch(n: nat, k: nat, pairs: seq<Pair>, rootLimit: nat): (r: seq<Combo>)
    requires k >= 3
    ensures forall i | 0 <= i < |r| :: |r[i]| == k
  {
    if |pairs| == 0 then []
    else ExtDownFrom(n, k, Root(pairs[0]), pairs[0].1 + 1, rootLimit) + EngineSearch(n, k, pairs[1..], rootLimit)
  }

  /** Empties the stack: a leaf is counted with `popcnt(prev, d[s])` and
      scored at once, any other record is expanded. */
  method Drain<T, C, V>(n: nat, k: nat, K: Kernel<T, C, V>, stack0: seq<Combo>, slots0: seq<T>)
    returns (r: seq<Result<V>>, slots: seq<T>)
    requires k >= 3 && Walk(k, K, stack0, slots0)
    ensures |slots| == k - 2
    ensures r == Scores(K, Pending(n, k, stack0))
  {
    var stack := stack0;
    slots := slots0;
    r := [];
    ghost var done: seq<Combo> := [];
    while |stack| > 0
      invariant Walk(k, K, stack, slots)
      invariant forall j | 0 <= j < |done| :: |done[j]| == k
      invariant done + Pending(n, k, stack) == Pending(n, k, stack0)
      invariant r == Scores(K, done)
      decreases StackWeight(n, k, stack)
    {
      var stack', leaf, res;
      stack', slots, leaf, res := DrainPop(n, k, K, stack, slots);
      Associative(done, leaf, Pending(n, k, stack'));
      ScoresAppend(K, done, leaf);
      r, done, stack := r + res, done + leaf, stack';
    }
  }

  /** One turn of the drain loop: the top record is scored when it is a
      leaf and expanded otherwise. */
  method DrainPop<T, C, V>(n: nat, k: nat, K: Kernel<T, C, V>, stack0: seq<Combo>, slots0: seq<T>)
    returns (stack: seq<Combo>, slots: seq<T>, leaf: seq<Combo>, r: seq<Result<V>>)
    requires k >= 3 && Walk(k, K, stack0, slots0) && |stack0| > 0
    ensures Walk(k, K, stack, slots)
    ensures forall j | 0 <= j < |leaf| :: |leaf[j]| == k
    ensures leaf + Pending(n, k, stack) == Pending(n, k, stack0)
    ensures r == Scores(K, leaf)
    ensures StackWeight(n, k, stack) < StackWeight(n, k, stack0)
  {
    var x, rest := stack0[|stack0| - 1], stack0[..|stack0| - 1];
    assert stack0 == rest + [x];
    PopTop(n, k, K, rest, x, slots0);
    if |x| == k {
      r := [Result(x, K.score(K.count(slots0[k - 3], Last(x))))];
      assert Ext(n, k, x) == [x];
      assert r[0] == Scored(K, x);
      leaf, stack, slots := [x], rest, slots0;
    } else {
      stack, slots := Expand(n, k, K, rest, x, slots0);
      leaf, r := [], [];
      EmptyFront(Pending(n, k, stack));
    }
  }

  /** The roots `(a, b, i)` a pair starts the engine's walk with, and the
      scratch table of `(a, b)`, satisfy the walk invariant. */
  lemma RootWalk<T, C, V>(k: nat, K: Kernel<T, C, V>, p: Pair, slots: seq<T>, kids: seq<Combo>)
    requires k >= 3 && |slots| == k - 2 && slots[0] == K.extend(K.marker(p.0), p.1)
    requires forall i | 0 <= i < |kids| :: |kids[i]| == 3 && kids[i][..2] == Root(p)
    requires forall i, j | 0 <= i < j < |kids| :: |kids[i]| <= |kids[j]|
    ensures Walk(k, K, kids, slots)
  {
    assert Fold(K, Root(p)) == slots[0] by {
      assert Root(p)[..1] == [p.0];
    }
  }

  /** `depth_exploration` of the engine generation: for each pair, fills
      `btables[0]`, pushes `(a, b, i)` for `i` from `b + 1` up to
      `rootLimit - 1` and drains the stack before the next pair. */
  method EngineDepthSearch<T, C, V>(n: nat, k: nat, K: Kernel<T, C, V>, pairs: seq<Pair>, rootLimit: nat)
    returns (out: seq<Result<V>>)
    requires k >= 3
    ensures out == Scores(K, EngineSearch(n, k, pairs, rootLimit))
  {
    var slots: seq<T> := seq(k - 2, o requires 0 <= o < k - 2 => K.blank(o + 2));
    out := [];
    ghost var done: seq<Combo> := [];
    assert pairs[0..] == pairs;
    for it := 0 to |pairs|
      invariant |slots| == k - 2
      invariant forall j | 0 <= j < |done| :: |done[j]| == k
      invariant done + EngineSearch(n, k, pairs[it..], rootLimit) == EngineSearch(n, k, pairs, rootLimit)
      invariant out == Scores(K, done)
    {
      var p := pairs[it];
      var r;
      r, slots := EnginePair(n, k, K, p, slots, rootLimit);
      ghost var tree := ExtDownFrom(n, k, Root(p), p.1 + 1, rootLimit);
      EngineAdvance(n, k, pairs, it, rootLimit, done);
      ScoresAppend(K, done, tree);
      out := out + r;
      done := done + tree;
    }
  }

  /** One pair of the engine's walk: `fill(btables[0], d[a], d[b])`, the
      root pushes, and the drain. */
  method EnginePair<T, C, V>(n: nat, k: nat, K: Kernel<T, C, V>, p: Pair, slots0: seq<T>, rootLimit: nat)
    returns (r: seq<Result<V>>, slots: seq<T>)
    requires k >= 3 && |slots0| == k - 2
    ensures |slots| == k - 2
    ensures r == Scores(K, ExtDownFrom(n, k, Root(p), p.1 + 1, rootLimit))
  {
    slots := slots0[0 := K.extend(K.marker(p.0), p.1)];
    var stack := PushUp([], Root(p), p.1 + 1, rootLimit);
    ghost var kids := PushedUp(Root(p), p.1 + 1, rootLimit);
    assert stack == kids;
    RootWalk(k, K, p, slots, kids);
    PendingPushedUp(n, k, [], Root(p), p.1 + 1, rootLimit);
    r, slots := Drain(n, k, K, stack, slots);
  }

  /** The engine walk's debt after one more pair. */
  lemma EngineAdvance(n: nat, k: nat, pairs: seq<Pair>, it: nat, rootLimit: nat, done: seq<Combo>)
    requires k >= 3 && it < |pairs|
    requires done + EngineSearch(n, k, pairs[it..], rootLimit) == EngineSearch(n, k, pairs, rootLimit)
    ensures (done + ExtDownFrom(n, k, Root(pairs[it]), pairs[it].1 + 1, rootLimit))
            + EngineSearch(n, k, pairs[it + 1..], rootLimit) == EngineSearch(n, k, pairs, rootLimit)
  {
    EngineCons(n, k, pairs, it, rootLimit);
    Associative(done, ExtDownFrom(n, k, Root(pairs[it]), pairs[it].1 + 1, rootLimit),
                EngineSearch(n, k, pairs[it + 1..], rootLimit));
  }

  lemma EngineCons(n: nat, k: nat, pairs: seq<Pair>, it: nat, rootLimit: nat)
    requires k >= 3 && it < |pairs|
    ensures EngineSearch(n, k, pairs[it..], rootLimit)
         == ExtDownFrom(n, k, Root(pairs[it]), pairs[it].1 + 1, rootLimit) + EngineSearch(n, k, pairs[it + 1..], rootLimit)
  {
    assert pairs[it..][1..] == pairs[it + 1..];
  }

  /** The engine's `data_lim`: the index of the last marker. */
  function DataLimit(n: nat): nat {
    if n == 0 then 0 else n - 1
  }

  /** `thread_main` of the engine generation, as written: the depth walk
      pushes its roots below `data_lim`. */
  method EngineThreadMain<T, C, V>(n: nat, k: nat, K: Kernel<T, C, V>, pairs: seq<Pair>)
    returns (out: seq<Result<V>>)
    requires k >= 2
    ensures k == 2 ==> out == Scores(K, Search(n, 2, pairs))
    ensures k >= 3 ==> out == Scores(K, EngineSearch(n, k, pairs, DataLimit(n)))
  {
    if k == 2 {
      out := EngineFlatSearch(n, K, pairs);
    } else {
      out := EngineDepthSearch(n, k, K, pairs, DataLimit(n));
    }
  }

  /** The root bound as written loses the triple `(0, 1, 2)` among three
      markers: nothing is produced where the reference has one triple. */
  lemma EngineMissesLastMarker()
    ensures EngineSearch(3, 3, [(0, 1)], DataLimit(3)) == []
    ensures Search(3, 3, [(0, 1)]) == [[0, 1, 2]]
  {
    assert [(0, 1)][1..] == [];
    assert Ext(3, 3, [0, 1]) == ExtFromTo(3, 3, [0, 1], 2, 3);
    assert [0, 1] + [2] == [0, 1, 2];
    assert ExtFromTo(3, 3, [0, 1], 2, 3) == Ext(3, 3, [0, 1, 2]) + ExtFromTo(3, 3, [0, 1], 3, 3);
  }

  /** Beyond order 3 the bound as written loses nothing: a record whose
      third marker is the last one has no completion. */
  lemma {:induction false} EngineDeepOrdersUnaffected(n: nat, k: nat, pairs: seq<Pair>)
    requires k >= 4
    ensures EngineSearch(n, k, pairs, DataLimit(n)) == EngineSearch(n, k, pairs, n)
  {
    if |pairs| > 0 {
      EngineDeepOrdersUnaffected(n, k, pairs[1..]);
      var x, lo := Root(pairs[0]), pairs[0].1 + 1;
      if lo < n {
        assert ExtDownFrom(n, k, x, lo, n) == Ext(n, k, x + [n - 1]) + ExtDownFrom(n, k, x, lo, n - 1);
        assert Ext(n, k, x + [n - 1]) == ExtFromTo(n, k, x + [n - 1], n, n);
      }
    }
  }

  /** With the bound corrected to the number of markers, the engine walk
      produces exactly the reference's combinations, in another order. */
  lemma {:induction false} EngineFixedIsPermutation(n: nat, k: nat, pairs: seq<Pair>)
    requires k >= 3
    ensures multiset(EngineSearch(n, k, pairs, n)) == multiset(Search(n, k, pairs))
  {
    if |pairs| > 0 {
      EngineFixedIsPermutation(n, k, pairs[1..]);
      var x := Root(pairs[0]);
      ExtDownFromPermutes(n, k, x, pairs[0].1 + 1, n);
      assert Ext(n, k, x) == ExtFromTo(n, k, x, pairs[0].1 + 1, n);
    }
  }
}

=== FILE: merge.dfy ===
/** The merges that turn per-thread and per-process results into the final
    list: `ThreadedSearch::run` (both generations) and `MPIEngine::run`.

    Results are compared through `key`, the order their scores induce; the
    score itself is not modelled. */
module Merge {

  import opened Arith
  import opened Distribution

  // ---------------------------------------------------------------------
  // Concatenation and sums

  /** The parts one after the other, in index (thread or rank) order. */
  function Concat<R>(parts: seq<seq<R>>): seq<R> {
    if |parts| == 0 then [] else Concat(parts[..|parts| - 1]) + parts[|parts| - 1]
  }

  function Sum(s: seq<nat>): nat {
    if |s| == 0 then 0 else Sum(s[..|s| - 1]) + s[|s| - 1]
  }

  function Lengths<R>(parts: seq<seq<R>>): (r: seq<nat>)
    ensures |r| == |parts|
    ensures forall i | 0 <= i < |parts| :: r[i] == |parts[i]|
  {
    seq(|parts|, i requires 0 <= i < |parts| => |parts[i]|)
  }

  lemma {:induction false} ConcatAppend<R>(a: seq<seq<R>>, b: seq<seq<R>>)
    ensures Concat(a + b) == Concat(a) + Concat(b)
    decreases |b|
  {
    if |b| == 0 {
      assert a + b == a;
    } else {
      var c := b[..|b| - 1];
      ConcatAppend(a, c);
      assert (a + b)[..|a + b| - 1] == a + c;
    }
  }

  lemma {:induction false} ConcatLength<R>(parts: seq<seq<R>>)
    ensures |Concat(parts)| == Sum(Lengths(parts))
    decreases |parts|
  {
    if |parts| > 0 {
      var init := parts[..|parts| - 1];
      ConcatLength(init);
      assert Lengths(parts)[..|parts| - 1] == Lengths(init);
    }
  }

  /** `m` parts of length `w` concatenate to `m * w` elements. */
  lemma {:induction false} ConcatUniform<R>(parts: seq<seq<R>>, w: nat)
    requires forall i | 0 <= i < |parts| :: |parts[i]| == w
    ensures |Concat(parts)| == |parts| * w
    decreases |parts|
  {
    if |parts| > 0 {
      ConcatUniform(parts[..|parts| - 1], w);
      assert (|parts| - 1) * w + w == |parts| * w;
    }
  }

  // ---------------------------------------------------------------------
  // Sorting in descending order

  /** Each element's key is at least its successor's. */
  ghost predicate Descending<R>(s: seq<R>, key: R -> int) {
    forall i | 0 < i < |s| :: key(s[i - 1]) >= key(s[i])
  }

  lemma {:induction false} DescendingPairs<R>(s: seq<R>, key: R -> int, i: nat, j: nat)
    requires Descending(s, key) && i <= j < |s|
    ensures key(s[i]) >= key(s[j])
    decreases j - i
  {
    if i < j {
      DescendingPairs(s, key, i + 1, j);
    }
  }

  /** Puts `x` in front of the first element it is not below. */
  function Insert<R>(x: R, s: seq<R>, key: R -> int): (r: seq<R>)
    requires Descending(s, key)
    ensures |r| == |s| + 1 && multiset(r) == multiset(s) + multiset{x}
    ensures Descending(r, key)
    ensures r[0] == x || (|s| > 0 && r[0] == s[0])
  {
    if |s| == 0 || key(x) >= key(s[0]) then [x] + s
    else
      DescendingTail(s, key);
      var t := Insert(x, s[1..], key);
      assert s == [s[0]] + s[1..];
      [s[0]] + t
  }

  lemma DescendingTail<R>(s: seq<R>, key: R -> int)
    requires Descending(s, key) && |s| > 0
    ensures Descending(s[1..], key)
    ensures |s| > 1 ==> key(s[0]) >= key(s[1])
  {
    forall i | 0 < i < |s[1..]| ensures key(s[1..][i - 1]) >= key(s[1..][i]) {
      assert s[1..][i - 1] == s[i] && s[1..][i] == s[i + 1];
    }
  }

  /** `std::sort(rbegin, rend)`: a descending permutation. */
  function Sort<R>(s: seq<R>, key: R -> int): (r: seq<R>)
    ensures |r| == |s| && multiset(r) == multiset(s)
    ensures Descending(r, key)
  {
    if |s| == 0 then []
    else
      assert s == [s[0]] + s[1..];
      Insert(s[0], Sort(s[1..], key), key)
  }

  /** Sorting what is already in order changes nothing. */
  lemma {:induction false} SortSorted<R>(s: seq<R>, key: R -> int)
    requires Descending(s, key)
    ensures Sort(s, key) == s
  {
    if |s| > 0 {
      DescendingTail(s, key);
      SortSorted(s[1..], key);
      assert s == [s[0]] + s[1..];
    }
  }

  /** A prefix of a descending sequence is what the rest cannot beat: every
      element left out ranks at most as high as every element kept. */
  lemma TopOfSorted<R>(s: seq<R>, key: R -> int, m: nat, y: R)
    requires Descending(s, key) && m <= |s|
    requires y in multiset(s) - multiset(s[..m])
    ensures forall i | 0 <= i < m :: key(s[i]) >= key(y)
  {
    OutsidePrefix(s, m, y);
    var j :| m <= j < |s| && s[j] == y;
    forall i | 0 <= i < m ensures key(s[i]) >= key(y) {
      DescendingPairs(s, key, i, j);
    }
  }

  /** What the multiset difference leaves is found after the prefix. */
  lemma OutsidePrefix<R>(s: seq<R>, m: nat, y: R)
    requires m <= |s| && y in multiset(s) - multiset(s[..m])
    ensures exists j :: m <= j < |s| && s[j] == y
  {
    assert s == s[..m] + s[m..];
    assert multiset(s) == multiset(s[..m]) + multiset(s[m..]);
    assert y in s[m..];
    var j :| 0 <= j < |s[m..]| && s[m..][j] == y;
    assert s[m + j] == y;
  }

  /** The first `m` elements of a descending sequence are its top `m`. */
  lemma PrefixTop<R>(s: seq<R>, key: R -> int, m: nat)
    requires Descending(s, key) && m <= |s|
    ensures Descending(s[..m], key)
    ensures multiset(s[..m]) <= multiset(s)
    ensures forall y | y in multiset(s) - multiset(s[..m]) :: forall i | 0 <= i < m :: key(s[..m][i]) >= key(y)
  {
    assert s == s[..m] + s[m..];
    forall y | y in multiset(s) - multiset(s[..m]) ensures forall i | 0 <= i < m :: key(s[..m][i]) >= key(y) {
      TopOfSorted(s, key, m, y);
    }
  }

  // ---------------------------------------------------------------------
  // Truncation

  /** `std::vector::resize`: cut to `m` elements, or pad with default
      elements up to `m`. */
  function Resize<R>(s: seq<R>, m: nat, blank: R): (r: seq<R>)
    ensures |r| == m
    ensures forall i | 0 <= i < m :: r[i] == if i < |s| then s[i] else blank
  {
    if |s| >= m then s[..m] else s + seq(m - |s|, _ => blank)
  }

  /** `if (size() > outputs) resize(outputs)`: never pads. */
  function Truncate<R>(s: seq<R>, m: nat): (r: seq<R>)
    ensures |r| == if |s| < m then |s| else m
    ensures r == s[..|r|]
  {
    if |s| > m then s[..m] else s
  }

  // ---------------------------------------------------------------------
  // ThreadedSearch::run

  /** The merge of `run`: each thread's `MaxArray` holds `outputs` slots;
      they are appended in thread order, sorted in descending order and the
      result is resized to `outputs`. */
  function ThreadMerge<R>(arrays: seq<seq<R>>, outputs: nat, key: R -> int, blank: R): (r: seq<R>)
    requires forall i | 0 <= i < |arrays| :: |arrays[i]| == outputs
    ensures |r| == outputs
  {
    Resize(Sort(Concat(arrays), key), outputs, blank)
  }

  /** With at least one thread, the merged list is in descending order,
      drawn from the threads' slots, and no slot left out ranks above a
      slot kept. */
  lemma ThreadMergeTop<R>(arrays: seq<seq<R>>, outputs: nat, key: R -> int, blank: R)
    requires |arrays| > 0
    requires forall i | 0 <= i < |arrays| :: |arrays[i]| == outputs
    ensures Descending(ThreadMerge(arrays, outputs, key, blank), key)
    ensures multiset(ThreadMerge(arrays, outputs, key, blank)) <= multiset(Concat(arrays))
    ensures forall y | y in multiset(Concat(arrays)) - multiset(ThreadMerge(arrays, outputs, key, blank)) ::
              forall i | 0 <= i < outputs :: key(ThreadMerge(arrays, outputs, key, blank)[i]) >= key(y)
  {
    var sorted := Sort(Concat(arrays), key);
    ConcatUniform(arrays, outputs);
    MulMonotone(1, |arrays|, outputs);
    PrefixTop(sorted, key, outputs);
  }

  /** With no thread at all, `resize` pads the empty list with default
      results. */
  lemma ThreadMergeEmpty<R>(outputs: nat, key: R -> int, blank: R)
    ensures ThreadMerge([], outputs, key, blank) == seq(outputs, _ => blank)
  {
  }

  // ---------------------------------------------------------------------
  // MPIEngine::run

  /** `recv_displs`: where each rank's bytes start in the gather buffer. */
  method Displacements(counts: seq<nat>) returns (displs: seq<nat>)
    requires |counts| > 0
    ensures |displs| == |counts| && displs[0] == 0
    ensures forall i | 0 < i < |counts| :: displs[i] == displs[i - 1] + counts[i - 1]
    ensures forall i | 0 <= i < |counts| :: displs[i] == Sum(counts[..i])
  {
    displs := [0];
    assert counts[..0] == [];
    var i := 1;
    while i < |counts|
      invariant 1 <= i <= |counts| && |displs| == i && displs[0] == 0
      invariant forall j | 0 <= j < i :: displs[j] == Sum(counts[..j])
    {
      SumStep(counts, i - 1);
      displs := displs + [displs[i - 1] + counts[i - 1]];
      i := i + 1;
    }
    forall j | 0 < j < |counts| ensures displs[j] == displs[j - 1] + counts[j - 1] {
      SumStep(counts, j - 1);
    }
  }

  lemma SumStep(s: seq<nat>, i: nat)
    requires i < |s|
    ensures Sum(s[..i + 1]) == Sum(s[..i]) + s[i]
  {
    assert s[..i + 1][..i] == s[..i];
  }

  /** The buffer of `recv_displs[last] + recv_counts[last]` bytes holds all
      the bytes sent. */
  lemma BufferLength(counts: seq<nat>, displs: seq<nat>)
    requires |counts| > 0 && |displs| == |counts|
    requires forall i | 0 <= i < |counts| :: displs[i] == Sum(counts[..i])
    ensures displs[|counts| - 1] + counts[|counts| - 1] == Sum(counts)
  {
    assert counts[..|counts|][..|counts| - 1] == counts[..|counts| - 1];
    assert counts[..|counts|] == counts;
  }

  /** `MPI_Gatherv` with these displacements puts rank `r`'s bytes at
      `[displs[r], displs[r] + counts[r])` of the concatenation in rank
      order. */
  lemma GatherSlice<B>(bufs: seq<seq<B>>, r: nat)
    requires r < |bufs|
    ensures Sum(Lengths(bufs)[..r]) + |bufs[r]| <= |Concat(bufs)|
    ensures Concat(bufs)[Sum(Lengths(bufs)[..r]) .. Sum(Lengths(bufs)[..r]) + |bufs[r]|] == bufs[r]
  {
    var before, after := bufs[..r], bufs[r + 1..];
    assert bufs == (before + [bufs[r]]) + after;
    ConcatAppend(before + [bufs[r]], after);
    ConcatAppend(before, [bufs[r]]);
    assert Concat([bufs[r]]) == bufs[r] by {
      assert [bufs[r]][..0] == [];
    }
    ConcatLength(before);
    assert Lengths(bufs)[..r] == Lengths(before);
    assert Concat(bufs) == (Concat(before) + bufs[r]) + Concat(after);
  }

  /** The coordinator's merge: every process's results in rank order, sorted
      in descending order and cut to `outputs` when longer. */
  function CoordinatorMerge<R>(locals: seq<seq<R>>, outputs: nat, key: R -> int): (r: seq<R>)
    ensures |r| == if |Concat(locals)| < outputs then |Concat(locals)| else outputs
  {
    Truncate(Sort(Concat(locals), key), outputs)
  }

  lemma CoordinatorMergeTop<R>(locals: seq<seq<R>>, outputs: nat, key: R -> int)
    ensures Descending(CoordinatorMerge(locals, outputs, key), key)
    ensures multiset(CoordinatorMerge(locals, outputs, key)) <= multiset(Concat(locals))
    ensures forall y | y in multiset(Concat(locals)) - multiset(CoordinatorMerge(locals, outputs, key)) ::
              forall i | 0 <= i < |CoordinatorMerge(locals, outputs, key)| ::
                key(CoordinatorMerge(locals, outputs, key)[i]) >= key(y)
  {
    var sorted := Sort(Concat(locals), key);
    PrefixTop(sorted, key, |CoordinatorMerge(locals, outputs, key)|);
  }

  /** What `MPIEngine::run` returns on rank `rank`: the merge on the
      coordinator, nothing elsewhere. */
  function MpiResult<R>(rank: nat, locals: seq<seq<R>>, outputs: nat, key: R -> int): (r: seq<R>)
    ensures rank != 0 ==> r == []
    ensures rank == 0 ==> |r| == if |Concat(locals)| < outputs then |Concat(locals)| else outputs
  {
    if rank == 0 then CoordinatorMerge(locals, outputs, key) else []
  }

  // ---------------------------------------------------------------------
  // Work division across processes and threads

  /** Each process's distributor: `Distributor(snps, mpi_size, mpi_rank)`. */
  function ProcessDistributor(snps: nat, size: nat, rank: nat): Distributor {
    Distributor(snps, size, rank)
  }

  /** What thread `t` of process `rank` walks:
      `distributor.layer(threads, t).get_pairs()`, the lazy cursor of worker
      `rank * threads + t` of `size * threads`. */
  function ThreadPairs(snps: nat, size: nat, rank: nat, threads: nat, t: nat): seq<Pair>
    requires 0 < snps && rank < size && t < threads
  {
    LayerInRange(ProcessDistributor(snps, size, rank), threads, t);
    LazyPairs(Layer(ProcessDistributor(snps, size, rank), threads, t))
  }

  /** Thread `t` of process `rank` walks exactly the pairs whose row-major
      rank plus one is `rank * threads + t` modulo `size * threads`, and
      thread 0 of process 0 walks `(0, 0)` as well. */
  lemma ThreadShare(snps: nat, size: nat, rank: nat, threads: nat, t: nat, p: Pair)
    requires rank < size && t < threads && 0 < size * threads <= snps
    ensures p in ThreadPairs(snps, size, rank, threads, t)
        <==> ((p == (0, 0) && rank == 0 && t == 0) ||
              (IsPair(snps, p) && (Rank(snps, p) + 1) % (size * threads) == rank * threads + t))
  {
    var frac, g := size * threads, rank * threads + t;
    ThreadPairsShifted(snps, size, rank, threads, t);
    if g > 0 {
      WorkerMembership(snps, frac, g - 1, p);
    } else {
      WorkerMembership(snps, frac, frac - 1, p);
    }
    if IsPair(snps, p) {
      WorkersCover(snps, frac, p);
      ShiftedResidue(Rank(snps, p), frac, g);
    }
  }

  /** The lazy share of a thread as an eager share, shifted by one worker. */
  lemma ThreadPairsShifted(snps: nat, size: nat, rank: nat, threads: nat, t: nat)
    requires rank < size && t < threads && 0 < size * threads <= snps
    ensures rank * threads + t < size * threads
    ensures rank * threads + t == 0 <==> rank == 0 && t == 0
    ensures rank * threads + t > 0 ==>
      ThreadPairs(snps, size, rank, threads, t) == WorkerPairs(snps, size * threads, rank * threads + t - 1)
    ensures rank * threads + t == 0 ==>
      ThreadPairs(snps, size, rank, threads, t) == [(0, 0)] + WorkerPairs(snps, size * threads, size * threads - 1)
  {
    var d := Layer(ProcessDistributor(snps, size, rank), threads, t);
    LayerInRange(ProcessDistributor(snps, size, rank), threads, t);
    if rank >= 1 {
      MulAtLeast(rank, threads);
    }
    LazyIsShiftedEager(d);
  }

  /** Residues shifted by one: `x` is `g - 1` modulo `frac` exactly when
      `x + 1` is `g`, with `g = 0` standing for `frac - 1`. */
  lemma ShiftedResidue(x: nat, frac: nat, g: nat)
    requires g < frac
    ensures g > 0 ==> (x % frac == g - 1 <==> (x + 1) % frac == g)
    ensures g == 0 ==> (x % frac == frac - 1 <==> (x + 1) % frac == 0)
  {
    ModSucc(x, frac);
  }

  /** Thread `t` of process `rank` is given pair `p`. */
  ghost predicate Handles(snps: nat, size: nat, threads: nat, rank: nat, t: nat, p: Pair) {
    rank < size && t < threads && 0 < size * threads <= snps &&
    p in ThreadPairs(snps, size, rank, threads, t)
  }

  /** Every pair of markers is walked by exactly one thread of exactly one
      process. */
  lemma EveryPairOnce(snps: nat, size: nat, threads: nat, p: Pair)
    requires 0 < size * threads <= snps && IsPair(snps, p)
    ensures exists rank: nat, t: nat :: Handles(snps, size, threads, rank, t, p)
    ensures forall r1: nat, t1: nat, r2: nat, t2: nat |
              Handles(snps, size, threads, r1, t1, p) && Handles(snps, size, threads, r2, t2, p) ::
              r1 == r2 && t1 == t2
  {
    var frac := size * threads;
    WorkersCover(snps, frac, p);
    var g := (Rank(snps, p) + 1) % frac;
    LayerOnto(snps, size, threads, g);
    var rank, t := g / threads, g % threads;
    assert rank * threads + t == g;
    ThreadShare(snps, size, rank, threads, t, p);
    assert Handles(snps, size, threads, rank, t, p);
    forall r1: nat, t1: nat, r2: nat, t2: nat |
      Handles(snps, size, threads, r1, t1, p) && Handles(snps, size, threads, r2, t2, p)
      ensures r1 == r2 && t1 == t2
    {
      ThreadShare(snps, size, r1, threads, t1, p);
      ThreadShare(snps, size, r2, threads, t2, p);
      LayerInjective(Distributor(snps, size, r1), Distributor(snps, size, r2), threads, t1, t2);
    }
  }

  /** The eager generation's `layer` followed by `get_pairs`: worker
      `rank * threads + t` of `size * threads` holds exactly the pairs whose
      row-major rank is its id modulo `size * threads`. */
  lemma EagerThreadShare(snps: nat, size: nat, rank: nat, threads: nat, t: nat, p: Pair)
    requires rank < size && t < threads
    ensures Layer(ProcessDistributor(snps, size, rank), threads, t).frac == size * threads > 0
    ensures p in WorkerPairs(snps, size * threads, rank * threads + t)
        <==> IsPair(snps, p) && Rank(snps, p) % (size * threads) == rank * threads + t
  {
    var d := ProcessDistributor(snps, size, rank);
    LayerInRange(d, threads, t);
    WorkerMembership(snps, size * threads, rank * threads + t, p);
  }

  /** Worker `t` of layer `rank` gets pair `p` from the eager `get_pairs`. */
  ghost predicate EagerHandles(snps: nat, size: nat, threads: nat, rank: nat, t: nat, p: Pair) {
    rank < size && t < threads && 0 < size * threads &&
    p in WorkerPairs(snps, size * threads, rank * threads + t)
  }

  /** With the eager `get_pairs`, every pair goes to exactly one inner worker
      of exactly one outer worker, for any numbers of workers. */
  lemma EagerEveryPairOnce(snps: nat, size: nat, threads: nat, p: Pair)
    requires size > 0 && threads > 0 && IsPair(snps, p)
    ensures exists rank: nat, t: nat :: EagerHandles(snps, size, threads, rank, t, p)
    ensures forall r1: nat, t1: nat, r2: nat, t2: nat |
              EagerHandles(snps, size, threads, r1, t1, p) && EagerHandles(snps, size, threads, r2, t2, p) ::
              r1 == r2 && t1 == t2
  {
    var frac := size * threads;
    assert frac > 0 by {
      MulMonotone(1, size, threads);
    }
    WorkersCover(snps, frac, p);
    var g := Rank(snps, p) % frac;
    LayerOnto(snps, size, threads, g);
    var rank, t := g / threads, g % threads;
    assert rank * threads + t == g;
    assert EagerHandles(snps, size, threads, rank, t, p);
    forall r1: nat, t1: nat, r2: nat, t2: nat |
      EagerHandles(snps, size, threads, r1, t1, p) && EagerHandles(snps, size, threads, r2, t2, p)
      ensures r1 == r2 && t1 == t2
    {
      LayerInRange(Distributor(snps, size, r1), threads, t1);
      LayerInRange(Distributor(snps, size, r2), threads, t2);
      WorkersPartition(snps, frac, r1 * threads + t1, r2 * threads + t2, p);
      LayerInjective(Distributor(snps, size, r1), Distributor(snps, size, r2), threads, t1, t2);
    }
  }
}

=== FILE: scalar_kernel.dfy ===
/** The scalar backend: `combine` builds the next-order bit table and
    `combine_and_popcnt` reduces the same ANDs straight into counts. Plane
    `i` of the previous table meets plane `j` of the new marker in output
    plane `3i + j`: the new marker's genotype becomes the lowest base-3
    digit of the plane index. */
module ScalarKernel {

  import opened Arith
  import opened Words
  import opened Tables

  /** Output plane `3 * i + j` of the scalar layout: previous plane `i`,
      marker genotype `j`. */
  function ScalarSlot(i: nat, j: nat): nat {
    3 * i + j
  }

  /** One class of `combine`: the products of every previous plane with each
      of the marker's three planes, written over the first `3 * |prev|`
      planes of `out`. */
  function CombinePlanes(prev: seq<Plane>, next: seq<Plane>, out: seq<Plane>, words: nat): (r: seq<Plane>)
    requires PlanesOf(prev, words) && PlanesOf(next, words) && PlanesOf(out, words)
    requires |next| >= 3 && 3 * |prev| <= |out|
    ensures |r| == |out| && PlanesOf(r, words)
    ensures forall i, j | 0 <= i < |prev| && 0 <= j < 3 :: r[ScalarSlot(i, j)] == And(prev[i], next[j])
    ensures forall q | 3 * |prev| <= q < |out| :: r[q] == out[q]
  {
    var r := seq(|out|, q requires 0 <= q < |out| => Product(prev, next, out, q, words));
    PlanesByOperands(prev, next, words, r);
    r
  }

  lemma PlanesByOperands(prev: seq<Plane>, next: seq<Plane>, words: nat, r: seq<Plane>)
    requires PlanesOf(prev, words) && PlanesOf(next, words)
    requires |next| >= 3 && 3 * |prev| <= |r|
    requires forall q | 0 <= q < 3 * |prev| :: r[q] == And(prev[q / 3], next[q % 3])
    ensures forall i, j | 0 <= i < |prev| && 0 <= j < 3 :: r[ScalarSlot(i, j)] == And(prev[i], next[j])
  {
    forall i, j | 0 <= i < |prev| && 0 <= j < 3
      ensures r[ScalarSlot(i, j)] == And(prev[i], next[j])
    {
      DivModUnique(3 * i + j, 3, i, j);
    }
  }

  /** Plane `q` after the `combine` loops: the product that lands there, or
      the old plane past the products. */
  function Product(prev: seq<Plane>, next: seq<Plane>, out: seq<Plane>, q: nat, words: nat): (r: Plane)
    requires PlanesOf(prev, words) && PlanesOf(next, words) && PlanesOf(out, words)
    requires |next| >= 3 && q < |out|
    ensures q < 3 * |prev| ==> r == And(prev[q / 3], next[q % 3])
    ensures q >= 3 * |prev| ==> r == out[q]
    ensures |r| == words
  {
    if q < 3 * |prev| then And(prev[q / 3], next[q % 3]) else out[q]
  }

  /** The word counts of `t1` address all three tables, so the operands and
      the output must share them. */
  ghost predicate CombineOperands(t1: BitTable, t2: BitTable, out: BitTable) {
    && t1.WellFormed() && t2.WellFormed() && out.WellFormed()
    && t2.casesWords == t1.casesWords && out.casesWords == t1.casesWords
    && t2.ctrlsWords == t1.ctrlsWords && out.ctrlsWords == t1.ctrlsWords
    && t2.Size() >= 3 && 3 * t1.Size() <= out.Size()
  }

  /** `BitTable::combine(t1, t2, out)`. */
  function Combine(t1: BitTable, t2: BitTable, out: BitTable): (r: BitTable)
    requires CombineOperands(t1, t2, out)
    ensures r.WellFormed() && r.Size() == out.Size() && r.order == out.order
    ensures r.casesWords == out.casesWords && r.ctrlsWords == out.ctrlsWords
    ensures forall i, j | 0 <= i < t1.Size() && 0 <= j < 3 ::
      r.cases[ScalarSlot(i, j)] == And(t1.cases[i], t2.cases[j]) &&
      r.ctrls[ScalarSlot(i, j)] == And(t1.ctrls[i], t2.ctrls[j])
    ensures forall q | 3 * t1.Size() <= q < out.Size() ::
      r.cases[q] == out.cases[q] && r.ctrls[q] == out.ctrls[q]
  {
    out.(cases := CombinePlanes(t1.cases, t2.cases, out.cases, t1.casesWords),
         ctrls := CombinePlanes(t1.ctrls, t2.ctrls, out.ctrls, t1.ctrlsWords))
  }

  /** One class of `combine_and_popcnt`: every cell is zeroed, then cell
      `3i + j` accumulates the per-word popcounts of `prev[i] AND next[j]`. */
  function CountCells(prev: seq<Plane>, next: seq<Plane>, size: nat, words: nat): (r: seq<nat>)
    requires PlanesOf(prev, words) && PlanesOf(next, words)
    requires |next| >= 3 && 3 * |prev| <= size
    ensures |r| == size
    ensures forall i, j | 0 <= i < |prev| && 0 <= j < 3 :: r[ScalarSlot(i, j)] == AndPop(prev[i], next[j])
    ensures forall q | 3 * |prev| <= q < size :: r[q] == 0
    ensures forall q | 0 <= q < size :: r[q] <= WordBits * words
  {
    var r := seq(size, q requires 0 <= q < size => Cell(prev, next, q, words));
    CellsByOperands(prev, next, words, r);
    r
  }

  lemma CellsByOperands(prev: seq<Plane>, next: seq<Plane>, words: nat, r: seq<nat>)
    requires PlanesOf(prev, words) && PlanesOf(next, words)
    requires |next| >= 3 && 3 * |prev| <= |r|
    requires forall q | 0 <= q < 3 * |prev| :: r[q] == AndPop(prev[q / 3], next[q % 3])
    ensures forall i, j | 0 <= i < |prev| && 0 <= j < 3 :: r[ScalarSlot(i, j)] == AndPop(prev[i], next[j])
  {
    forall i, j | 0 <= i < |prev| && 0 <= j < 3
      ensures r[ScalarSlot(i, j)] == AndPop(prev[i], next[j])
    {
      DivModUnique(3 * i + j, 3, i, j);
    }
  }

  /** Cell `q` after the counting loops: the popcount of the product that
      lands there, or 0 past the products. */
  function Cell(prev: seq<Plane>, next: seq<Plane>, q: nat, words: nat): (r: nat)
    requires PlanesOf(prev, words) && PlanesOf(next, words) && |next| >= 3
    ensures q < 3 * |prev| ==> r == AndPop(prev[q / 3], next[q % 3])
    ensures q >= 3 * |prev| ==> r == 0
    ensures r <= WordBits * words
  {
    if q < 3 * |prev| then
      AndPopBound(prev[q / 3], next[q % 3]);
      AndPop(prev[q / 3], next[q % 3])
    else 0
  }

  ghost predicate CountOperands(t1: BitTable, t2: BitTable, out: ContingencyTable) {
    && t1.WellFormed() && t2.WellFormed() && out.WellFormed()
    && t2.casesWords == t1.casesWords && t2.ctrlsWords == t1.ctrlsWords
    && t2.Size() >= 3 && 3 * t1.Size() <= out.Size()
  }

  /** `BitTable::combine_and_popcnt(t1, t2, out)`: the previous contents of
      `out` do not matter, only its size. */
  function CombineAndPopcnt(t1: BitTable, t2: BitTable, out: ContingencyTable): (r: ContingencyTable)
    requires CountOperands(t1, t2, out)
    ensures r.WellFormed() && r.Size() == out.Size()
    ensures forall i, j | 0 <= i < t1.Size() && 0 <= j < 3 ::
      r.cases[ScalarSlot(i, j)] == AndPop(t1.cases[i], t2.cases[j]) &&
      r.ctrls[ScalarSlot(i, j)] == AndPop(t1.ctrls[i], t2.ctrls[j])
    ensures forall q | 3 * t1.Size() <= q < out.Size() :: r.cases[q] == 0 && r.ctrls[q] == 0
    ensures forall q | 0 <= q < out.Size() ::
      r.cases[q] <= WordBits * t1.casesWords && r.ctrls[q] <= WordBits * t1.ctrlsWords
  {
    out.(cases := CountCells(t1.cases, t2.cases, out.Size(), t1.casesWords),
         ctrls := CountCells(t1.ctrls, t2.ctrls, out.Size(), t1.ctrlsWords))
  }

  /** Plane index `q` of an output table splits into the previous plane
      `q / 3` and the marker genotype `q % 3`. */
  lemma SplitCell(q: nat)
    ensures q == 3 * (q / 3) + q % 3 && 0 <= q % 3 < 3
  {
  }

  /** Counting is `combine` followed by a popcount of each plane: every
      cell of `combine_and_popcnt(t1, t2)` is the number of set bits of the
      plane `combine(t1, t2)` writes at the same index. */
  lemma PopcntIsPopOfCombine(t1: BitTable, t2: BitTable, out: ContingencyTable, scratch: BitTable, q: nat)
    requires CountOperands(t1, t2, out) && CombineOperands(t1, t2, scratch)
    requires q < 3 * t1.Size()
    ensures CombineAndPopcnt(t1, t2, out).cases[q] == PlanePop(Combine(t1, t2, scratch).cases[q])
    ensures CombineAndPopcnt(t1, t2, out).ctrls[q] == PlanePop(Combine(t1, t2, scratch).ctrls[q])
  {
    SplitCell(q);
    var i, j := q / 3, q % 3;
    AndPopIsPlanePop(t1.cases[i], t2.cases[j]);
    AndPopIsPlanePop(t1.ctrls[i], t2.ctrls[j]);
  }

  /** One instance of `CombinePlanes`' quantified ensures, plane `3i+j`,
      named so that the SIMD comparison can pick it out by its slot. */
  lemma CombinePlaneAt(prev: seq<Plane>, next: seq<Plane>, out: seq<Plane>, words: nat, i: nat, j: nat)
    requires PlanesOf(prev, words) && PlanesOf(next, words) && PlanesOf(out, words)
    requires |next| >= 3 && 3 * |prev| <= |out| && i < |prev| && j < 3
    ensures ScalarSlot(i, j) < |out|
    ensures CombinePlanes(prev, next, out, words)[ScalarSlot(i, j)] == And(prev[i], next[j])
  {
  }

  /** One instance of `CountCells`' quantified ensures, cell `3i+j`, named
      so that the SIMD comparison can pick it out by its slot. */
  lemma CountCellAt(prev: seq<Plane>, next: seq<Plane>, size: nat, words: nat, i: nat, j: nat)
    requires PlanesOf(prev, words) && PlanesOf(next, words)
    requires |next| >= 3 && 3 * |prev| <= size && i < |prev| && j < 3
    ensures ScalarSlot(i, j) < size
    ensures CountCells(prev, next, size, words)[ScalarSlot(i, j)] == AndPop(prev[i], next[j])
  {
  }
}

=== FILE: simd_kernel.dfy ===
/** The AVX2 and AVX-512 backends: `fill` and `popcnt` walk the previous
    table's planes in blocks of three (`i = 0, 3, 6, ...`), then the new
    marker's planes `j = 0, 1, 2`, then the words of each plane in batches of
    `WIDTH` (4 or 8), one vector per batch. Product `c2[j] AND c1[i + d]` is
    stored in plane `(i + j) * 3 + d`: the new marker's genotype becomes the
    MIDDLE base-3 digit of the plane index, where the scalar backend puts it
    in the lowest digit. */
module SimdKernel {

  import opened Arith
  import opened Words
  import opened Tables
  import ScalarKernel

  /** `WIDTH` of the AVX2 backend: four 64-bit lanes per `__m256i`. */
  const Avx2Width: nat := 4
  /** `WIDTH` of the AVX-512 backend: eight 64-bit lanes per `__m512i`. */
  const Avx512Width: nat := 8

  /** Output plane `(i + j) * 3 + d` of the SIMD layout. */
  function SimdSlot(i: nat, j: nat, d: nat): nat {
    (i + j) * 3 + d
  }

  /** What the loops accept: the block loop needs `size1 % 3 == 0`, the
      batch loop needs word counts that are whole batches, and the marker
      supplies three planes. */
  ghost predicate FillOperands(c1: seq<Plane>, c2: seq<Plane>, words: nat, width: nat) {
    && width > 0 && words % width == 0
    && PlanesOf(c1, words) && PlanesOf(c2, words)
    && |c1| % 3 == 0 && |c2| >= 3
  }

  /** The nine vector stores of one block: for `j = 0, 1, 2` and offset
      `d = 0, 1, 2`, plane `3 * j + d` of the block is `c2[j] & c1[d]`,
      computed batch by batch. */
  function Block(c1: seq<Plane>, c2: seq<Plane>, words: nat, width: nat): (r: seq<Plane>)
    requires FillOperands(c1, c2, words, width) && |c1| >= 3
    ensures |r| == 9
  {
    seq(9, q requires 0 <= q < 9 => BatchedAnd(c2[q / 3], c1[q % 3], width))
  }

  lemma BlockAt(c1: seq<Plane>, c2: seq<Plane>, words: nat, width: nat, j: nat, d: nat)
    requires FillOperands(c1, c2, words, width) && |c1| >= 3 && j < 3 && d < 3
    ensures Block(c1, c2, words, width)[3 * j + d] == And(c2[j], c1[d])
  {
    DivModUnique(3 * j + d, 3, j, d);
    BatchedAndIsAnd(c2[j], c1[d], width);
  }

  lemma NextBlock(c1: seq<Plane>, c2: seq<Plane>, words: nat, width: nat)
    requires FillOperands(c1, c2, words, width) && |c1| > 0
    ensures |c1| >= 3 && FillOperands(c1[3..], c2, words, width)
  {
    MultipleStep(|c1|, 3);
  }

  /** The planes `fill` writes for the blocks of `c1`, in store order. */
  function FillBlocks(c1: seq<Plane>, c2: seq<Plane>, words: nat, width: nat): (r: seq<Plane>)
    requires FillOperands(c1, c2, words, width)
    ensures |r| == 3 * |c1|
    decreases |c1|
  {
    if |c1| == 0 then []
    else
      NextBlock(c1, c2, words, width);
      Block(c1, c2, words, width) + FillBlocks(c1[3..], c2, words, width)
  }

  /** Block `i`, marker plane `j`, offset `d` lands in plane
      `SimdSlot(i, j, d)`. */
  lemma {:induction false} FillBlocksAt(c1: seq<Plane>, c2: seq<Plane>, words: nat, width: nat,
                                        i: nat, j: nat, d: nat)
    requires FillOperands(c1, c2, words, width)
    requires i < |c1| && i % 3 == 0 && j < 3 && d < 3
    ensures i + d < |c1| && SimdSlot(i, j, d) < 3 * |c1|
    ensures FillBlocks(c1, c2, words, width)[SimdSlot(i, j, d)] == And(c2[j], c1[i + d])
    decreases i
  {
    NextBlock(c1, c2, words, width);
    var r := FillBlocks(c1, c2, words, width);
    var head := Block(c1, c2, words, width);
    var tail := FillBlocks(c1[3..], c2, words, width);
    assert r == head + tail;
    if i == 0 {
      assert r[SimdSlot(i, j, d)] == head[3 * j + d];
      BlockAt(c1, c2, words, width, j, d);
    } else {
      MultipleStep(i, 3);
      FillBlocksAt(c1[3..], c2, words, width, i - 3, j, d);
      assert r[SimdSlot(i, j, d)] == tail[SimdSlot(i - 3, j, d)];
    }
  }

  /** One class of `fill` over an output of `|out|` planes: the blocks,
      then the planes beyond `3 * size1`, which `fill` leaves alone. */
  function FillPlanes(c1: seq<Plane>, c2: seq<Plane>, out: seq<Plane>, words: nat, width: nat): (r: seq<Plane>)
    requires FillOperands(c1, c2, words, width)
    requires PlanesOf(out, words) && 3 * |c1| <= |out|
    ensures |r| == |out|
    ensures forall i, j, d | 0 <= i < |c1| && i % 3 == 0 && 0 <= j < 3 && 0 <= d < 3 ::
      i + d < |c1| && r[SimdSlot(i, j, d)] == And(c2[j], c1[i + d])
    ensures forall q | 3 * |c1| <= q < |out| :: r[q] == out[q]
  {
    var r := FillBlocks(c1, c2, words, width) + out[3 * |c1|..];
    forall i, j, d | 0 <= i < |c1| && i % 3 == 0 && 0 <= j < 3 && 0 <= d < 3
      ensures i + d < |c1| && r[SimdSlot(i, j, d)] == And(c2[j], c1[i + d])
    {
      FillBlocksAt(c1, c2, words, width, i, j, d);
    }
    r
  }

  /** `BitTable::fill(t, cases1, ctrls1, size1, cases2, ctrls2)` with
      `size1 == |cases1|`, at batch width `width`. */
  function Fill(t: BitTable, cases1: seq<Plane>, ctrls1: seq<Plane>,
                cases2: seq<Plane>, ctrls2: seq<Plane>, width: nat): (r: BitTable)
    requires TableFillOperands(t, cases1, ctrls1, cases2, ctrls2, width)
    ensures r.WellFormed() && r.Size() == t.Size() && r.order == t.order
    ensures r.casesWords == t.casesWords && r.ctrlsWords == t.ctrlsWords
    ensures forall i, j, d | 0 <= i < |cases1| && i % 3 == 0 && 0 <= j < 3 && 0 <= d < 3 ::
      i + d < |cases1| &&
      r.cases[SimdSlot(i, j, d)] == And(cases2[j], cases1[i + d]) &&
      r.ctrls[SimdSlot(i, j, d)] == And(ctrls2[j], ctrls1[i + d])
    ensures forall q | 3 * |cases1| <= q < t.Size() :: r.cases[q] == t.cases[q] && r.ctrls[q] == t.ctrls[q]
  {
    var cases := FillPlanes(cases1, cases2, t.cases, t.casesWords, width);
    var ctrls := FillPlanes(ctrls1, ctrls2, t.ctrls, t.ctrlsWords, width);
    FillPlanesShape(cases1, cases2, t.cases, t.casesWords, width);
    FillPlanesShape(ctrls1, ctrls2, t.ctrls, t.ctrlsWords, width);
    t.(cases := cases, ctrls := ctrls)
  }

  /** The operands of a whole-table `fill`: both classes share the block
      count `size1`, and the output has room for `3 * size1` planes. */
  ghost predicate TableFillOperands(t: BitTable, cases1: seq<Plane>, ctrls1: seq<Plane>,
                                    cases2: seq<Plane>, ctrls2: seq<Plane>, width: nat) {
    && t.WellFormed() && |cases1| == |ctrls1|
    && FillOperands(cases1, cases2, t.casesWords, width)
    && FillOperands(ctrls1, ctrls2, t.ctrlsWords, width)
    && 3 * |cases1| <= t.Size()
  }

  /** Every plane `fill` writes has the output's word count. */
  lemma FillPlanesShape(c1: seq<Plane>, c2: seq<Plane>, out: seq<Plane>, words: nat, width: nat)
    requires FillOperands(c1, c2, words, width)
    requires PlanesOf(out, words) && 3 * |c1| <= |out|
    ensures PlanesOf(FillPlanes(c1, c2, out, words, width), words)
  {
    var r := FillPlanes(c1, c2, out, words, width);
    forall q | 0 <= q < |r| ensures |r[q]| == words {
      if q < 3 * |c1| {
        var i, j, d := SlotDigits(q, |c1|);
      }
    }
  }

  /** Output plane `q < 3 * size1` is `SimdSlot(i, j, d)` for the block
      start `i = 3 * (q / 9)`, marker genotype `j = (q / 3) % 3` and offset
      `d = q % 3`. */
  lemma SlotDigits(q: nat, n: nat) returns (i: nat, j: nat, d: nat)
    requires n % 3 == 0 && q < 3 * n
    ensures i == 3 * (q / 9) && j == (q / 3) % 3 && d == q % 3
    ensures i < n && i % 3 == 0 && j < 3 && d < 3 && q == SimdSlot(i, j, d)
    ensures i + d < n
  {
    i, j, d := 3 * (q / 9), (q / 3) % 3, q % 3;
    DivMod(q, 9);
    DivMod(q, 3);
    DivMod(q / 3, 3);
    DivModUnique(q, 9, (q / 3) / 3, 3 * j + d);
    DivModUnique(i, 3, q / 9, 0);
    DivMod(n, 3);
  }

  /** Cell `3 * j + d` of a block's counts: the lane popcounts of every
      batch of `c2[j] & c1[d]`, summed. */
  function BatchCell(a: Plane, b: Plane, words: nat, width: nat): (r: nat)
    requires width > 0 && |a| == words && |b| == words && words % width == 0
    ensures r == AndPop(a, b) && r <= WordBits * words
  {
    BatchedPopIsAndPop(a, b, width);
    AndPopBound(a, b);
    BatchedPop(a, b, width)
  }

  /** The nine cells `popcnt` accumulates for one block. */
  function CountBlock(c1: seq<Plane>, c2: seq<Plane>, words: nat, width: nat): (r: seq<nat>)
    requires FillOperands(c1, c2, words, width) && |c1| >= 3
    ensures |r| == 9
    ensures forall q | 0 <= q < 9 :: r[q] <= WordBits * words
  {
    seq(9, q requires 0 <= q < 9 => BatchCell(c2[q / 3], c1[q % 3], words, width))
  }

  /** The cells `popcnt` accumulates for the blocks of `c1`. */
  function CountBlocks(c1: seq<Plane>, c2: seq<Plane>, words: nat, width: nat): (r: seq<nat>)
    requires FillOperands(c1, c2, words, width)
    ensures |r| == 3 * |c1|
    ensures forall q | 0 <= q < |r| :: r[q] <= WordBits * words
    decreases |c1|
  {
    if |c1| == 0 then []
    else
      NextBlock(c1, c2, words, width);
      CountBlock(c1, c2, words, width) + CountBlocks(c1[3..], c2, words, width)
  }

  lemma {:induction false} CountBlocksAt(c1: seq<Plane>, c2: seq<Plane>, words: nat, width: nat,
                                         i: nat, j: nat, d: nat)
    requires FillOperands(c1, c2, words, width)
    requires i < |c1| && i % 3 == 0 && j < 3 && d < 3
    ensures i + d < |c1| && SimdSlot(i, j, d) < 3 * |c1|
    ensures CountBlocks(c1, c2, words, width)[SimdSlot(i, j, d)] == AndPop(c2[j], c1[i + d])
    decreases i
  {
    NextBlock(c1, c2, words, width);
    var r := CountBlocks(c1, c2, words, width);
    var head := CountBlock(c1, c2, words, width);
    var tail := CountBlocks(c1[3..], c2, words, width);
    assert r == head + tail;
    if i == 0 {
      DivModUnique(3 * j + d, 3, j, d);
      assert head[3 * j + d] == BatchCell(c2[j], c1[d], words, width);
      assert r[SimdSlot(i, j, d)] == head[3 * j + d];
    } else {
      MultipleStep(i, 3);
      CountBlocksAt(c1[3..], c2, words, width, i - 3, j, d);
      assert r[SimdSlot(i, j, d)] == tail[SimdSlot(i - 3, j, d)];
    }
  }

  lemma CountLayout(c1: seq<Plane>, c2: seq<Plane>, words: nat, width: nat)
    requires FillOperands(c1, c2, words, width)
    ensures forall i, j, d | 0 <= i < |c1| && i % 3 == 0 && 0 <= j < 3 && 0 <= d < 3 ::
      i + d < |c1| && SimdSlot(i, j, d) < 3 * |c1| &&
      CountBlocks(c1, c2, words, width)[SimdSlot(i, j, d)] == AndPop(c2[j], c1[i + d])
  {
    forall i, j, d | 0 <= i < |c1| && i % 3 == 0 && 0 <= j < 3 && 0 <= d < 3
      ensures i + d < |c1| && SimdSlot(i, j, d) < 3 * |c1| &&
        CountBlocks(c1, c2, words, width)[SimdSlot(i, j, d)] == AndPop(c2[j], c1[i + d])
    {
      CountBlocksAt(c1, c2, words, width, i, j, d);
    }
  }

  /** One class of `popcnt` over `size` cells: all cells zeroed, then the
      blocks' sums. */
  function PopcntCells(c1: seq<Plane>, c2: seq<Plane>, size: nat, words: nat, width: nat): (r: seq<nat>)
    requires FillOperands(c1, c2, words, width) && 3 * |c1| <= size
    ensures |r| == size
    ensures forall i, j, d | 0 <= i < |c1| && i % 3 == 0 && 0 <= j < 3 && 0 <= d < 3 ::
      i + d < |c1| && r[SimdSlot(i, j, d)] == AndPop(c2[j], c1[i + d])
    ensures forall q | 3 * |c1| <= q < size :: r[q] == 0
    ensures forall q | 0 <= q < size :: r[q] <= WordBits * words
  {
    var counts := CountBlocks(c1, c2, words, width);
    CountLayout(c1, c2, words, width);
    counts + seq(size - 3 * |c1|, _ => 0)
  }

  ghost predicate TablePopcntOperands(cases1: seq<Plane>, ctrls1: seq<Plane>,
                                      cases2: seq<Plane>, ctrls2: seq<Plane>,
                                      t: ContingencyTable, width: nat) {
    && t.WellFormed() && |cases1| == |ctrls1|
    && FillOperands(cases1, cases2, t.casesWords, width)
    && FillOperands(ctrls1, ctrls2, t.ctrlsWords, width)
    && 3 * |cases1| <= t.Size()
  }

  /** `BitTable::popcnt(cases1, ctrls1, size1, cases2, ctrls2, t)` with
      `size1 == |cases1|`, at batch width `width`: the previous contents of
      `t` do not matter, only its size. */
  function Popcnt(cases1: seq<Plane>, ctrls1: seq<Plane>, cases2: seq<Plane>, ctrls2: seq<Plane>,
                  t: ContingencyTable, width: nat): (r: ContingencyTable)
    requires TablePopcntOperands(cases1, ctrls1, cases2, ctrls2, t, width)
    ensures r.WellFormed() && r.Size() == t.Size()
    ensures r.casesWords == t.casesWords && r.ctrlsWords == t.ctrlsWords
    ensures forall i, j, d | 0 <= i < |cases1| && i % 3 == 0 && 0 <= j < 3 && 0 <= d < 3 ::
      i + d < |cases1| &&
      r.cases[SimdSlot(i, j, d)] == AndPop(cases2[j], cases1[i + d]) &&
      r.ctrls[SimdSlot(i, j, d)] == AndPop(ctrls2[j], ctrls1[i + d])
    ensures forall q | 3 * |cases1| <= q < t.Size() :: r.cases[q] == 0 && r.ctrls[q] == 0
    ensures forall q | 0 <= q < t.Size() ::
      r.cases[q] <= WordBits * t.casesWords && r.ctrls[q] <= WordBits * t.ctrlsWords
  {
    t.(cases := PopcntCells(cases1, cases2, t.Size(), t.casesWords, width),
       ctrls := PopcntCells(ctrls1, ctrls2, t.Size(), t.ctrlsWords, width))
  }

  /** Counting is `fill` followed by a popcount of each plane: every cell
      `popcnt` produces is the number of set bits of the plane `fill` writes
      at the same index. */
  lemma PopcntIsPopOfFill(t: BitTable, cases1: seq<Plane>, ctrls1: seq<Plane>,
                          cases2: seq<Plane>, ctrls2: seq<Plane>,
                          ct: ContingencyTable, width: nat, q: nat)
    requires TableFillOperands(t, cases1, ctrls1, cases2, ctrls2, width)
    requires TablePopcntOperands(cases1, ctrls1, cases2, ctrls2, ct, width)
    requires ct.casesWords == t.casesWords && ct.ctrlsWords == t.ctrlsWords
    requires q < 3 * |cases1|
    ensures Popcnt(cases1, ctrls1, cases2, ctrls2, ct, width).cases[q]
         == PlanePop(Fill(t, cases1, ctrls1, cases2, ctrls2, width).cases[q])
    ensures Popcnt(cases1, ctrls1, cases2, ctrls2, ct, width).ctrls[q]
         == PlanePop(Fill(t, cases1, ctrls1, cases2, ctrls2, width).ctrls[q])
  {
    var i, j, d := SlotDigits(q, |cases1|);
    AndPopIsPlanePop(cases2[j], cases1[i + d]);
    AndPopIsPlanePop(ctrls2[j], ctrls1[i + d]);
  }

  /** The AVX-512 backend computes exactly what the AVX2 backend computes:
      an input valid for 8-word batches is valid for 4-word batches, and
      both `fill` and `popcnt` agree on it. */
  lemma Avx512MatchesAvx2(t: BitTable, cases1: seq<Plane>, ctrls1: seq<Plane>,
                          cases2: seq<Plane>, ctrls2: seq<Plane>, ct: ContingencyTable)
    requires TableFillOperands(t, cases1, ctrls1, cases2, ctrls2, Avx512Width)
    requires TablePopcntOperands(cases1, ctrls1, cases2, ctrls2, ct, Avx512Width)
    ensures TableFillOperands(t, cases1, ctrls1, cases2, ctrls2, Avx2Width)
    ensures TablePopcntOperands(cases1, ctrls1, cases2, ctrls2, ct, Avx2Width)
    ensures Fill(t, cases1, ctrls1, cases2, ctrls2, Avx512Width)
         == Fill(t, cases1, ctrls1, cases2, ctrls2, Avx2Width)
    ensures Popcnt(cases1, ctrls1, cases2, ctrls2, ct, Avx512Width)
         == Popcnt(cases1, ctrls1, cases2, ctrls2, ct, Avx2Width)
  {
    MultipleOfEightIsMultipleOfFour(t.casesWords);
    MultipleOfEightIsMultipleOfFour(t.ctrlsWords);
    MultipleOfEightIsMultipleOfFour(ct.casesWords);
    MultipleOfEightIsMultipleOfFour(ct.ctrlsWords);
    var f8, f4 := Fill(t, cases1, ctrls1, cases2, ctrls2, Avx512Width), Fill(t, cases1, ctrls1, cases2, ctrls2, Avx2Width);
    var p8, p4 := Popcnt(cases1, ctrls1, cases2, ctrls2, ct, Avx512Width), Popcnt(cases1, ctrls1, cases2, ctrls2, ct, Avx2Width);
    forall q | 0 <= q < 3 * |cases1|
      ensures f8.cases[q] == f4.cases[q] && f8.ctrls[q] == f4.ctrls[q]
      ensures p8.cases[q] == p4.cases[q] && p8.ctrls[q] == p4.ctrls[q]
    {
      var i, j, d := SlotDigits(q, |cases1|);
    }
    assert f8.cases == f4.cases;
    assert f8.ctrls == f4.ctrls;
    assert p8.cases == p4.cases;
    assert p8.ctrls == p4.ctrls;
  }

  /** Where the scalar backend stores the product that the SIMD backends
      store in plane `q`: the lowest two base-3 digits of `q` trade places. */
  function SwapDigits(q: nat): nat {
    9 * (q / 9) + 3 * (q % 3) + (q / 3) % 3
  }

  /** `SwapDigits` maps the written planes onto themselves and undoes
      itself, so it is a permutation of them. */
  lemma SwapDigitsInvolution(q: nat, n: nat)
    requires n % 3 == 0 && q < 3 * n
    ensures SwapDigits(q) < 3 * n
    ensures SwapDigits(SwapDigits(q)) == q
  {
    var i, j, d := SlotDigits(q, n);
    var s := SwapDigits(q);
    assert s == SimdSlot(i, d, j);
    var i', j', d' := SlotDigits(s, n);
    DivModUnique(s, 9, i / 3, 3 * d + j);
    DivModUnique(s, 3, i + d, j);
    DivModUnique(i + d, 3, i / 3, d);
  }

  /** `fill` writes the products `combine` writes, permuted by
      `SwapDigits`: plane `q` of the SIMD layout is plane `SwapDigits(q)`
      of the scalar layout. */
  lemma FillIsSwappedCombine(c1: seq<Plane>, c2: seq<Plane>, out: seq<Plane>,
                             words: nat, width: nat, q: nat)
    requires FillOperands(c1, c2, words, width)
    requires PlanesOf(out, words) && 3 * |c1| <= |out|
    requires q < 3 * |c1|
    ensures SwapDigits(q) < 3 * |c1|
    ensures FillPlanes(c1, c2, out, words, width)[q]
         == ScalarKernel.CombinePlanes(c1, c2, out, words)[SwapDigits(q)]
  {
    var i, j, d := SlotDigits(q, |c1|);
    SwapOfSlot(i, j, d, q);
    FillPlaneAt(c1, c2, out, words, width, i, j, d);
    ScalarKernel.CombinePlaneAt(c1, c2, out, words, i + d, j);
    AndCommutes(c2[j], c1[i + d]);
  }

  lemma SwapOfSlot(i: nat, j: nat, d: nat, q: nat)
    requires i % 3 == 0 && j < 3 && d < 3 && q == SimdSlot(i, j, d)
    ensures SwapDigits(q) == ScalarKernel.ScalarSlot(i + d, j)
  {
    DivMod(i, 3);
    DivModUnique(q, 9, i / 3, 3 * j + d);
    DivModUnique(q, 3, i + j, d);
    DivModUnique(i + j, 3, i / 3, j);
  }

  /** One instance of `FillPlanes`' quantified ensures, the plane written
      for `(i, j, d)`, named so that `FillIsSwappedCombine` can pick it out
      by its slot. */
  lemma FillPlaneAt(c1: seq<Plane>, c2: seq<Plane>, out: seq<Plane>, words: nat, width: nat,
                    i: nat, j: nat, d: nat)
    requires FillOperands(c1, c2, words, width)
    requires PlanesOf(out, words) && 3 * |c1| <= |out|
    requires i < |c1| && i % 3 == 0 && j < 3 && d < 3
    ensures i + d < |c1| && SimdSlot(i, j, d) < |out|
    ensures FillPlanes(c1, c2, out, words, width)[SimdSlot(i, j, d)] == And(c2[j], c1[i + d])
  {
  }

  /** The counts are permuted the same way: cell `q` of `popcnt` is cell
      `SwapDigits(q)` of `combine_and_popcnt`. */
  lemma PopcntIsSwappedCount(c1: seq<Plane>, c2: seq<Plane>, size: nat,
                             words: nat, width: nat, q: nat)
    requires FillOperands(c1, c2, words, width) && 3 * |c1| <= size
    requires q < 3 * |c1|
    ensures SwapDigits(q) < 3 * |c1|
    ensures PopcntCells(c1, c2, size, words, width)[q]
         == ScalarKernel.CountCells(c1, c2, size, words)[SwapDigits(q)]
  {
    var i, j, d := SlotDigits(q, |c1|);
    SwapOfSlot(i, j, d, q);
    PopcntCellAt(c1, c2, size, words, width, i, j, d);
    ScalarKernel.CountCellAt(c1, c2, size, words, i + d, j);
    AndPopCommutes(c2[j], c1[i + d]);
  }

  /** One instance of `PopcntCells`' quantified ensures, the cell written
      for `(i, j, d)`, named so that `PopcntIsSwappedCount` can pick it out
      by its slot. */
  lemma PopcntCellAt(c1: seq<Plane>, c2: seq<Plane>, size: nat, words: nat, width: nat,
                     i: nat, j: nat, d: nat)
    requires FillOperands(c1, c2, words, width) && 3 * |c1| <= size
    requires i < |c1| && i % 3 == 0 && j < 3 && d < 3
    ensures i + d < |c1| && SimdSlot(i, j, d) < size
    ensures PopcntCells(c1, c2, size, words, width)[SimdSlot(i, j, d)] == AndPop(c2[j], c1[i + d])
  {
  }

  /** The two layouts differ: one marker-one table whose first plane is all
      ones meets a marker whose planes are all ones. The scalar backend
      stores `prev[0] & next[1]` (all ones) in plane 1; the SIMD backends
      store `next[0] & prev[1]` (all zeros) there. */
  lemma LayoutsDiffer()
    ensures var ones: Plane := [0xFFFF_FFFF_FFFF_FFFF, 0xFFFF_FFFF_FFFF_FFFF,
                                0xFFFF_FFFF_FFFF_FFFF, 0xFFFF_FFFF_FFFF_FFFF];
            var zeros: Plane := [0, 0, 0, 0];
            var c1, c2 := [ones, zeros, zeros], [ones, ones, ones];
            var out := [zeros, zeros, zeros, zeros, zeros, zeros, zeros, zeros, zeros];
            FillOperands(c1, c2, 4, Avx2Width) && PlanesOf(out, 4) &&
            FillPlanes(c1, c2, out, 4, Avx2Width) != ScalarKernel.CombinePlanes(c1, c2, out, 4)
  {
    var ones: Plane := [0xFFFF_FFFF_FFFF_FFFF, 0xFFFF_FFFF_FFFF_FFFF,
                        0xFFFF_FFFF_FFFF_FFFF, 0xFFFF_FFFF_FFFF_FFFF];
    var zeros: Plane := [0, 0, 0, 0];
    var c1, c2 := [ones, zeros, zeros], [ones, ones, ones];
    var out := [zeros, zeros, zeros, zeros, zeros, zeros, zeros, zeros, zeros];
    var simd := FillPlanes(c1, c2, out, 4, Avx2Width);
    var scalar := ScalarKernel.CombinePlanes(c1, c2, out, 4);
    assert simd[SimdSlot(0, 0, 1)] == And(ones, zeros);
    assert scalar[3 * 0 + 1] == And(ones, ones);
    assert simd[1][0] == 0;
    assert scalar[1][0] == 0xFFFF_FFFF_FFFF_FFFF;
  }

  /** With the same three planes on both sides (the only operands the unit
      test feeds), the two layouts coincide, which is why the test cannot
      tell them apart. */
  lemma IdenticalOperandsAgree(c: seq<Plane>, out: seq<Plane>, words: nat, width: nat)
    requires FillOperands(c, c, words, width) && |c| == 3
    requires PlanesOf(out, words) && 9 <= |out|
    ensures FillPlanes(c, c, out, words, width) == ScalarKernel.CombinePlanes(c, c, out, words)
  {
    var f, s := FillPlanes(c, c, out, words, width), ScalarKernel.CombinePlanes(c, c, out, words);
    forall q | 0 <= q < |f| ensures f[q] == s[q] {
      if q < 9 {
        IdenticalPlaneAt(c, out, words, width, q);
      }
    }
  }

  lemma IdenticalPlaneAt(c: seq<Plane>, out: seq<Plane>, words: nat, width: nat, q: nat)
    requires FillOperands(c, c, words, width) && |c| == 3
    requires PlanesOf(out, words) && 9 <= |out| && q < 9
    ensures FillPlanes(c, c, out, words, width)[q] == ScalarKernel.CombinePlanes(c, c, out, words)[q]
  {
    DivMod(q, 3);
    var j, d := q / 3, q % 3;
    FillSide(c, out, words, width, j, d);
    ScalarKernel.CombinePlaneAt(c, c, out, words, j, d);
    assert ScalarKernel.ScalarSlot(j, d) == q;
  }

  lemma FillSide(c: seq<Plane>, out: seq<Plane>, words: nat, width: nat, j: nat, d: nat)
    requires FillOperands(c, c, words, width) && |c| == 3
    requires PlanesOf(out, words) && 9 <= |out| && j < 3 && d < 3
    ensures FillPlanes(c, c, out, words, width)[3 * j + d] == And(c[j], c[d])
  {
    FillPlaneAt(c, c, out, words, width, 0, j, d);
  }

  /** The same holds for the counts. */
  lemma IdenticalOperandsCountAgree(c: seq<Plane>, size: nat, words: nat, width: nat)
    requires FillOperands(c, c, words, width) && |c| == 3 && 9 <= size
    ensures PopcntCells(c, c, size, words, width) == ScalarKernel.CountCells(c, c, size, words)
  {
    var f, s := PopcntCells(c, c, size, words, width), ScalarKernel.CountCells(c, c, size, words);
    forall q | 0 <= q < size ensures f[q] == s[q] {
      if q < 9 {
        var i, j, d := SlotDigits(q, 3);
        assert f[SimdSlot(0, j, d)] == AndPop(c[j], c[d]);
        assert s[ScalarKernel.ScalarSlot(j, d)] == AndPop(c[j], c[d]);
      }
    }
  }

  /** The AVX2 constructor: 4 spare words and a 32-byte aligned case region
      that still ends inside the allocation. */
  lemma Avx2Alignment(addr: nat, tableWords: nat)
    requires addr % 8 == 0
    ensures AlignUp(addr, 32) % 32 == 0 && addr <= AlignUp(addr, 32)
    ensures AlignUp(addr, 32) + 8 * tableWords <= addr + 8 * (tableWords + 4) - 8
  {
    AlignedRegionFits(addr, Avx2Width, tableWords);
  }

  /** The AVX-512 constructor: 8 spare words and a 64-byte aligned case
      region that still ends inside the allocation. */
  lemma Avx512Alignment(addr: nat, tableWords: nat)
    requires addr % 8 == 0
    ensures AlignUp(addr, 64) % 64 == 0 && addr <= AlignUp(addr, 64)
    ensures AlignUp(addr, 64) + 8 * tableWords <= addr + 8 * (tableWords + 8) - 8
  {
    AlignedRegionFits(addr, Avx512Width, tableWords);
  }
}

=== FILE: tables.dfy ===
/** The two table types of the engine, as values.

    A `BitTable` of order `o` holds `3^o` bit-planes for cases and as many for
    controls; plane `p` of a combination table belongs to the genotype digit
    string whose base-3 value is `p`. A `ContingencyTable` holds one count per
    plane and class. Both are shared by the scalar kernel (`combine`,
    `combine_and_popcnt`) and the SIMD kernels (`fill`, `popcnt`). */
module Tables {

  import opened Arith
  import opened Words

  function Pow3(o: nat): (r: nat)
    ensures r >= 1
  {
    if o == 0 then 1 else 3 * Pow3(o - 1)
  }

  datatype BitTable = BitTable(order: nat, casesWords: nat, ctrlsWords: nat,
                               cases: seq<Plane>, ctrls: seq<Plane>)
  {
    /** Number of planes per class (`size` in the source). */
    function Size(): nat {
      |cases|
    }

    ghost predicate WellFormed() {
      && |cases| == |ctrls|
      && PlanesOf(cases, casesWords)
      && PlanesOf(ctrls, ctrlsWords)
    }
  }

  /** One count per plane and class; `casesWords`/`ctrlsWords` are the word
      counts of the bit tables it is computed from (the SIMD `popcnt` reads
      them from here). */
  datatype ContingencyTable = ContingencyTable(casesWords: nat, ctrlsWords: nat,
                                               cases: seq<nat>, ctrls: seq<nat>)
  {
    function Size(): nat {
      |cases|
    }

    predicate WellFormed() {
      |cases| == |ctrls|
    }
  }

  function ZeroPlanes(n: nat, words: nat): (r: seq<Plane>)
    ensures |r| == n && PlanesOf(r, words)
    ensures forall p, k | 0 <= p < n && 0 <= k < words :: r[p][k] == 0
  {
    seq(n, _ => seq(words, _ => 0 as bv64))
  }

  /** `BitTable(order, cases_words, ctrls_words)`: an owned table with
      `3^order` planes per class, value-initialised to zero words. */
  function NewBitTable(order: nat, casesWords: nat, ctrlsWords: nat): (t: BitTable)
    ensures t.WellFormed() && t.order == order
    ensures t.Size() == Pow3(order)
    ensures t.casesWords == casesWords && t.ctrlsWords == ctrlsWords
  {
    BitTable(order, casesWords, ctrlsWords,
             ZeroPlanes(Pow3(order), casesWords), ZeroPlanes(Pow3(order), ctrlsWords))
  }

  /** The words of consecutive planes laid end to end, as in one allocation. */
  function Flatten(planes: seq<Plane>): seq<bv64> {
    if |planes| == 0 then [] else planes[0] + Flatten(planes[1..])
  }

  lemma {:induction false} FlattenIndex(planes: seq<Plane>, words: nat, p: nat, k: nat)
    requires PlanesOf(planes, words)
    requires p < |planes| && k < words
    ensures |Flatten(planes)| == |planes| * words
    ensures p * words + k < |Flatten(planes)|
    ensures Flatten(planes)[p * words + k] == planes[p][k]
    decreases p
  {
    FlattenLength(planes, words);
    if p > 0 {
      FlattenIndex(planes[1..], words, p - 1, k);
      assert p * words + k == (p - 1) * words + k + words;
    }
  }

  lemma {:induction false} FlattenLength(planes: seq<Plane>, words: nat)
    requires PlanesOf(planes, words)
    ensures |Flatten(planes)| == |planes| * words
  {
    if |planes| > 0 {
      FlattenLength(planes[1..], words);
      assert |planes| * words == (|planes| - 1) * words + words;
    }
  }

  /** The scalar constructor's single allocation: `size * cases_words` case
      words followed directly by the control words. */
  function Allocation(t: BitTable): seq<bv64> {
    Flatten(t.cases) + Flatten(t.ctrls)
  }

  lemma AllocationLength(t: BitTable)
    requires t.WellFormed()
    ensures |Allocation(t)| == t.Size() * (t.casesWords + t.ctrlsWords)
  {
    FlattenLength(t.cases, t.casesWords);
    FlattenLength(t.ctrls, t.ctrlsWords);
    Distribute(|t.cases|, t.casesWords, t.ctrlsWords);
  }

  /** Case word `k` of plane `p` sits at offset `p * cases_words + k`. */
  lemma CasesLayout(t: BitTable, p: nat, k: nat)
    requires t.WellFormed() && p < t.Size() && k < t.casesWords
    ensures p * t.casesWords + k < |Allocation(t)|
    ensures Allocation(t)[p * t.casesWords + k] == t.cases[p][k]
  {
    var a, b := Flatten(t.cases), Flatten(t.ctrls);
    FlattenIndex(t.cases, t.casesWords, p, k);
    ConcatLeft(a, b, p * t.casesWords + k);
  }

  /** Control word `k` of plane `p` sits after all `size * cases_words` case
      words, at `size * cases_words + p * ctrls_words + k`. */
  lemma CtrlsLayout(t: BitTable, p: nat, k: nat)
    requires t.WellFormed() && p < t.Size() && k < t.ctrlsWords
    ensures t.Size() * t.casesWords + p * t.ctrlsWords + k < |Allocation(t)|
    ensures Allocation(t)[t.Size() * t.casesWords + p * t.ctrlsWords + k] == t.ctrls[p][k]
  {
    var a, b := Flatten(t.cases), Flatten(t.ctrls);
    FlattenLength(t.cases, t.casesWords);
    FlattenIndex(t.ctrls, t.ctrlsWords, p, k);
    var i := p * t.ctrlsWords + k;
    ConcatRight(a, b, i);
  }

  lemma ConcatLeft<T>(a: seq<T>, b: seq<T>, i: nat)
    requires i < |a|
    ensures (a + b)[i] == a[i]
  {
  }

  lemma ConcatRight<T>(a: seq<T>, b: seq<T>, i: nat)
    requires i < |b|
    ensures (a + b)[|a| + i] == b[i]
  {
  }

  lemma Distribute(n: nat, x: nat, y: nat)
    ensures n * (x + y) == n * x + n * y
  {
  }

  /** `(addr + bytes - 1) / bytes * bytes`: the first `bytes`-aligned address
      at or after `addr`. */
  function AlignUp(addr: nat, bytes: nat): nat
    requires bytes > 0
  {
    (addr + bytes - 1) / bytes * bytes
  }

  /** The SIMD constructors allocate `extra` more words than the table needs
      (4 for AVX2, 8 for AVX-512) and start the case region at the next
      `8 * extra`-byte boundary (32 or 64 bytes). Because a `uint64_t`
      allocation is 8-byte aligned, rounding up skips at most `extra - 1`
      words, so the whole aligned region still lies inside the allocation. */
  lemma AlignedRegionFits(addr: nat, extra: nat, tableWords: nat)
    requires extra > 0 && addr % 8 == 0
    ensures AlignUp(addr, 8 * extra) % (8 * extra) == 0
    ensures addr <= AlignUp(addr, 8 * extra)
    ensures AlignUp(addr, 8 * extra) + 8 * tableWords <= addr + 8 * (tableWords + extra) - 8
  {
    var b := 8 * extra;
    var x := addr + b - 1;
    DivMod(x, b);
    var q, r := x / b, x % b;
    var up := q * b;
    DivModUnique(up, b, q, 0);
    // up - addr == b - 1 - r, and both up and addr are multiples of 8
    DivMod(addr, 8);
    var a8 := addr / 8;
    assert up == 8 * (q * extra);
    var gap := up - addr;
    assert gap == 8 * (q * extra - a8);
    assert 0 <= gap <= b - 1;
    var m := q * extra - a8;
    assert gap == 8 * m;
    assert m <= extra - 1;
  }
}

=== FILE: words.dfy ===
/** 64-bit words, bit-planes and the population counts taken over them.

    A word is a `bv64` (the `uint64_t` of the kernels); a bit-plane is the
    sequence of words that stores one genotype value of one marker for one
    phenotype class, one bit per individual. */
module Words {

  import opened Arith

  /** Bits in a word: `sizeof(uint64_t) * 8`. */
  const WordBits: nat := 64

  type Plane = seq<bv64>

  function Pow2(n: nat): (r: nat)
    ensures r >= 1
  {
    if n == 0 then 1 else 2 * Pow2(n - 1)
  }

  /** Number of set bits among the low `bits` bits of a non-negative
      integer (the dataset encoder's words, read as `uint64_t` values). */
  function PopNat(n: nat, bits: nat): nat
    decreases bits
  {
    if bits == 0 then 0 else n % 2 + PopNat(n / 2, bits - 1)
  }

  lemma {:induction false} PopNatBound(n: nat, bits: nat)
    ensures PopNat(n, bits) <= bits
    decreases bits
  {
    if bits > 0 {
      PopNatBound(n / 2, bits - 1);
    }
  }

  /** A number below 2^m has no set bit at position m or above, so counting
      one more bit does not change its population count. */
  lemma {:induction false} PopNatWiden(n: nat, m: nat)
    requires n < Pow2(m)
    ensures PopNat(n, m + 1) == PopNat(n, m)
    decreases m
  {
    if m == 0 {
      assert n == 0;
    } else {
      PopNatWiden(n / 2, m - 1);
    }
  }

  /** Number of set bits among the low `bits` bits of a word, read off one
      bit at a time from the bottom. */
  function PopBits(w: bv64, bits: nat): nat
    decreases bits
  {
    if bits == 0 then 0 else (if w & 1 == 1 then 1 else 0) + PopBits(w >> 1, bits - 1)
  }

  lemma {:induction false} PopBitsBound(w: bv64, bits: nat)
    ensures PopBits(w, bits) <= bits
    decreases bits
  {
    if bits > 0 {
      PopBitsBound(w >> 1, bits - 1);
    }
  }

  /** `_popcnt64` / `std::bitset<64>::count`. */
  function PopCount(w: bv64): (r: nat)
    ensures r <= WordBits
  {
    PopBitsBound(w, WordBits);
    PopBits(w, WordBits)
  }

  ghost predicate PlanesOf(planes: seq<Plane>, words: nat) {
    forall p | 0 <= p < |planes| :: |planes[p]| == words
  }

  /** Word-by-word AND of two planes (`a[k] & b[k]` for every word `k`). */
  function And(a: Plane, b: Plane): (r: Plane)
    requires |a| == |b|
    ensures |r| == |a|
    ensures forall k | 0 <= k < |r| :: r[k] == a[k] & b[k]
  {
    seq(|a|, k requires 0 <= k < |a| => a[k] & b[k])
  }

  lemma {:induction false} AndCommutes(a: Plane, b: Plane)
    requires |a| == |b|
    ensures And(a, b) == And(b, a)
  {
    var x, y := And(a, b), And(b, a);
    assert forall k | 0 <= k < |x| :: x[k] == y[k] by {
      forall k | 0 <= k < |x| ensures x[k] == y[k] {
        assert a[k] & b[k] == b[k] & a[k];
      }
    }
  }

  lemma {:induction false} AndSplit(a: Plane, b: Plane, n: nat)
    requires |a| == |b| && n <= |a|
    ensures And(a, b) == And(a[..n], b[..n]) + And(a[n..], b[n..])
  {
    var x, y := And(a, b), And(a[..n], b[..n]) + And(a[n..], b[n..]);
    assert |x| == |y|;
    forall k | 0 <= k < |x| ensures x[k] == y[k] {
      if k < n {
        assert y[k] == And(a[..n], b[..n])[k];
      } else {
        assert y[k] == And(a[n..], b[n..])[k - n];
      }
    }
  }

  /** Population count of a whole plane: the sum of its words' counts. */
  function PlanePop(p: Plane): nat {
    if |p| == 0 then 0 else PopCount(p[0]) + PlanePop(p[1..])
  }

  lemma {:induction false} PlanePopBound(p: Plane)
    ensures PlanePop(p) <= WordBits * |p|
  {
    if |p| > 0 {
      PlanePopBound(p[1..]);
    }
  }

  lemma {:induction false} PlanePopAppend(p: Plane, q: Plane)
    ensures PlanePop(p + q) == PlanePop(p) + PlanePop(q)
  {
    if |p| == 0 {
      assert p + q == q;
    } else {
      assert (p + q)[1..] == p[1..] + q;
      PlanePopAppend(p[1..], q);
    }
  }

  /** What the scalar counting loops accumulate into one cell: the sum over
      words `k` of `popcount(a[k] & b[k])`, one word at a time. */
  function AndPop(a: Plane, b: Plane): nat
    requires |a| == |b|
  {
    if |a| == 0 then 0 else PopCount(a[0] & b[0]) + AndPop(a[1..], b[1..])
  }

  lemma AndPopCommutes(a: Plane, b: Plane)
    requires |a| == |b|
    ensures AndPop(a, b) == AndPop(b, a)
  {
    AndPopIsPlanePop(a, b);
    AndPopIsPlanePop(b, a);
    AndCommutes(a, b);
  }

  /** Counting while ANDing gives the count of the ANDed plane. */
  lemma {:induction false} AndPopIsPlanePop(a: Plane, b: Plane)
    requires |a| == |b|
    ensures AndPop(a, b) == PlanePop(And(a, b))
  {
    if |a| > 0 {
      var x := And(a, b);
      AndPopIsPlanePop(a[1..], b[1..]);
      AndDrop(a, b);
      assert PlanePop(x) == PopCount(a[0] & b[0]) + PlanePop(x[1..]);
    }
  }

  lemma AndDrop(a: Plane, b: Plane)
    requires |a| == |b| && |a| > 0
    ensures And(a, b)[1..] == And(a[1..], b[1..])
  {
  }

  lemma AndPopBound(a: Plane, b: Plane)
    requires |a| == |b|
    ensures AndPop(a, b) <= WordBits * |a|
  {
    AndPopIsPlanePop(a, b);
    PlanePopBound(And(a, b));
  }

  /** The SIMD store path: the plane is produced `width` words at a time by
      one vector AND per batch. */
  function BatchedAnd(a: Plane, b: Plane, width: nat): (r: Plane)
    requires width > 0 && |a| == |b| && |a| % width == 0
    ensures |r| == |a|
    decreases |a|
  {
    if |a| == 0 then []
    else
      MultipleStep(|a|, width);
      And(a[..width], b[..width]) + BatchedAnd(a[width..], b[width..], width)
  }

  /** The SIMD counting path: per batch of `width` words, one vector AND and
      the sum of the popcounts of its lanes is added to the cell. */
  function BatchedPop(a: Plane, b: Plane, width: nat): nat
    requires width > 0 && |a| == |b| && |a| % width == 0
    decreases |a|
  {
    if |a| == 0 then 0
    else
      MultipleStep(|a|, width);
      PlanePop(And(a[..width], b[..width])) + BatchedPop(a[width..], b[width..], width)
  }

  /** Batching is only a throughput device: the batched store writes the
      word-at-a-time AND. */
  lemma {:induction false} BatchedAndIsAnd(a: Plane, b: Plane, width: nat)
    requires width > 0 && |a| == |b| && |a| % width == 0
    ensures BatchedAnd(a, b, width) == And(a, b)
    decreases |a|
  {
    if |a| > 0 {
      MultipleStep(|a|, width);
      BatchedAndIsAnd(a[width..], b[width..], width);
      AndSplit(a, b, width);
    }
  }

  /** Batched counting equals the word-at-a-time count. */
  lemma {:induction false} BatchedPopIsAndPop(a: Plane, b: Plane, width: nat)
    requires width > 0 && |a| == |b| && |a| % width == 0
    ensures BatchedPop(a, b, width) == AndPop(a, b)
    decreases |a|
  {
    if |a| > 0 {
      MultipleStep(|a|, width);
      BatchedPopIsAndPop(a[width..], b[width..], width);
      AndSplit(a, b, width);
      PlanePopAppend(And(a[..width], b[..width]), And(a[width..], b[width..]));
      AndPopIsPlanePop(a, b);
      AndPopIsPlanePop(a[width..], b[width..]);
    }
  }
}
